=== FILE: README.md ===
# OpenVINO core rules, modelled in Dafny

This project models a slice of the OpenVINO toolkit, a compiler and runtime
for neural-network graphs. Each slice below is a pure Dafny model with
contracts and lemmas proved about it:

- **ONNX importer graph cache** (`graph_cache.dfy`). This is the scoped
  name → value table that tensor names resolve through. A top-level
  `GraphCache` holds one map. A `SubgraphCache` overlays its own map on a
  parent cache.
- **Graph IR** (`graph_ir.dfy`). This is an abstract node-id → node graph
  that serves as the common ground of the two rewrites below. Each node has
  a kind, inputs, element type, friendly name and runtime-info
  (provenance) set. A rewrite appends fresh nodes, copies runtime info and
  replaces a root node; those are the primitives that `replace_node` and
  `copy_runtime_info` provide to the callbacks. Acyclicity is the existence
  of an integer ranking in which every input ranks below its consumer.
- **`ConvToBinaryConv`** (`conv_to_binary_conv.dfy`). A Convolution that
  reads a 2-level FakeQuantize and ±1 weights becomes a BinaryConvolution
  over bit-packed weights. When the FakeQuantize's lower output bound is 0
  rather than −1, compensating arithmetic is added after it; that Add
  rejects a FakeQuantize whose output is not f32.
- **`ReduceL2Decomposition`** (`reduce_l2_decomposition.dfy`). ReduceL2
  becomes Sqrt(ReduceSum(Power(x, 2))).
- **The CPU plugin's blocked memory descriptor** (`cpu_blocked_memory_desc.dfy`).
  This covers:
  - constructor validation and default strides;
  - element and index offsets, and memory size;
  - layout classification (plain, channel-blocked, channels-last);
  - detecting padded blocks;
  - re-dimensioning (`cloneWithNewDims`) and precision change.
- **Keep-dims logical reduction** (`logical_reduction_keep_dims.dfy`). This
  is output-shape inference for ReduceLogicalAnd/Or with `keep_dims`.
- **Three clDNN GPU selection rules**:
  - the 1x1 bfyx convolution kernel's block, validation, weights-layout and
    dispatch rules (`convolution_kernel_bfyx_1x1_opt.dfy`);
  - the quantize kernel base's validation, packed-binary classification and
    early exit (`quantize_kernel_base.dfy`);
  - the `normalize` primitive's output type and scale-shape checks
    (`normalize.dfy`).
- **The ONNX `DetectionOutput` importer** (`detection_output.dfy`). This
  covers attribute defaults, `code_type` normalization and dispatch on the
  number of inputs.

`wrappers.dfy` holds `Option` and `Result`, and `c_int.dfy` the one C++
integer conversion the model needs, `Int32Of`. Exceptions the C++ code throws
are `Failure` values carrying its message, where the message is written
out in the code. Undefined behaviour in the C++ code, such as an
out-of-range vector index, becomes a precondition. Each such precondition
is named after what it guards: `CtorInBounds`, `OffsetInBounds`,
`ElementOffsetInBounds`, `CloneInBounds` and `BlocksInRank`.

Two facts of the C++ code are worth stating up front:

- **Which `ConvToBinaryConv` branch adds arithmetic**
  (`conv_to_binary_conv.cpp:77-107`). The arithmetic Add/Multiply(0.5) is
  built when the FakeQuantize's `output_low` is all 0.
  The BinaryConvolution's pad value is then −1. The Add's two arguments are
  the BinaryConvolution, typed like the FakeQuantize output, and the f32
  reduced weights; nGraph's Add requires them to share an element type, so
  the branch completes only for an f32 FakeQuantize. For any other type the
  Add constructor throws and nothing is rewritten (`AddTypeMismatch`). When `output_low` is all −1,
  a single BinaryConvolution with pad value 0 is built. In both branches
  the BinaryConvolution carries the Convolution's friendly name.
- **Required attributes of `DetectionOutput`** (`detection_output.cpp:51`).
  `nms_threshold` is read without a default, so, like `num_classes`, it
  is required.

## Model

| member | source | states |
|---|---|---|
| GraphCache.Emplace | ngraph/frontend/onnx_import/src/core/graph_cache.cpp:12-15 | the name maps to the new value; every other local entry, the cache kind and the parent are unchanged |
| GraphCache.Remove | ngraph/frontend/onnx_import/src/core/graph_cache.cpp:17-24 | the name is absent afterwards; other entries are untouched; removing an absent name leaves the cache exactly as it was |
| GraphCache.Contains | ngraph/frontend/onnx_import/src/core/graph_cache.cpp:38-41 | membership agrees with the reference semantics `Flatten`, the parent's view overlaid by the local entries |
| GraphCache.Get | ngraph/frontend/onnx_import/src/core/graph_cache.cpp:26-36 | succeeds exactly for contained names, with the value `Flatten` gives; a local entry wins; a miss fails with "<name> node not found in graph cache" |
| GraphCache.Scope | ngraph/frontend/onnx_import/src/core/graph_cache.cpp:43-46 | Lack exactly for names not contained; SubGraph exactly for a sub-graph cache's own entries; a top-level cache never answers SubGraph |
| GraphCache.NewSubgraphCache | ngraph/frontend/onnx_import/src/core/graph_cache.cpp:48-55 | a missing parent fails with "Parent graph cache is not initialized"; otherwise the empty cache resolves exactly like its parent |
| GraphCache.EmplaceThenGet | ngraph/frontend/onnx_import/src/core/graph_cache.cpp:12-15 | after emplace, get returns the new value whatever the parent holds, other names resolve as before, and the scope is the cache's own |
| GraphCache.RemoveThenGet | ngraph/frontend/onnx_import/src/core/graph_cache.cpp:17-36 | after remove, a top-level cache reports not found; a sub-graph cache still finds the name through its parent; other names are unaffected |
| GraphCache.SubgraphGet | ngraph/frontend/onnx_import/src/core/graph_cache.cpp:57-68 | a local entry shadows the parent; an absent one defers to the parent; failure only when both miss |
| GraphCache.ScopeAgreesWithGet | ngraph/frontend/onnx_import/src/core/graph_cache.cpp:76-90 | Lack iff get fails; SubGraph means get returns the local entry; ParentGraph in a sub-graph cache means get answers as the parent |
| GraphCache.ScopeChainingExample | ngraph/frontend/onnx_import/src/core/graph_cache.cpp:57-90 | a two-level chain resolves local, inherited and missing names as documented |
| GraphIR.SoleConsumerCount | inference-engine/src/transformations/src/transformations/common_optimizations/conv_to_binary_conv.cpp:41 | "exactly one consumer" of a value read by a given edge means that edge is its only reader |
| GraphIR.RtOfUnion | src/common/transformations/src/transformations/op_conversions/reduce_l2_decomposition.cpp:35-39 | copying runtime info (`RtOf`) from a group of nodes is the union of copying from each part, and copying from no node copies nothing |
| GraphIR.RewriteOldNode | src/common/transformations/src/transformations/op_conversions/reduce_l2_decomposition.cpp:40 | replacing a node leaves every other old node's kind, name and type alone and only redirects its edges |
| GraphIR.RewriteWellFormed | src/common/transformations/src/transformations/op_conversions/reduce_l2_decomposition.cpp:29-40 | the rewrite (`Rewrite`: append a correctly wired fragment, copy provenance, replace the root) keeps every edge landing on a node and every arity right |
| GraphIR.RewriteKeepsRanking | src/common/transformations/src/transformations/op_conversions/reduce_l2_decomposition.cpp:29-40 | the rewritten graph has a topological ranking, so a rewrite cannot introduce a cycle |
| ConvToBinaryConv.PackByteBit | inference-engine/src/transformations/src/transformations/common_optimizations/conv_to_binary_conv.cpp:23-27 | bit j of a packed byte (`PackByte`) is set iff weight j of its chunk exists and is 1.0 |
| ConvToBinaryConv.PackBitsBits | inference-engine/src/transformations/src/transformations/common_optimizations/conv_to_binary_conv.cpp:18-31 | bit j of byte k of the packing (`PackBits`) is set iff weight 8k+j exists and is 1.0; there are ceil(n/8) bytes |
| ConvToBinaryConv.PackChunk | inference-engine/src/transformations/src/transformations/common_optimizations/conv_to_binary_conv.cpp:23-27 | the inner loop produces exactly the byte that packs its chunk |
| ConvToBinaryConv.BinarizeWeights | inference-engine/src/transformations/src/transformations/common_optimizations/conv_to_binary_conv.cpp:18-31 | the outer loop produces the reference packing, whose last byte holds a partial chunk |
| ConvToBinaryConv.UnpackPackBits | inference-engine/src/transformations/src/transformations/common_optimizations/conv_to_binary_conv.cpp:18-31 | unpacking recovers, weight by weight, whether the weight was 1.0 (the round trip of the packing) |
| ConvToBinaryConv.FragmentOk | inference-engine/src/transformations/src/transformations/common_optimizations/conv_to_binary_conv.cpp:79-106 | the new nodes read only the Convolution's data input and earlier new nodes, each with its kind's arity |
| ConvToBinaryConv.BuildNewNode | inference-engine/src/transformations/src/transformations/common_optimizations/conv_to_binary_conv.cpp:107-122 | each new node lands at its fresh id as built, with the Convolution's runtime info exactly when it is a provenance target |
| ConvToBinaryConv.ApplyPreservesGraph | inference-engine/src/transformations/src/transformations/common_optimizations/conv_to_binary_conv.cpp:108-123 | the rewrite keeps the graph well formed and acyclic |
| ConvToBinaryConv.ApplyRewiresConsumers | inference-engine/src/transformations/src/transformations/common_optimizations/conv_to_binary_conv.cpp:108-123 | the Convolution is gone; its consumers read the Multiply (zero branch, which is rewritten only over an f32 FakeQuantize) or the BinaryConvolution (−1 branch); other edges are unchanged |
| ConvToBinaryConv.ZeroFragmentShape | inference-engine/src/transformations/src/transformations/common_optimizations/conv_to_binary_conv.cpp:77-107 | output_low 0 gives (BinaryConvolution(pad −1) + reduced weights) · 0.5, with the geometry and name kept and provenance on {conv, add, mul}; the Add's two arguments share an element type iff the FakeQuantize output is f32 (`AddArgsAgree`) |
| ConvToBinaryConv.ZeroFragmentReduction | inference-engine/src/transformations/src/transformations/common_optimizations/conv_to_binary_conv.cpp:87-101 | the reduced weights are Reshape(ReduceSum(float weights, axes 1..r−1), [−1, 1, …]) |
| ConvToBinaryConv.MinusOneFragmentShape | inference-engine/src/transformations/src/transformations/common_optimizations/conv_to_binary_conv.cpp:113-122 | output_low −1 gives one BinaryConvolution with pad 0, geometry and name kept, provenance on it alone |
| ConvToBinaryConv.ApplyInstallsFragment | inference-engine/src/transformations/src/transformations/common_optimizations/conv_to_binary_conv.cpp:35-123 | when the pattern matches (a Convolution over a sole-consumer FakeQuantize with constant range inputs and constant weights) and the callback's checks pass (2 levels, output_high all 1, output_low all 0 or all −1, weights all ±1): the Add throws (`AddTypeMismatch`) iff output_low is all 0 and the FakeQuantize output is not f32; otherwise the fresh ids hold exactly the fragment, and runtime info sits only on the targets |
| ReduceL2Decomposition.RtSourcesUnion | src/common/transformations/src/transformations/op_conversions/reduce_l2_decomposition.cpp:35-39 | the copied runtime info, `RtOf` of the provenance sources, is the ReduceL2's plus the axes node's when that is a Constant |
| ReduceL2Decomposition.FragmentOk | src/common/transformations/src/transformations/op_conversions/reduce_l2_decomposition.cpp:28-33 | the four new nodes read only the ReduceL2's inputs and each other, with correct arity |
| ReduceL2Decomposition.BuildNewNode | src/common/transformations/src/transformations/op_conversions/reduce_l2_decomposition.cpp:35-39 | every new node carries `RtOf` of the source nodes, the union of their runtime info |
| ReduceL2Decomposition.FragmentShape | src/common/transformations/src/transformations/op_conversions/reduce_l2_decomposition.cpp:28-34 | the fragment is Sqrt(ReduceSum(Power(x, 2 of x's type), axes, keep_dims)) and the Sqrt takes the friendly name |
| ReduceL2Decomposition.ApplyInstallsFragment | src/common/transformations/src/transformations/op_conversions/reduce_l2_decomposition.cpp:17-40 | on a ReduceL2 the host callback lets through, exactly the four new nodes occupy the fresh ids, each with the copied provenance |
| ReduceL2Decomposition.ApplyPreservesGraph | src/common/transformations/src/transformations/op_conversions/reduce_l2_decomposition.cpp:40 | the rewrite keeps the graph well formed and acyclic |
| ReduceL2Decomposition.ApplyRewiresConsumers | src/common/transformations/src/transformations/op_conversions/reduce_l2_decomposition.cpp:40 | the ReduceL2 is gone, its consumers read the Sqrt, and other edges are unchanged |
| CpuBlockedMemoryDesc.DenseStridesRecurrence | src/plugins/intel_cpu/src/memory_desc/cpu_blocked_memory_desc.cpp:55-60 | the last dense stride is 1 and each other is the next one times the next blocked dim |
| CpuBlockedMemoryDesc.ComputeDenseStrides | src/plugins/intel_cpu/src/memory_desc/cpu_blocked_memory_desc.cpp:55-60 | the constructor's backward stride loop computes the dense strides |
| CpuBlockedMemoryDesc.New | src/plugins/intel_cpu/src/memory_desc/cpu_blocked_memory_desc.cpp:20-72 | the five checks run in the constructor's order with its messages (undefined order, undefined inner blocked dims, zero-dim mismatch, non-zero strides over a zero dim, unequal sizes after the empty-vector defaults) and it succeeds iff all pass; a success is a valid descriptor keeping the given fields, with zero data padding by default and default strides that are zero, undefined or dense |
| CpuBlockedMemoryDesc.DefaultDesc | src/plugins/intel_cpu/src/memory_desc/cpu_blocked_memory_desc.cpp:17-18 | the shape-only constructor never fails and gives a plain layout over the shape with zero paddings |
| CpuBlockedMemoryDesc.DefaultDescStrides | src/plugins/intel_cpu/src/memory_desc/cpu_blocked_memory_desc.cpp:17-60 | its strides are dense over a static, non-empty shape |
| CpuBlockedMemoryDesc.NewIsDefined | src/plugins/intel_cpu/src/memory_desc/cpu_blocked_memory_desc.cpp:20-83 | a constructed descriptor is defined (`isDefinedImp`) iff its blocked dims, offset padding, data padding and given strides are all defined |
| CpuBlockedMemoryDesc.LayoutsExclusive | src/plugins/intel_cpu/src/memory_desc/cpu_blocked_memory_desc.cpp:195-239 | a descriptor has at most one of the named layouts |
| CpuBlockedMemoryDesc.HasLayoutTypeUnique | src/plugins/intel_cpu/src/memory_desc/cpu_blocked_memory_desc.cpp:180-239 | `hasLayoutType` (ncsp, nspc, nCsp8c, nCsp16c mapped to the plain, tail-C and 8/16-blocked-C tests) answers yes for at most one layout type |
| CpuBlockedMemoryDesc.GetOffset | src/plugins/intel_cpu/src/memory_desc/cpu_blocked_memory_desc.cpp:146-164 | fails with "Cannot calculate offset. Incorrect primitive descriptor!" iff the blocked dims or strides differ in length from the order, never for a constructed descriptor, and is never below the offset padding |
| CpuBlockedMemoryDesc.ShiftDigitsBelow | src/plugins/intel_cpu/src/memory_desc/cpu_blocked_memory_desc.cpp:153-157 | every digit of the blocked shift is below its blocked dim |
| CpuBlockedMemoryDesc.ShiftRecompose | src/plugins/intel_cpu/src/memory_desc/cpu_blocked_memory_desc.cpp:153-157 | the blocked shift loses nothing: for each logical dim, the digits of the blocked dims that split it, read in mixed radix innermost fastest on top of the leftover quotient, give back its index |
| CpuBlockedMemoryDesc.ShiftIdentity | src/plugins/intel_cpu/src/memory_desc/cpu_blocked_memory_desc.cpp:153-157 | without blocking, the blocked shift of an in-range index vector is the vector itself |
| CpuBlockedMemoryDesc.Digits | src/plugins/intel_cpu/src/memory_desc/cpu_blocked_memory_desc.cpp:171-176 | each digit read off an element number is below its dim |
| CpuBlockedMemoryDesc.DigitsRecompose | src/plugins/intel_cpu/src/memory_desc/cpu_blocked_memory_desc.cpp:171-176 | the digits recompose with dense strides to the element number modulo the element count |
| CpuBlockedMemoryDesc.PlainElementOffset | src/plugins/intel_cpu/src/memory_desc/cpu_blocked_memory_desc.cpp:146-178 | a dense, plain, unpadded layout stores element e at offset padding + e mod element count |
| CpuBlockedMemoryDesc.DenseSpan | src/plugins/intel_cpu/src/memory_desc/cpu_blocked_memory_desc.cpp:119-125 | with dense strides the first-to-last element distance is the element count minus one |
| CpuBlockedMemoryDesc.PaddedElementsCount | src/plugins/intel_cpu/src/memory_desc/cpu_blocked_memory_desc.cpp:296-304 | zero dims give 0; otherwise undefined blocked dims fail; otherwise the count bounds every blocked dim and equals the outermost dense stride times the outermost blocked dim, i.e. the dense extent of the blocked dims |
| CpuBlockedMemoryDesc.BlockedCPaddedCount | src/plugins/intel_cpu/src/memory_desc/cpu_blocked_memory_desc.cpp:296-304 | for a blocked-C layout the padded count is the product of the outer dims with the channel dim multiplied by the block, i.e. the channel padded to whole blocks |
| CpuBlockedMemoryDesc.DenseMemSize | src/plugins/intel_cpu/src/memory_desc/cpu_blocked_memory_desc.cpp:119-130 | `getCurrentMemSizeImp` (`MemSize`) of a dense, non-empty descriptor is (offset padding + padded element count) × element bytes |
| CpuBlockedMemoryDesc.ZeroDimsMemSize | src/plugins/intel_cpu/src/memory_desc/cpu_blocked_memory_desc.cpp:115-130 | a descriptor with a zero dim occupies only its offset padding |
| CpuBlockedMemoryDesc.WithPrecisionKeepsLayout | src/plugins/intel_cpu/src/memory_desc/cpu_blocked_memory_desc.cpp:306-310 | `cloneWithNewPrecision` (`WithPrecision`) keeps validity and every layout class, and rescales the memory size by the ratio of element sizes |
| CpuBlockedMemoryDesc.BlockedCShift | src/plugins/intel_cpu/src/memory_desc/cpu_blocked_memory_desc.cpp:153-157 | in a blocked-C layout the channel index splits into quotient (outer) and remainder (inner block) |
| CpuBlockedMemoryDesc.BlocksExtended | src/plugins/intel_cpu/src/memory_desc/cpu_blocked_memory_desc.cpp:276-294 | `blocksExtended` over a layout without inner blocks is never extended; `BlockedCExtended` characterises it for blocked-C layouts |
| CpuBlockedMemoryDesc.DivUpExact | src/plugins/intel_cpu/src/memory_desc/cpu_blocked_memory_desc.cpp:261-265 | rounding up covers a and is exact iff a is a multiple of b |
| CpuBlockedMemoryDesc.BlockedCExtended | src/plugins/intel_cpu/src/memory_desc/cpu_blocked_memory_desc.cpp:276-294 | a blocked-C layout over ceil(C/b) outer channel blocks is extended iff b does not divide C |
| CpuBlockedMemoryDesc.DenseStridesAreDense | src/plugins/intel_cpu/src/memory_desc/cpu_blocked_memory_desc.cpp:247-253 | dense strides pass the re-dimensioning density check |
| CpuBlockedMemoryDesc.CloneWithNewDims | src/plugins/intel_cpu/src/memory_desc/cpu_blocked_memory_desc.cpp:241-274 | undefined new dims and non-dense strides fail with their messages; a success is valid, keeps precision, order and offset padding, has the re-blocked dims, keeps the data padding only when all of it is defined (else zeros), and has default strides over the new blocked dims |
| CpuBlockedMemoryDesc.CloneSucceedsWhenDense | src/plugins/intel_cpu/src/memory_desc/cpu_blocked_memory_desc.cpp:241-274 | with defined new dims and strides passing the density check, re-dimensioning always succeeds: the constructor never rejects the re-blocked dims |
| CpuBlockedMemoryDesc.PlainNewBlockedDims | src/plugins/intel_cpu/src/memory_desc/cpu_blocked_memory_desc.cpp:255-266 | for a plain layout the new blocked dims are the new dims |
| CpuBlockedMemoryDesc.CloneSameDims | src/plugins/intel_cpu/src/memory_desc/cpu_blocked_memory_desc.cpp:241-274 | re-dimensioning a dense plain descriptor to its own dims gives it back unchanged |
| CpuBlockedMemoryDesc.BlockedCNewBlockedDims | src/plugins/intel_cpu/src/memory_desc/cpu_blocked_memory_desc.cpp:255-266 | for blocked-C the channel becomes ceil(C/b) and the inner block stays b |
| CpuBlockedMemoryDesc.CloneBlockedCSucceeds | src/plugins/intel_cpu/src/memory_desc/cpu_blocked_memory_desc.cpp:241-274 | re-dimensioning a dense blocked-C descriptor succeeds with those blocked dims |
| CpuBlockedMemoryDesc.CloneBlockedC | src/plugins/intel_cpu/src/memory_desc/cpu_blocked_memory_desc.cpp:241-274 | the re-dimensioned blocked-C descriptor is still blocked-C with the same block |
| LogicalReductionKeepDims.NormalizeAxis | ngraph/core/src/op/util/logical_reduction_keep_dims.cpp:55 | an axis in [−r, r−1] ([0, 0] for rank 0) maps into [0, r−1]; anything else fails |
| LogicalReductionKeepDims.NormalizeFrom | ngraph/core/src/op/util/logical_reduction_keep_dims.cpp:51-71 | succeeds iff every axis normalizes, with the set of normalized axes; else reports the first bad axis |
| LogicalReductionKeepDims.Infer | ngraph/core/src/op/util/logical_reduction_keep_dims.cpp:35-89 | the element type is kept; fails iff the input is static, the axes are constant and some axis is out of range |
| LogicalReductionKeepDims.InferKeepsRank | ngraph/core/src/op/util/logical_reduction_keep_dims.cpp:37-85 | the output rank is the input rank |
| LogicalReductionKeepDims.InferDynamic | ngraph/core/src/op/util/logical_reduction_keep_dims.cpp:37-47 | a dynamic input or non-constant axes give a fully dynamic shape of the input's rank |
| LogicalReductionKeepDims.InferStatic | ngraph/core/src/op/util/logical_reduction_keep_dims.cpp:73-85 | output dim i is 1 iff some axis normalizes to i, else the input dim |
| LogicalReductionKeepDims.InferAxesAsSet | ngraph/core/src/op/util/logical_reduction_keep_dims.cpp:49-70 | axes lists with the same elements (any order or repetition) give the same result |
| LogicalReductionKeepDims.NormalizedSet | ngraph/core/src/op/util/logical_reduction_keep_dims.cpp:49-71 | the normalized set depends only on the set of axes given |
| LogicalReductionKeepDims.InferIdempotent | ngraph/core/src/op/util/logical_reduction_keep_dims.cpp:73-88 | reducing the static output again over the same axes reproduces it |
| ConvolutionKernelBfyx1x1Opt.X7Depth | inference-engine/thirdparty/clDNN/kernel_selector/core/actual_kernels/convolution/convolution_kernel_bfyx_1x1_opt.cpp:44-53 | the depth is 8, 4 or 2, and 8 exactly when the thread estimate reaches the compute units |
| ConvolutionKernelBfyx1x1Opt.X7DepthIsDeepestBusy | inference-engine/thirdparty/clDNN/kernel_selector/core/actual_kernels/convolution/convolution_kernel_bfyx_1x1_opt.cpp:39-54 | the chosen depth is the deepest of 8/4/2 whose scaled thread count reaches the compute units, else 2 |
| ConvolutionKernelBfyx1x1Opt.OutBlockSize | inference-engine/thirdparty/clDNN/kernel_selector/core/actual_kernels/convolution/convolution_kernel_bfyx_1x1_opt.cpp:36-64 | blocks are at least 1×1 with depth in {1,2,4,8}; width 7 gives (7,1,d≥2); (1,1,1) exactly for widths outside {7,14,28,56} |
| ConvolutionKernelBfyx1x1Opt.OutBlockSizeTable | inference-engine/thirdparty/clDNN/kernel_selector/core/actual_kernels/convolution/convolution_kernel_bfyx_1x1_opt.cpp:55-61 | widths 14, 28 and 56 give (7,1,8), (7,2,4) and (8,1,8) |
| ConvolutionKernelBfyx1x1Opt.Validate | inference-engine/thirdparty/clDNN/kernel_selector/core/actual_kernels/convolution/convolution_kernel_bfyx_1x1_opt.cpp:90-119 | acceptance implies the base checks, unit stride and filter, 64-multiple features, no padding and a non-trivial block |
| ConvolutionKernelBfyx1x1Opt.ValidateCharacterization | inference-engine/thirdparty/clDNN/kernel_selector/core/actual_kernels/convolution/convolution_kernel_bfyx_1x1_opt.cpp:90-119 | accepted iff those conditions hold, the width is 7, 14, 28 or 56, and width 28 has an even height |
| ConvolutionKernelBfyx1x1Opt.PreferredWeightsLayout | inference-engine/thirdparty/clDNN/kernel_selector/core/actual_kernels/convolution/convolution_kernel_bfyx_1x1_opt.cpp:133-143 | yxio exactly for depth 1 |
| ConvolutionKernelBfyx1x1Opt.ValidWeightsLayoutSliced | inference-engine/thirdparty/clDNN/kernel_selector/core/actual_kernels/convolution/convolution_kernel_bfyx_1x1_opt.cpp:133-143 | an accepted kernel asks for os_iyx_osvN with N = 8 × depth (64, 32 or 16) |
| ConvolutionKernelBfyx1x1Opt.SetDefault | inference-engine/thirdparty/clDNN/kernel_selector/core/actual_kernels/convolution/convolution_kernel_bfyx_1x1_opt.cpp:66-84 | three global and local sizes, local (1, 1, 16) |
| ConvolutionKernelBfyx1x1Opt.DispatchTilesOutput | inference-engine/thirdparty/clDNN/kernel_selector/core/actual_kernels/convolution/convolution_kernel_bfyx_1x1_opt.cpp:74-81 | for an accepted kernel the global sizes times the block give back X, Y and 2·F·B exactly, and the third is a multiple of 16 |
| QuantizeKernelBase.Validate | inference-engine/thirdparty/clDNN/kernel_selector/core/actual_kernels/quantize/quantize_kernel_base.cpp:12-23 | acceptance implies five inputs and, for a BINARY output, b_fs_yx_32fp output over bfyx input |
| QuantizeKernelBase.ValidateComplete | inference-engine/thirdparty/clDNN/kernel_selector/core/actual_kernels/quantize/quantize_kernel_base.cpp:12-23 | those two conditions are also sufficient |
| QuantizeKernelBase.FeatureNumPackedCovers | inference-engine/thirdparty/clDNN/kernel_selector/core/actual_kernels/quantize/quantize_kernel_base.cpp:30 | ceil(F/32) is the least number of 32-channel blocks covering F |
| QuantizeKernelBase.ClassifyOutVal | inference-engine/thirdparty/clDNN/kernel_selector/core/actual_kernels/quantize/quantize_kernel_base.cpp:32-42 | per-channel only when both sizes equal F; failure carries "Unsupported const blob shape in node <id>" |
| QuantizeKernelBase.PerBatch | inference-engine/thirdparty/clDNN/kernel_selector/core/actual_kernels/quantize/quantize_kernel_base.cpp:32-34 | one value per batch iff no batch or all other extents 1; a one-element tensor is one |
| QuantizeKernelBase.ClassifyOutValCases | inference-engine/thirdparty/clDNN/kernel_selector/core/actual_kernels/quantize/quantize_kernel_base.cpp:32-42 | single value iff both tensors have one value per batch; per channel iff not that and both sizes equal F |
| QuantizeKernelBase.GetJitConstants | inference-engine/thirdparty/clDNN/kernel_selector/core/actual_kernels/quantize/quantize_kernel_base.cpp:25-52 | packed constants appear iff the output is packed, with block 32, the packed count ceil(F/32) (the least count of blocks covering F) and the classification; fails iff that classification fails |
| QuantizeKernelBase.GetKernelsData | inference-engine/thirdparty/clDNN/kernel_selector/core/actual_kernels/quantize/quantize_kernel_base.cpp:54-77 | an invalid request gives an empty list; a valid one one kernel with the given dispatch, input arguments for the five inputs (the output argument is appended by `GetArgsDesc`) and the jit constants `GetJitConstants` computes, or the classification error |
| QuantizeKernelBase.GetKernelsDataOutcome | inference-engine/thirdparty/clDNN/kernel_selector/core/actual_kernels/quantize/quantize_kernel_base.cpp:54-77 | empty list iff invalid; failure iff valid, packed and unsupported shapes |
| CInt.Int32Of | inference-engine/thirdparty/clDNN/src/normalize.cpp:74 | the int32 cast lands in 32-bit range, is the identity on values already in range, and differs from its input by a multiple of 2^32 |
| Normalize.CalcOutputLayout | inference-engine/thirdparty/clDNN/src/normalize.cpp:17-30 | format and size are the input's; fused output type wins; any type other than u8/i8 passes through |
| Normalize.UnfusedNeverInt8 | inference-engine/thirdparty/clDNN/src/normalize.cpp:21-27 | without fusion the output is never u8/i8: those become f32 |
| Normalize.CalcOutputLayoutIdempotent | inference-engine/thirdparty/clDNN/src/normalize.cpp:17-30 | applying the unfused rule twice equals applying it once |
| Normalize.CheckScale | inference-engine/thirdparty/clDNN/src/normalize.cpp:54-78 | accepted iff the scale feature is 1 or the input's and the int32 element count equals it; the first failing check names itself |
| Normalize.CheckScaleShape | inference-engine/thirdparty/clDNN/src/normalize.cpp:62-77 | below 2^31 elements: accepted iff feature 1 or the input's, and every other extent 1 |
| DetectionOutput.NormalizeCodeType | ngraph/frontend/onnx_import/src/op/org.openvinotoolkit/detection_output.cpp:45-48 | a string already containing "caffe.PriorBoxParameter." is kept; others get it prepended |
| DetectionOutput.NormalizeCodeTypeProperties | ngraph/frontend/onnx_import/src/op/org.openvinotoolkit/detection_output.cpp:39-49 | the result contains the scope, ends with the given string, and normalizing twice equals once |
| DetectionOutput.ShortNameGetsPrefix | ngraph/frontend/onnx_import/src/op/org.openvinotoolkit/detection_output.cpp:41-48 | a bare name such as CORNER always gets the scope |
| DetectionOutput.ReadAttrs | ngraph/frontend/onnx_import/src/op/org.openvinotoolkit/detection_output.cpp:27-62 | fails iff num_classes or nms_threshold is missing, num_classes first; keep_top_k is one element; code_type is the given string (default CORNER) normalized to the Caffe scope |
| DetectionOutput.ReadAttrsPresent | ngraph/frontend/onnx_import/src/op/org.openvinotoolkit/detection_output.cpp:29-58 | every optional integer and float attribute the node sets is taken as given |
| DetectionOutput.ReadAttrsDefaults | ngraph/frontend/onnx_import/src/op/org.openvinotoolkit/detection_output.cpp:28-62 | with only the required attributes every default applies, code_type "caffe.PriorBoxParameter.CORNER" |
| DetectionOutput.KeepTopKSingleton | ngraph/frontend/onnx_import/src/op/org.openvinotoolkit/detection_output.cpp:36-37 | keep_top_k is [k] for any 32-bit k |
| DetectionOutput.Import | ngraph/frontend/onnx_import/src/op/org.openvinotoolkit/detection_output.cpp:19-84 | a success has 3 or 5 inputs, the node's inputs in order, and the read attributes; "Invalid number of inputs" iff attributes are fine and the count is neither |
| DetectionOutput.ImportOutcome | ngraph/frontend/onnx_import/src/op/org.openvinotoolkit/detection_output.cpp:19-84 | succeeds iff both required attributes are present and there are 3 or 5 inputs; errors come in source order |

## Left out

- Pattern matcher, pass manager, `replace_node` and `copy_runtime_info` internals: not part of this model. `GraphIR.Rewrite` stands for their combined effect: the consumers are rewired and the provenance union lands on the target nodes.
- ConvToBinaryConv.Apply: nGraph's elementwise type validation is not part of this model; its one effect here, the exception from the Add over a FakeQuantize that is not f32, is the outcome `AddTypeMismatch` of the callback. How that exception propagates out of the pass manager is not modelled.
- Constant folding (`get_constant_from_source`) in `ConvToBinaryConv`: the bias branch is kept as the unfolded Reshape(ReduceSum(…)) nodes.
- Numeric values of floats: weights, thresholds and the 0.5 factor are opaque reals. Packed u1 constants are not read back as numbers, because `cast_vector` for u1 is not part of this model.
- ReduceL2Decomposition.Apply: the host's transformation callback is the parameter `veto`.
- The friendly name: the empty string stands for "never set" and is copied like any other name.
- `Precision::size()` is not part of this model; `PrecisionSize` takes its values from the precision definitions.
- `Shape::getStaticDims` is not part of this model; its failure on a dynamic shape is the `ErrNotStatic` error.
- `normalize_axis` is not part of this model. `NormalizeAxis` uses its documented range: [−r, r−1], or [0, 0] for rank 0.
- Dimension intervals (lower/upper bounds of dynamic dimensions) are not modelled: a dimension is static or dynamic.
- The non-keep-dims branch of the logical reduction delegates to `LogicalReduction`, which is not part of this model.
- `getMaxMemSize`, `isCompatible`, JIT string generation, JSON `to_string` and the kernel priority are not modelled. They are dispatch, string or codegen plumbing.
- CpuBlockedMemoryDesc.MemSize: sizes are unbounded integers. `size_t` wrap-around of huge sizes and products is not modelled.
- CpuBlockedMemoryDesc.CloneWithNewDims: a density check over an undefined blocked dim is treated as a mismatch. The C++ code multiplies the undefined-dim sentinel, which wraps in `size_t`.
- CpuBlockedMemoryDesc.New and GetOffset: inputs that index a vector out of range are excluded by preconditions (undefined behaviour in the C++ code).
- CpuBlockedMemoryDesc.BlocksExtended: it requires `BlocksInRank`, that every inner block names a logical dim below the rank. The C++ code reads `shape.getDims()[order[i]]` and the constructor never checks order values against the rank, so an out-of-rank order entry is undefined behaviour there and is not modelled.
- CpuBlockedMemoryDesc.GetOffset: it is modelled only for defined descriptors (`IsDefined`), since undefined dims are a sentinel value in the C++ code; `size_t` wrap-around of the offset is not modelled. The value is stated through the digit lemmas (`ShiftDigitsBelow`, `ShiftRecompose`) and the plain-layout lemma, not as a closed formula for every layout.
- ConvolutionKernelBfyx1x1Opt.Validate: the generic `ConvolutionKernelBase::Validate` checks are the parameter `baseValid`. The base `SetDefault` fields other than the work sizes are not modelled.
- ConvolutionKernelBfyx1x1Opt.X7Threads: `size_t`/`int` overflow of very large F·B is not modelled.
- QuantizeKernelBase.GetKernelsData: `SetDefault` of the concrete kernel is not part of this model and enters as the `dispatch` parameter. The kernel string and entry point are not modelled.
- QuantizeKernelBase.GetKernelsData: `Validate` is virtual in C++; the model uses the base class's `Validate`, so a derived kernel that overrides it is not covered.
- GraphCache.NewSubgraphCache: the C++ sub-graph cache keeps a pointer to its parent, so later changes to the parent show through it; the model keeps the parent by value, as it was when the sub-graph cache was made.
- QuantizeKernelBase.Tensor, Normalize.Size: spatial extents are kept as their product; the layout's padding is not modelled.
- Normalize.CalcOutputLayout: the debug assertion that output data type forcing is unset is not modelled.
- The format of the `CLDNN_ERROR_NOT_EQUAL` message is not part of this model: the error carries its arguments.
- DetectionOutput.ReadAttrs:
  - attribute values are kept at int64/real precision;
  - the implicit conversions into the field types of `DetectionOutputAttrs` are not modelled (that struct is not part of this model);
  - only `keep_top_k`'s explicit 32-bit cast is modelled;
  - an attribute of the wrong type is not modelled.
- DetectionOutput.Import: fewer than three inputs is excluded by a precondition, because the C++ code reads `inputs[0..2]` before checking the count.

=== FILE: c_int.dfy ===
/** The C++ integer conversions the model needs, written out over Dafny's
    unbounded integers. */
module CInt {

  /** A conversion to `int32_t` (`(int32_t)` or `static_cast<int>`) of an
      integer value: two's-complement wrap-around to 32 bits. */
  function Int32Of(n: int): (r: int)
    ensures -0x8000_0000 <= r < 0x8000_0000
    ensures -0x8000_0000 <= n < 0x8000_0000 ==> r == n
    ensures (r - n) % 0x1_0000_0000 == 0
  {
    var m := n % 0x1_0000_0000;
    if m < 0x8000_0000 then m else m - 0x1_0000_0000
  }
}

=== FILE: conv_to_binary_conv.dfy ===
/** The `ConvToBinaryConv` rewrite: a Convolution fed by a two-level
    FakeQuantize whose output range is {0, 1} or {-1, 1}, and whose weights
    are all +1 or -1, becomes a BinaryConvolution over bit-packed weights. */
module ConvToBinaryConv {
  import opened Wrappers
  import opened GraphIR

  // ---------------------------------------------------------------------
  // Bit packing of the weights (`binarize_weights`)
  // ---------------------------------------------------------------------

  /** Bit `j` of byte `b`. */
  predicate BitSet(b: bv8, j: nat)
    requires j < 8
  {
    (b >> j) & 1 == 1
  }

  lemma BitOfOr(x: bv8, m: nat, j: nat)
    requires m < 8 && j < 8
    ensures BitSet(x | (1 << m), j) <==> BitSet(x, j) || j == m
  {
    var mask: bv8 := 1 << m;
    assert mask == [1, 2, 4, 8, 16, 32, 64, 128][m];
  }

  function Min(a: int, b: int): int {
    if a < b then a else b
  }

  /** One output byte: weight `j` of the chunk goes to bit `j`. */
  function PackByte(c: seq<real>): bv8
    requires |c| <= 8
    decreases |c|
  {
    if |c| == 0 then 0
    else
      var m := |c| - 1;
      if c[m] == 1.0 then PackByte(c[..m]) | (1 << m) else PackByte(c[..m])
  }

  /** Bit `j` of a packed byte is set exactly when weight `j` of the chunk
      is 1; the bits past the chunk are clear. */
  lemma {:induction false} PackByteBit(c: seq<real>, j: nat)
    requires |c| <= 8 && j < 8
    ensures BitSet(PackByte(c), j) <==> j < |c| && c[j] == 1.0
    decreases |c|
  {
    if |c| > 0 {
      var m := |c| - 1;
      PackByteBit(c[..m], j);
      BitOfOr(PackByte(c[..m]), m, j);
      if j < m {
        assert c[..m][j] == c[j];
      }
    }
  }

  /** The chunk of weights that byte `k` encodes. */
  function Chunk(w: seq<real>, k: nat): (c: seq<real>)
    requires 8 * k < |w|
    ensures 0 < |c| <= 8
  {
    w[8 * k .. Min(8 * k + 8, |w|)]
  }

  /** Packing: ceil(n/8) bytes, byte `k` packing weights 8k .. 8k+7. */
  function PackBits(w: seq<real>): (r: seq<bv8>)
    ensures |r| == (|w| + 7) / 8
  {
    seq((|w| + 7) / 8, k requires 0 <= k < (|w| + 7) / 8 => PackByte(Chunk(w, k)))
  }

  /** Weight `8k+j` lands in bit `j` of byte `k`, set exactly when the weight
      is 1; the unused high bits of the last byte are clear. */
  lemma PackBitsBits(w: seq<real>)
    ensures forall k, j | 0 <= k < |PackBits(w)| && 0 <= j < 8 ::
              BitSet(PackBits(w)[k], j) <==> 8 * k + j < |w| && w[8 * k + j] == 1.0
  {
    var r := PackBits(w);
    forall k, j | 0 <= k < |r| && 0 <= j < 8
      ensures BitSet(r[k], j) <==> 8 * k + j < |w| && w[8 * k + j] == 1.0
    {
      var c := Chunk(w, k);
      PackByteBit(c, j);
      assert j < |c| <==> 8 * k + j < |w|;
      if j < |c| {
        assert c[j] == w[8 * k + j];
      }
    }
  }

  /** `PackByte` grows one weight at a time: the next weight lands in the
      next bit. */
  lemma PackByteStep(c: seq<real>, x: real)
    requires |c| < 8
    ensures PackByte(c + [x]) == if x == 1.0 then PackByte(c) | (1 << |c|) else PackByte(c)
  {
    assert (c + [x])[..|c|] == c;
  }

  /** The inner loop of `binarize_weights`: one output byte from the
      `n <= 8` weights starting at `i`. */
  method PackChunk(weights: seq<real>, i: nat, n: nat) returns (val: bv8)
    requires n <= 8 && i + n <= |weights|
    ensures val == PackByte(weights[i .. i + n])
  {
    val := 0;
    var j := 0;
    while j < n
      invariant 0 <= j <= n
      invariant val == PackByte(weights[i .. i + j])
    {
      assert weights[i .. i + j + 1] == weights[i .. i + j] + [weights[i + j]];
      PackByteStep(weights[i .. i + j], weights[i + j]);
      if weights[i + j] == 1.0 {
        val := val | (1 << j);
      }
      j := j + 1;
    }
  }

  /** `binarize_weights`: one byte per group of eight weights, the last group
      possibly short. */
  method BinarizeWeights(weights: seq<real>) returns (out: seq<bv8>)
    ensures out == PackBits(weights)
  {
    out := [];
    var i := 0;
    while i < |weights|
      invariant i % 8 == 0 && 0 <= i
      invariant i < |weights| ==> |out| == i / 8
      invariant i >= |weights| ==> |out| == (|weights| + 7) / 8
      invariant forall k | 0 <= k < |out| :: 8 * k < |weights| && out[k] == PackByte(Chunk(weights, k))
      decreases |weights| - i
    {
      var n := Min(8, |weights| - i);
      var val := PackChunk(weights, i, n);
      assert weights[i .. i + n] == Chunk(weights, i / 8);
      out := out + [val];
      i := i + 8;
    }
    assert |out| == |PackBits(weights)|;
  }

  /** Reads `n` bits back out of packed bytes: bit `i % 8` of byte `i / 8`. */
  function UnpackBits(bytes: seq<bv8>, n: nat): (bits: seq<bool>)
    requires n <= 8 * |bytes|
    ensures |bits| == n
  {
    seq(n, i requires 0 <= i < n => BitSet(bytes[i / 8], i % 8))
  }

  /** Unpacking the packed weights recovers, weight by weight, whether the
      weight was 1. */
  lemma UnpackPackBits(w: seq<real>)
    ensures |w| <= 8 * |PackBits(w)|
    ensures UnpackBits(PackBits(w), |w|) == seq(|w|, i requires 0 <= i < |w| => w[i] == 1.0)
  {
    var r := PackBits(w);
    PackBitsBits(w);
    forall i | 0 <= i < |w|
      ensures BitSet(r[i / 8], i % 8) <==> w[i] == 1.0
    {
      assert 8 * (i / 8) + i % 8 == i;
    }
  }

  // ---------------------------------------------------------------------
  // The matcher callback
  // ---------------------------------------------------------------------

  /** `cast_vector<float>()` of a constant; packed u1 data is not read back. */
  function ConstValues(op: Op): Option<seq<real>> {
    match op
    case Constant(_, Reals(v)) => Some(v)
    case Constant(_, Ints(v)) => Some(seq(|v|, i requires 0 <= i < |v| => v[i] as real))
    case _ => None
  }

  predicate AllEqual(v: seq<real>, x: real) {
    forall i | 0 <= i < |v| :: v[i] == x
  }

  predicate AllPlusMinusOne(v: seq<real>) {
    forall i | 0 <= i < |v| :: v[i] == -1.0 || v[i] == 1.0
  }

  /** The pattern: a Convolution whose data input is a FakeQuantize with
      exactly one consumer (see `SoleConsumerCount`) and constant output range (inputs 3 and 4), and
      whose weights input is a Constant. */
  predicate MatchesPattern(g: Graph, root: NodeId) {
    && root in g.nodes
    && g.nodes[root].op.Convolution?
    && |g.nodes[root].inputs| == 2
    && var fqv := g.nodes[root].inputs[0];
       && fqv.node in g.nodes
       && g.nodes[fqv.node].op.FakeQuantize?
       && |g.nodes[fqv.node].inputs| == 5
       && IsConstant(g, g.nodes[fqv.node].inputs[3])
       && IsConstant(g, g.nodes[fqv.node].inputs[4])
       && SoleConsumer(g, fqv, root, 0)
       && IsConstant(g, g.nodes[root].inputs[1])
  }

  function FqOf(g: Graph, root: NodeId): Node
    requires MatchesPattern(g, root)
  {
    g.nodes[g.nodes[root].inputs[0].node]
  }

  function OutputLow(g: Graph, root: NodeId): Option<seq<real>>
    requires MatchesPattern(g, root)
  {
    ConstValues(g.nodes[FqOf(g, root).inputs[3].node].op)
  }

  function OutputHigh(g: Graph, root: NodeId): Option<seq<real>>
    requires MatchesPattern(g, root)
  {
    ConstValues(g.nodes[FqOf(g, root).inputs[4].node].op)
  }

  function WeightsOp(g: Graph, root: NodeId): Op
    requires MatchesPattern(g, root)
  {
    g.nodes[g.nodes[root].inputs[1].node].op
  }

  /** Every condition the callback checks before it touches the graph. */
  predicate Applies(g: Graph, root: NodeId) {
    && MatchesPattern(g, root)
    && FqOf(g, root).op.levels == 2
    && OutputLow(g, root).Some?
    && OutputHigh(g, root).Some?
    && AllEqual(OutputHigh(g, root).value, 1.0)
    && (AllEqual(OutputLow(g, root).value, 0.0) || AllEqual(OutputLow(g, root).value, -1.0))
    && ConstValues(WeightsOp(g, root)).Some?
    && AllPlusMinusOne(ConstValues(WeightsOp(g, root)).value)
  }

  /** The branch with the compensating arithmetic is taken when the lower
      output bound is all zeros. */
  predicate LowIsZero(g: Graph, root: NodeId)
    requires Applies(g, root)
  {
    AllEqual(OutputLow(g, root).value, 0.0)
  }

  /** Reduction axes 1 .. rank-1 of the weights: the per-output-channel sum. */
  function ReductionAxes(rank: nat): (axes: seq<int>)
    ensures |axes| == if rank == 0 then 0 else rank - 1
    ensures forall i | 0 <= i < |axes| :: axes[i] == i + 1
  {
    if rank == 0 then [] else seq(rank - 1, i requires 0 <= i < rank - 1 => i + 1)
  }

  /** Reshape target of the reduced weights: -1 then rank-2 ones. */
  function ReducedShape(rank: nat): (s: seq<int>)
    ensures |s| == if rank < 2 then 1 else rank - 1
    ensures s[0] == -1 && forall i | 1 <= i < |s| :: s[i] == 1
  {
    [-1] + seq(if rank < 2 then 0 else rank - 2, i => 1)
  }

  /** What the callback reads off the matched nodes before building. */
  datatype Matched = Matched(
    conv: Node,          // the Convolution being replaced
    dataType: ElemType,  // element type of the FakeQuantize output
    wShape: seq<nat>,    // shape of the weights constant
    weights: seq<real>,  // the weights, all +1 or -1
    lowZero: bool)       // output_low is all zeros (else all -1)

  function MatchOf(g: Graph, root: NodeId): (m: Matched)
    requires Applies(g, root)
    ensures m.conv == g.nodes[root]
    ensures m.weights == ConstValues(WeightsOp(g, root)).value
    ensures m.wShape == WeightsOp(g, root).shape
    ensures AllPlusMinusOne(m.weights)
    ensures m.lowZero <==> LowIsZero(g, root)
  {
    Matched(g.nodes[root], FqOf(g, root).etype, WeightsOp(g, root).shape,
            ConstValues(WeightsOp(g, root)).value, LowIsZero(g, root))
  }

  /** The BinaryConvolution: the Convolution's geometry, its data input and
      the packed weights (created at `base`), and its friendly name. */
  function BinConv(base: NodeId, m: Matched, padValue: real): Node
    requires m.conv.op.Convolution? && |m.conv.inputs| == 2
  {
    Node(BinaryConvolution(m.conv.op.geom, XnorPopcount, padValue), [m.conv.inputs[0], Out(base)],
         m.dataType, m.conv.name, {})
  }

  /** Number of new nodes: ten with the compensating arithmetic, two
      without. */
  function FragmentSize(m: Matched): nat {
    if m.lowZero then 10 else 2
  }

  /** New node `i`, created at id `base + i`:
      0 packed u1 weights, 1 BinaryConvolution, and when output_low is all
      zeros 2 float weights, 3 reduction axes, 4 ReduceSum, 5 reshape
      target, 6 Reshape, 7 Add, 8 the constant 0.5, 9 Multiply. */
  function FragNode(base: NodeId, m: Matched, i: nat): Node
    requires m.conv.op.Convolution? && |m.conv.inputs| == 2
  {
    if i == 0 then Node(Constant(m.wShape, PackedBits(PackBits(m.weights))), [], U1, "", {})
    else if i == 1 then BinConv(base, m, if m.lowZero then -1.0 else 0.0)
    else if i == 2 then Node(Constant(m.wShape, Reals(m.weights)), [], F32, "", {})
    else if i == 3 then
      var axes := ReductionAxes(|m.wShape|);
      Node(Constant([|axes|], Ints(axes)), [], I64, "", {})
    else if i == 4 then Node(ReduceSum(false), [Out(base + 2), Out(base + 3)], F32, "", {})
    else if i == 5 then
      var target := ReducedShape(|m.wShape|);
      Node(Constant([|target|], Ints(target)), [], I64, "", {})
    else if i == 6 then Node(Reshape(false), [Out(base + 4), Out(base + 5)], F32, "", {})
    else if i == 7 then Node(Add, [Out(base + 1), Out(base + 6)], m.dataType, "", {})
    else if i == 8 then Node(Constant([], Reals([0.5])), [], F32, "", {})
    else Node(Multiply, [Out(base + 7), Out(base + 8)], m.dataType, "", {})
  }

  /** The new nodes in creation order; the last one replaces the
      Convolution. */
  function Fragment(base: NodeId, m: Matched): (ns: seq<Node>)
    requires m.conv.op.Convolution? && |m.conv.inputs| == 2
    ensures |ns| == FragmentSize(m)
    ensures forall i | 0 <= i < |ns| :: ns[i] == FragNode(base, m, i)
  {
    seq(FragmentSize(m), i requires 0 <= i < FragmentSize(m) => FragNode(base, m, i))
  }

  /** Fragment nodes that inherit the Convolution's runtime info:
      {BinaryConvolution, Add, Multiply} or {BinaryConvolution}. */
  function RtTargets(base: NodeId, m: Matched): set<NodeId> {
    if m.lowZero then {base + 1, base + 7, base + 9} else {base + 1}
  }

  /** The Add of the zero-low branch reads the BinaryConvolution, typed like
      the FakeQuantize output, and the f32 reduced weights. nGraph's
      elementwise validation requires both arguments of an Add to have one
      element type, so unless the FakeQuantize output is f32 the Add
      constructor throws before the graph is touched. */
  predicate AddArgsAgree(m: Matched) {
    !m.lowZero || m.dataType == F32
  }

  /** What the matcher pass does on one node. */
  datatype Outcome =
    | NoRewrite               // the pattern does not match or the callback returns false
    | Rewritten(graph: Graph) // the callback replaced the Convolution
    | AddTypeMismatch         // the Add constructor throws; nothing is rewritten

  /** The graph after the callback has built the fragment for `m` and
      replaced the Convolution `root` with its last node. */
  function Build(g: Graph, root: NodeId, m: Matched): Graph
    requires m.conv.op.Convolution? && |m.conv.inputs| == 2
  {
    Rewrite(g, root, Fragment(g.next, m), {root}, RtTargets(g.next, m))
  }

  /** The matcher pass on node `root`. */
  function Apply(g: Graph, root: NodeId): (r: Outcome)
    ensures r == NoRewrite <==> !Applies(g, root)
    ensures r == AddTypeMismatch <==> Applies(g, root) && !AddArgsAgree(MatchOf(g, root))
    ensures r.Rewritten? ==> r.graph == Build(g, root, MatchOf(g, root))
  {
    if !Applies(g, root) then NoRewrite
    else if !AddArgsAgree(MatchOf(g, root)) then AddTypeMismatch
    else Rewritten(Build(g, root, MatchOf(g, root)))
  }

  // ---------------------------------------------------------------------
  // Properties of the rewrite
  // ---------------------------------------------------------------------

  /** `m` was read off the Convolution `root` of a closed, ranked graph. */
  ghost predicate BuildPre(g: Graph, rank: map<NodeId, int>, root: NodeId, m: Matched) {
    && Closed(g) && Ranked(g, rank)
    && root in g.nodes && g.nodes[root] == m.conv
    && m.conv.op.Convolution? && |m.conv.inputs| == 2
  }

  /** The fragment reads only the Convolution's data input and its own
      earlier nodes, and every node has its kind's arity. */
  lemma FragmentOk(g: Graph, root: NodeId, m: Matched)
    requires root in g.nodes && g.nodes[root] == m.conv
    requires m.conv.op.Convolution? && |m.conv.inputs| == 2
    ensures FragmentWired(g, root, Fragment(g.next, m))
    ensures FragmentArityOk(Fragment(g.next, m))
  {
    assert m.conv.inputs[0] in g.nodes[root].inputs;
  }

  /** Fragment node `i` appears in the result as built, with the
      Convolution's runtime info added when it is a provenance target. */
  lemma BuildNewNode(g: Graph, rank: map<NodeId, int>, root: NodeId, m: Matched, i: nat)
    requires BuildPre(g, rank, root, m) && i < |Fragment(g.next, m)|
    ensures && g.next + i in Build(g, root, m).nodes
            && Build(g, root, m).nodes[g.next + i] ==
                 FragNode(g.next, m, i).(rt := if g.next + i in RtTargets(g.next, m) then m.conv.rt else {})
  {
    var ns := Fragment(g.next, m);
    var rt := RtTargets(g.next, m);
    FragmentOk(g, root, m);
    RewriteNewNode(g, rank, root, ns, {root}, rt, i);
    RtOfOne(g, root);
  }

  /** The rewrite keeps the graph well formed and acyclic. */
  lemma ApplyPreservesGraph(g: Graph, root: NodeId)
    requires WellFormed(g) && Acyclic(g)
    requires Apply(g, root).Rewritten?
    ensures WellFormed(Apply(g, root).graph) && Acyclic(Apply(g, root).graph)
  {
    var rank :| Ranked(g, rank);
    var m := MatchOf(g, root);
    var ns := Fragment(g.next, m);
    FragmentOk(g, root, m);
    RewriteWellFormed(g, rank, root, ns, {root}, RtTargets(g.next, m));
    var rank' := RewriteKeepsRanking(g, rank, root, ns, {root}, RtTargets(g.next, m));
  }

  /** The replacement (the fragment's last node) takes over every consumer of
      the Convolution: each edge that read the Convolution now reads the
      replacement, every other edge of the old nodes is unchanged, and the
      Convolution is gone. */
  lemma ApplyRewiresConsumers(g: Graph, root: NodeId, id: NodeId, k: nat)
    requires Closed(g)
    requires Apply(g, root).Rewritten?
    requires id in g.nodes && id != root && k < |g.nodes[id].inputs|
    ensures LowIsZero(g, root) ==> FqOf(g, root).etype == F32
    ensures var r := Apply(g, root).graph;
            var rep := g.next + (if LowIsZero(g, root) then 9 else 1);
            && root !in r.nodes
            && id in r.nodes
            && r.nodes[id].op == g.nodes[id].op
            && r.nodes[id].name == g.nodes[id].name
            && r.nodes[id].inputs[k] ==
                 (if g.nodes[id].inputs[k].node == root then Value(rep, g.nodes[id].inputs[k].port)
                  else g.nodes[id].inputs[k])
  {
    var m := MatchOf(g, root);
    var ns := Fragment(g.next, m);
    RewriteKeys(g, root, ns, {root}, RtTargets(g.next, m));
    RewriteOldNode(g, root, ns, {root}, RtTargets(g.next, m), id);
  }

  /** The fragment for output_low all zeros computes
      (BinaryConvolution(pad -1) + reduced weights) * 0.5; the
      BinaryConvolution keeps the Convolution's geometry, reads its data
      input and the packed weights, and carries its friendly name. */
  lemma ZeroFragmentShape(base: NodeId, m: Matched)
    requires m.conv.op.Convolution? && |m.conv.inputs| == 2 && m.lowZero
    ensures FragmentSize(m) == 10
    ensures FragNode(base, m, 9).op == Multiply && FragNode(base, m, 9).inputs == [Out(base + 7), Out(base + 8)]
    ensures FragNode(base, m, 8).op == Constant([], Reals([0.5]))
    ensures FragNode(base, m, 7).op == Add && FragNode(base, m, 7).inputs == [Out(base + 1), Out(base + 6)]
    ensures FragNode(base, m, 1).op == BinaryConvolution(m.conv.op.geom, XnorPopcount, -1.0)
    ensures FragNode(base, m, 1).inputs == [m.conv.inputs[0], Out(base)]
    ensures FragNode(base, m, 1).name == m.conv.name
    ensures FragNode(base, m, 0).op == Constant(m.wShape, PackedBits(PackBits(m.weights)))
    ensures FragNode(base, m, 0).etype == U1
    ensures RtTargets(base, m) == {base + 1, base + 7, base + 9}
    ensures AddArgsAgree(m) <==> FragNode(base, m, 1).etype == FragNode(base, m, 6).etype
    ensures AddArgsAgree(m) ==> FragNode(base, m, 7).etype == FragNode(base, m, 8).etype
  {
  }

  /** The reduced weights the zero-low fragment adds (node 6) are
      Reshape(ReduceSum(w, axes 1..rank-1), [-1, 1, ...]) over the float
      weights. */
  lemma ZeroFragmentReduction(base: NodeId, m: Matched)
    requires m.conv.op.Convolution? && |m.conv.inputs| == 2 && m.lowZero
    ensures FragNode(base, m, 6).op == Reshape(false) && FragNode(base, m, 6).inputs == [Out(base + 4), Out(base + 5)]
    ensures FragNode(base, m, 5).op.Constant? && FragNode(base, m, 5).op.data == Ints(ReducedShape(|m.wShape|))
    ensures FragNode(base, m, 4).op == ReduceSum(false) && FragNode(base, m, 4).inputs == [Out(base + 2), Out(base + 3)]
    ensures FragNode(base, m, 3).op.Constant? && FragNode(base, m, 3).op.data == Ints(ReductionAxes(|m.wShape|))
    ensures FragNode(base, m, 2).op == Constant(m.wShape, Reals(m.weights))
  {
  }

  /** The fragment for output_low all -1 is the packed weights and one
      BinaryConvolution (pad value 0) reading them, with the Convolution's
      geometry, data input and friendly name. */
  lemma MinusOneFragmentShape(base: NodeId, m: Matched)
    requires m.conv.op.Convolution? && |m.conv.inputs| == 2 && !m.lowZero
    ensures FragmentSize(m) == 2
    ensures FragNode(base, m, 1).op == BinaryConvolution(m.conv.op.geom, XnorPopcount, 0.0)
    ensures FragNode(base, m, 1).inputs == [m.conv.inputs[0], Out(base)]
    ensures FragNode(base, m, 1).name == m.conv.name
    ensures FragNode(base, m, 0).op == Constant(m.wShape, PackedBits(PackBits(m.weights)))
    ensures FragNode(base, m, 0).etype == U1
    ensures RtTargets(base, m) == {base + 1}
  {
  }

  /** When the callback's checks pass, either the Add rejects its argument
      types (output_low all zeros over a FakeQuantize that is not f32) or the
      rewrite installs exactly the fragment: fresh ids `g.next` ..
      `g.next + FragmentSize - 1` hold the fragment nodes, and the ones
      listed in `RtTargets` carry the Convolution's runtime info, the others
      none. */
  lemma ApplyInstallsFragment(g: Graph, root: NodeId)
    requires Closed(g) && Acyclic(g)
    requires Applies(g, root)
    ensures LowIsZero(g, root) && FqOf(g, root).etype != F32 <==> Apply(g, root) == AddTypeMismatch
    ensures Apply(g, root) != AddTypeMismatch ==>
            var r := Apply(g, root).graph;
            var m := MatchOf(g, root);
            && r.next == g.next + FragmentSize(m)
            && forall i | 0 <= i < FragmentSize(m) ::
                 && g.next + i in r.nodes
                 && r.nodes[g.next + i] ==
                      FragNode(g.next, m, i).(rt := if g.next + i in RtTargets(g.next, m) then g.nodes[root].rt else {})
  {
    var rank :| Ranked(g, rank);
    var m := MatchOf(g, root);
    RewriteKeys(g, root, Fragment(g.next, m), {root}, RtTargets(g.next, m));
    forall i | 0 <= i < FragmentSize(m)
      ensures && g.next + i in Build(g, root, m).nodes
              && Build(g, root, m).nodes[g.next + i] ==
                   FragNode(g.next, m, i).(rt := if g.next + i in RtTargets(g.next, m) then m.conv.rt else {})
    {
      BuildNewNode(g, rank, root, m, i);
    }
  }
}

=== FILE: convolution_kernel_bfyx_1x1_opt.dfy ===
/** Selection rules of the clDNN 1x1 convolution kernel for bfyx data
    (`convolution_gpu_bfyx_1x1_opt`): the output block each work-item
    computes, when the kernel accepts a convolution, the weights layout it
    asks for and its dispatch sizes. Sizes are unbounded naturals. */
module ConvolutionKernelBfyx1x1Opt {

  /** The parameters the rules read: output extents, stride, filter size,
      padding and the device's compute-unit count. */
  datatype ConvParams = ConvParams(
    outX: nat, outY: nat, outFeature: nat, outBatch: nat,
    strideX: nat, strideY: nat,
    filterX: nat, filterY: nat,
    padX: int, padY: int,
    computeUnits: nat)

  /** Output block of one work-item: width (x), height (y) and depth (output
      channels, in units of eight per sub-group lane pair). */
  datatype Block = Block(width: nat, height: nat, depth: nat)

  datatype WeightsLayout = OsIyxOsv64 | OsIyxOsv32 | OsIyxOsv16 | Yxio

  datatype DispatchData = DispatchData(gws: seq<nat>, lws: seq<nat>)

  const SubGroupSize: nat := 8

  /** Work-item count for an output of width 7, in units of 64, as the block
      heuristic estimates it with the full depth of 8. */
  function X7Threads(p: ConvParams): nat {
    var gws0 := 7 / 7;
    var gws1 := p.outY / 1;
    var gws2 := 2 * (p.outFeature * p.outBatch) / 8;
    (gws0 * gws1 * gws2) / 64
  }

  /** The block depth for width 7: start at 8 and halve, at most twice, while
      the thread estimate (doubled at each halving) is below the number of
      compute units. */
  function X7Depth(threads: nat, cu: nat): (d: nat)
    ensures d == 8 || d == 4 || d == 2
    ensures d == 8 <==> threads >= cu
  {
    var d1 := if threads < cu then 4 else 8;
    var t1 := if threads < cu then threads * 2 else threads;
    if t1 < cu then d1 / 2 else d1
  }

  /** A depth `d` keeps the device busy when the thread estimate scaled by
      8 / d reaches the compute-unit count. */
  predicate Busy(threads: nat, cu: nat, d: nat)
    requires d == 8 || d == 4 || d == 2
  {
    threads * (8 / d) >= cu
  }

  /** The chosen depth is the deepest block among 8, 4 and 2 that keeps the
      device busy, and 2 when none does. */
  lemma X7DepthIsDeepestBusy(threads: nat, cu: nat)
    ensures var d := X7Depth(threads, cu);
            && (Busy(threads, cu, d) || d == 2)
            && (forall d' | d' in {8, 4, 2} && d' > d :: !Busy(threads, cu, d'))
  {
  }

  /** `get_out_block_size`. */
  function OutBlockSize(p: ConvParams): (blk: Block)
    ensures blk.width >= 1 && blk.height >= 1
    ensures blk.depth in {1, 2, 4, 8}
    ensures p.outX == 7 ==> blk.width == 7 && blk.height == 1 && blk.depth in {2, 4, 8}
    ensures p.outX !in {7, 14, 28, 56} <==> blk == Block(1, 1, 1)
  {
    if p.outX == 7 then Block(7, 1, X7Depth(X7Threads(p), p.computeUnits))
    else if p.outX == 14 then Block(7, 1, 8)
    else if p.outX == 28 then Block(7, 2, 4)
    else if p.outX == 56 then Block(8, 1, 8)
    else Block(1, 1, 1)
  }

  /** `Validate`; `baseValid` is the verdict of the generic convolution
      checks, which are not part of this model. */
  function Validate(p: ConvParams, baseValid: bool): (ok: bool)
    ensures ok ==> baseValid
    ensures ok ==> p.strideX == 1 && p.strideY == 1 && p.filterX == 1 && p.filterY == 1
    ensures ok ==> p.outFeature % 64 == 0 && p.padX == 0 && p.padY == 0
    ensures ok ==> OutBlockSize(p) != Block(1, 1, 1)
  {
    var blk := OutBlockSize(p);
    if !baseValid then false
    else if p.strideX != 1 || p.strideY != 1 then false
    else if p.filterX != 1 || p.filterY != 1 then false
    else if p.outFeature % 64 != 0 then false
    else if p.padX != 0 || p.padY != 0 then false
    else if blk.width == 1 && blk.height == 1 then false
    else if p.outX % blk.width != 0 then false
    else if p.outY % blk.height != 0 then false
    else true
  }

  /** The kernel accepts exactly the unit-stride, unpadded 1x1 convolutions
      with a multiple of 64 output channels and an output width of 7, 14, 28
      or 56, where width 28 also needs an even output height. */
  lemma ValidateCharacterization(p: ConvParams, baseValid: bool)
    ensures Validate(p, baseValid) <==>
              && baseValid
              && p.strideX == 1 && p.strideY == 1
              && p.filterX == 1 && p.filterY == 1
              && p.outFeature % 64 == 0
              && p.padX == 0 && p.padY == 0
              && p.outX in {7, 14, 28, 56}
              && (p.outX == 28 ==> p.outY % 2 == 0)
  {
  }

  /** `GetPreferredWeightsLayout`. */
  function PreferredWeightsLayout(p: ConvParams): (l: WeightsLayout)
    ensures l == Yxio <==> OutBlockSize(p).depth == 1
  {
    var blk := OutBlockSize(p);
    if blk.depth == 8 then OsIyxOsv64
    else if blk.depth == 4 then OsIyxOsv32
    else if blk.depth == 2 then OsIyxOsv16
    else Yxio
  }

  /** The output-channel slice of an `os_iyx_osvN` layout. */
  function OsvSlice(l: WeightsLayout): nat {
    match l
    case OsIyxOsv64 => 64
    case OsIyxOsv32 => 32
    case OsIyxOsv16 => 16
    case Yxio => 0
  }

  /** A kernel the selector accepts always asks for a sliced layout, and the
      slice holds the block depth for each of the eight sub-group lanes. */
  lemma ValidWeightsLayoutSliced(p: ConvParams, baseValid: bool)
    requires Validate(p, baseValid)
    ensures PreferredWeightsLayout(p) != Yxio
    ensures OsvSlice(PreferredWeightsLayout(p)) == SubGroupSize * OutBlockSize(p).depth
  {
  }

  /** `SetDefault`: the global and local work sizes. */
  function SetDefault(p: ConvParams): (dd: DispatchData)
    ensures |dd.gws| == 3 && |dd.lws| == 3
    ensures dd.lws == [1, 1, 2 * SubGroupSize]
  {
    var blk := OutBlockSize(p);
    DispatchData([p.outX / blk.width,
                  p.outY / blk.height,
                  2 * (p.outFeature * p.outBatch) / blk.depth],
                 [1, 1, 2 * SubGroupSize])
  }

  /** `a` a multiple of 64 makes `a * b` one. */
  lemma MulMultiple64(a: nat, b: nat)
    requires a % 64 == 0
    ensures (a * b) % 64 == 0
  {
    var k := a / 64;
    assert a == 64 * k;
    assert a * b == 64 * (k * b);
  }

  /** Twice a multiple of 64 splits evenly into blocks of depth 2, 4 or 8,
      leaving a multiple of 16 blocks. */
  lemma {:induction false} DepthTiles(n: nat, d: nat)
    requires n % 64 == 0 && d in {2, 4, 8}
    ensures (2 * n / d) * d == 2 * n && (2 * n / d) % 16 == 0
  {
    var q := n / 64;
    assert n == 64 * q;
    if d == 8 {
      assert 2 * n / 8 == 16 * q;
    } else if d == 4 {
      assert 2 * n / 4 == 32 * q;
    } else {
      assert 2 * n / 2 == 64 * q;
    }
  }

  /** For an accepted convolution the blocks tile the output exactly: the
      work sizes times the block extents give back the output width, height
      and twice the channel count, and the third global size is a multiple
      of the local one. */
  lemma {:induction false} DispatchTilesOutput(p: ConvParams, baseValid: bool)
    requires Validate(p, baseValid)
    ensures var dd := SetDefault(p);
            var blk := OutBlockSize(p);
            && dd.gws[0] * blk.width == p.outX
            && dd.gws[1] * blk.height == p.outY
            && dd.gws[2] * blk.depth == 2 * (p.outFeature * p.outBatch)
            && dd.gws[2] % dd.lws[2] == 0
  {
    var blk := OutBlockSize(p);
    MulMultiple64(p.outFeature, p.outBatch);
    DepthTiles(p.outFeature * p.outBatch, blk.depth);
  }

  /** Block-size table for the widths other than 7. */
  lemma OutBlockSizeTable(p: ConvParams)
    ensures p.outX == 14 ==> OutBlockSize(p) == Block(7, 1, 8)
    ensures p.outX == 28 ==> OutBlockSize(p) == Block(7, 2, 4)
    ensures p.outX == 56 ==> OutBlockSize(p) == Block(8, 1, 8)
  {
  }
}

=== FILE: cpu_blocked_memory_desc.dfy ===
/** The CPU plugin's blocked memory descriptor: a logical shape laid out as
    `blockedDims` (the logical dims permuted by `order`, with extra inner
    block dims), walked with `strides` after `offsetPadding` elements and a
    per-blocked-dim `offsetPaddingToData`. All arithmetic is exact: size_t
    wrap-around is not modelled. */
module CpuBlockedMemoryDesc {
  import opened Wrappers

  /** A dimension value; `Undef` is Shape::UNDEFINED_DIM. */
  datatype Dim = Def(n: nat) | Undef

  datatype Precision = FP32 | FP16 | BF16 | I64 | I32 | I16 | U16 | I8 | U8 | BOOL | BIN

  /** Bytes per element (`Precision::size()`). */
  function PrecisionSize(p: Precision): nat {
    match p
    case FP32 => 4
    case FP16 => 2
    case BF16 => 2
    case I64 => 8
    case I32 => 4
    case I16 => 2
    case U16 => 2
    case I8 => 1
    case U8 => 1
    case BOOL => 1
    case BIN => 1
  }

  /** The multiplier `getCurrentMemSizeImp` applies: 1 for BIN, else the
      element size. */
  function ElemBytes(p: Precision): nat {
    if p == BIN then 1 else PrecisionSize(p)
  }

  predicate HasZeroDims(dims: seq<Dim>) {
    Def(0) in dims
  }

  predicate AllDef(s: seq<Dim>) {
    Undef !in s
  }

  /** The numbers of a sequence of defined dims. */
  function Vals(s: seq<Dim>): (r: seq<nat>)
    requires AllDef(s)
    ensures |r| == |s| && forall i | 0 <= i < |s| :: s[i] == Def(r[i])
  {
    seq(|s|, i requires 0 <= i < |s| => ValOf(s[i]))
  }

  function ValOf(d: Dim): nat {
    if d.Def? then d.n else 0
  }

  function Defs(s: seq<nat>): (r: seq<Dim>)
    ensures |r| == |s| && AllDef(r) && Vals(r) == s
  {
    seq(|s|, i requires 0 <= i < |s| => Def(s[i]))
  }

  function Fill(n: nat, d: Dim): (r: seq<Dim>)
    ensures |r| == n && forall i | 0 <= i < n :: r[i] == d
  {
    seq(n, i => d)
  }

  /** `makeRange(n)`: 0, 1, ..., n-1. */
  function Range(n: nat): (r: seq<Dim>)
    ensures |r| == n && forall i | 0 <= i < n :: r[i] == Def(i)
  {
    seq(n, i requires 0 <= i < n => Def(i))
  }

  function Product(s: seq<nat>): nat
    decreases |s|
  {
    if |s| == 0 then 1 else s[0] * Product(s[1..])
  }

  /** Dense row-major strides over `bd`: the last is 1 and each is the
      product of the dims after it. */
  function DenseStrides(bd: seq<nat>): (r: seq<nat>)
    ensures |r| == |bd|
    ensures forall k | 0 <= k < |bd| :: r[k] == Product(bd[k + 1..])
  {
    seq(|bd|, k requires 0 <= k < |bd| => Product(bd[k + 1..]))
  }

  /** The recurrence the C++ constructor's stride loop follows. */
  lemma DenseStridesRecurrence(bd: seq<nat>)
    requires |bd| > 0
    ensures DenseStrides(bd)[|bd| - 1] == 1
    ensures forall k | 0 <= k < |bd| - 1 :: DenseStrides(bd)[k] == DenseStrides(bd)[k + 1] * bd[k + 1]
  {
    forall k | 0 <= k < |bd| - 1
      ensures DenseStrides(bd)[k] == DenseStrides(bd)[k + 1] * bd[k + 1]
    {
      assert bd[k + 1..][1..] == bd[k + 2..];
    }
  }

  /** The default-stride loop: strides[n-1] = 1, then each stride is the
      next one times the next blocked dim. */
  method ComputeDenseStrides(bd: seq<nat>) returns (strides: seq<nat>)
    requires |bd| > 0
    ensures strides == DenseStrides(bd)
  {
    var n := |bd|;
    var a := new nat[n];
    a[n - 1] := 1;
    var i := 2;
    while i <= n
      invariant 2 <= i <= n + 1
      invariant forall k | n - (i - 1) <= k < n :: a[k] == Product(bd[k + 1..])
    {
      assert bd[n - i + 1..][1..] == bd[n - i + 2..];
      a[n - i] := a[n - (i - 1)] * bd[n - (i - 1)];
      i := i + 1;
    }
    strides := a[..];
  }

  /** A descriptor. `order` holds defined values only: the constructor
      rejects an undefined order entry. */
  datatype Desc = Desc(
    prec: Precision,
    shape: seq<Dim>,
    blockedDims: seq<Dim>,
    order: seq<nat>,
    offsetPadding: Dim,
    offsetPaddingToData: seq<Dim>,
    strides: seq<Dim>)

  /** What every constructed descriptor satisfies: the four per-blocked-dim
      vectors have one length, the blocked dims past the logical rank are
      defined, and a shape with a zero dim has all-zero strides. */
  predicate Valid(d: Desc) {
    && |d.order| == |d.blockedDims| == |d.offsetPaddingToData| == |d.strides|
    && |d.shape| <= |d.blockedDims|
    && AllDef(d.blockedDims[|d.shape|..])
    && (HasZeroDims(d.shape) ==> forall k | 0 <= k < |d.strides| :: d.strides[k] == Def(0))
  }

  // ---------------------------------------------------------------------
  // Construction
  // ---------------------------------------------------------------------

  const ErrUndefinedOrder := "CpuBlockedMemoryDesc do not support undefined order."
  const ErrUndefinedBlockedDims := "CpuBlockedMemoryDesc doesn't support undefined blockedDims."
  const ErrZeroDimsMismatch := "Can't create CpuBlockedMemoryDesc. Mistmatch zero dims in dims and blocked dims"
  const ErrZeroDimsStrides := "Can't create CpuBlockedMemoryDesc with zero dim, but with non zero strides"
  const ErrSizes := "Order, blocked dims, offset padding to data and strides must have equals size"

  /** `dimsEqualWeak`: equal, or either side undefined. */
  predicate DimsEqualWeak(a: Dim, b: Dim) {
    a == Undef || b == Undef || a == b
  }

  /** A logical dim of size zero whose blocked dim is not (weakly) zero. */
  predicate ZeroDimsMismatch(shape: seq<Dim>, bd: seq<Dim>, order: seq<nat>)
    requires |shape| <= |order| && |shape| <= |bd|
    requires forall i | 0 <= i < |shape| :: order[i] < |shape|
  {
    exists i | 0 <= i < |shape| :: shape[order[i]] == Def(0) && !DimsEqualWeak(bd[i], Def(0))
  }

  /** The last `n` blocked dims, which the stride loop reads: with one dim
      too few, the entry the loop never reads is padded with 1. */
  function LastN(bd: seq<nat>, n: nat): (r: seq<nat>)
    requires n <= |bd| + 1
    ensures |r| == n
  {
    if n <= |bd| then bd[|bd| - n..] else [1] + bd
  }

  /** Strides when none are given and `order` is not empty. */
  function DefaultStrides(shape: seq<Dim>, bd: seq<Dim>, n: nat): (r: seq<Dim>)
    requires 0 < n <= |bd| + 1
    ensures |r| == n
  {
    if HasZeroDims(shape) then Fill(n, Def(0))
    else if !AllDef(bd) then Fill(n, Undef)
    else Defs(DenseStrides(LastN(Vals(bd), n)))
  }

  /** Inputs for which the constructor reads no vector out of range. */
  predicate CtorInBounds(shape: seq<Dim>, bd: seq<Dim>, order: seq<Dim>, strides: seq<Dim>) {
    && |shape| <= |bd|
    && (HasZeroDims(shape) && AllDef(order) && AllDef(bd[|shape|..]) ==>
          |shape| <= |order| && forall i | 0 <= i < |shape| :: order[i].n < |shape|)
    && (|strides| == 0 && |order| > 0 ==> |order| <= |bd| + 1)
  }

  /** Some given stride is not zero. */
  predicate NonZeroStrides(strides: seq<Dim>) {
    exists k | 0 <= k < |strides| :: strides[k] != Def(0)
  }

  /** The closing size check, stated on the given vectors: an empty data
      padding or stride vector is filled to the order's length before the
      lengths are compared. */
  predicate SizesAgree(order: seq<Dim>, bd: seq<Dim>, optd: seq<Dim>, strides: seq<Dim>) {
    && |bd| == |order|
    && (|optd| == 0 || |optd| == |order|)
    && (|strides| == 0 || |strides| == |order|)
  }

  /** The first three checks: a defined order, defined inner blocked dims,
      and every zero logical dim matched by a (weakly) zero blocked dim. */
  predicate LayoutChecksPass(shape: seq<Dim>, bd: seq<Dim>, order: seq<Dim>, strides: seq<Dim>)
    requires CtorInBounds(shape, bd, order, strides)
  {
    && AllDef(order) && AllDef(bd[|shape|..])
    && !(HasZeroDims(shape) && ZeroDimsMismatch(shape, bd, Vals(order)))
  }

  /** The full constructor: the checks run in the C++ constructor's order
      and the first failing one is the error. */
  function New(prc: Precision, shape: seq<Dim>, bd: seq<Dim>, order: seq<Dim>, offsetPadding: Dim,
               offsetPaddingToData: seq<Dim>, strides: seq<Dim>): (r: Result<Desc, string>)
    requires CtorInBounds(shape, bd, order, strides)
    ensures !AllDef(order) ==> r == Failure(ErrUndefinedOrder)
    ensures AllDef(order) && !AllDef(bd[|shape|..]) ==> r == Failure(ErrUndefinedBlockedDims)
    ensures AllDef(order) && AllDef(bd[|shape|..]) && HasZeroDims(shape) && ZeroDimsMismatch(shape, bd, Vals(order)) ==>
              r == Failure(ErrZeroDimsMismatch)
    ensures LayoutChecksPass(shape, bd, order, strides) && HasZeroDims(shape) && NonZeroStrides(strides) ==>
              r == Failure(ErrZeroDimsStrides)
    ensures LayoutChecksPass(shape, bd, order, strides) && !(HasZeroDims(shape) && NonZeroStrides(strides)) ==>
              (SizesAgree(order, bd, offsetPaddingToData, strides) || r == Failure(ErrSizes))
    ensures r.Success? <==>
              && LayoutChecksPass(shape, bd, order, strides)
              && !(HasZeroDims(shape) && NonZeroStrides(strides))
              && SizesAgree(order, bd, offsetPaddingToData, strides)
    ensures r.Success? && HasZeroDims(shape) ==> !ZeroDimsMismatch(shape, bd, Vals(order))
    ensures r.Success? && HasZeroDims(shape) && |strides| > 0 ==> forall k | 0 <= k < |strides| :: strides[k] == Def(0)
    ensures r.Failure? ==> r.error in {ErrUndefinedOrder, ErrUndefinedBlockedDims, ErrZeroDimsMismatch, ErrZeroDimsStrides, ErrSizes}
    ensures r.Success? ==> Valid(r.value)
    ensures r.Success? ==>
              && r.value.prec == prc && r.value.shape == shape && r.value.blockedDims == bd
              && Defs(r.value.order) == order && r.value.offsetPadding == offsetPadding
    ensures r.Success? ==>
              r.value.offsetPaddingToData ==
                (if |offsetPaddingToData| == 0 && |order| > 0 then Fill(|order|, Def(0)) else offsetPaddingToData)
    ensures r.Success? && |strides| > 0 ==> r.value.strides == strides
    ensures r.Success? && |strides| == 0 && |order| > 0 && !HasZeroDims(shape) && AllDef(bd) ==>
              r.value.strides == Defs(DenseStrides(Vals(bd)))
    ensures r.Success? && |strides| == 0 && |order| > 0 && !HasZeroDims(shape) && !AllDef(bd) ==>
              r.value.strides == Fill(|order|, Undef)
  {
    if !AllDef(order) then Failure(ErrUndefinedOrder)
    else if !AllDef(bd[|shape|..]) then Failure(ErrUndefinedBlockedDims)
    else
      var ord := Vals(order);
      if HasZeroDims(shape) && ZeroDimsMismatch(shape, bd, ord) then Failure(ErrZeroDimsMismatch)
      else
        var optd := if |offsetPaddingToData| == 0 && |ord| > 0 then Fill(|ord|, Def(0)) else offsetPaddingToData;
        var useDefault := |strides| == 0 && |ord| > 0;
        if !useDefault && HasZeroDims(shape) && NonZeroStrides(strides) then
          Failure(ErrZeroDimsStrides)
        else
          var str := if useDefault then DefaultStrides(shape, bd, |ord|) else strides;
          if !(|ord| == |bd| == |optd| == |str|) then Failure(ErrSizes)
          else
            assert ord == Vals(order);
            Success(Desc(prc, shape, bd, ord, offsetPadding, optd, str))
  }

  /** `CpuBlockedMemoryDesc(prc, shape)`: blocked dims = the shape, identity
      order, no padding, default strides. */
  function NewDefault(prc: Precision, shape: seq<Dim>): Result<Desc, string> {
    New(prc, shape, shape, Range(|shape|), Def(0), [], [])
  }

  /** The default constructor never fails and yields a plain layout over
      the shape itself with no padding. */
  lemma DefaultDesc(prc: Precision, shape: seq<Dim>)
    ensures NewDefault(prc, shape).Success?
    ensures var d := NewDefault(prc, shape).value;
            && IsPlainFormat(d) && d.blockedDims == shape && d.offsetPadding == Def(0)
            && (forall k | 0 <= k < |shape| :: d.offsetPaddingToData[k] == Def(0))
  {
    DefaultSucceeds(prc, shape);
    var d := NewDefault(prc, shape).value;
    assert Defs(d.order) == Range(|shape|);
    forall i | 0 <= i < |d.order|
      ensures d.order[i] == i
    {
      assert Defs(d.order)[i] == Def(d.order[i]);
    }
  }

  /** The default constructor's strides are dense over the shape when every
      dim is defined and positive, all zero when a dim is zero, and all
      undefined when a dim is undefined and none is zero. */
  lemma DefaultDescStrides(prc: Precision, shape: seq<Dim>)
    ensures NewDefault(prc, shape).Success?
    ensures var d := NewDefault(prc, shape).value;
            && (AllDef(shape) && !HasZeroDims(shape) ==> d.strides == Defs(DenseStrides(Vals(shape))))
            && (HasZeroDims(shape) ==> d.strides == Fill(|shape|, Def(0)))
            && (!AllDef(shape) && !HasZeroDims(shape) ==> d.strides == Fill(|shape|, Undef))
  {
    DefaultSucceeds(prc, shape);
    var d := NewDefault(prc, shape).value;
    assert |d.order| == |shape| by {
      assert Defs(d.order) == Range(|shape|);
    }
    if HasZeroDims(shape) {
      assert Valid(d);
      assert d.strides == Fill(|shape|, Def(0));
    }
  }

  lemma DefaultSucceeds(prc: Precision, shape: seq<Dim>)
    ensures NewDefault(prc, shape).Success?
  {
    var order := Range(|shape|);
    assert AllDef(order);
    assert shape[|shape|..] == [];
    var ord := Vals(order);
    assert forall i | 0 <= i < |shape| :: ord[i] == i;
    if HasZeroDims(shape) {
      assert !ZeroDimsMismatch(shape, shape, ord);
    }
  }

  // ---------------------------------------------------------------------
  // Layout classification
  // ---------------------------------------------------------------------

  /** `isPlainFormat`: one blocked dim per logical dim, in logical order. */
  predicate IsPlainFormat(d: Desc) {
    |d.shape| == |d.order| && forall i | 0 <= i < |d.order| :: d.order[i] == i
  }

  /** `isBlockedCFormat(blk)`: the logical dims in order, then one inner
      block of the channel dim (1) of size `blk`. */
  predicate IsBlockedCFormat(d: Desc, blk: nat)
    requires Valid(d)
  {
    && |d.order| - |d.shape| == 1
    && (forall i | 0 <= i < |d.order| - 1 :: d.order[i] == i)
    && d.order[|d.order| - 1] == 1
    && d.blockedDims[|d.blockedDims| - 1] == Def(blk)
  }

  /** `isTailCFormat`: rank at least 3, no blocking, the channel dim (1)
      innermost and the others in non-decreasing order. */
  predicate IsTailCFormat(d: Desc) {
    && |d.shape| >= 3
    && |d.shape| == |d.order|
    && (forall i, j | 0 <= i <= j < |d.order| - 1 :: d.order[i] <= d.order[j])
    && d.order[|d.order| - 1] == 1
  }

  datatype LayoutType = Ncsp | Nspc | NCsp8c | NCsp16c | OtherLayout

  /** `hasLayoutType`. The unblocked layouts keep one blocked dim per
      logical dim; the channel-blocked ones add exactly one inner block. */
  function HasLayoutType(d: Desc, t: LayoutType): (r: bool)
    requires Valid(d)
    ensures r && t in {Ncsp, Nspc} ==> |d.order| == |d.shape|
    ensures r && t in {NCsp8c, NCsp16c} ==> |d.order| == |d.shape| + 1
    ensures r && t == NCsp8c ==> d.blockedDims[|d.blockedDims| - 1] == Def(8)
    ensures r && t == NCsp16c ==> d.blockedDims[|d.blockedDims| - 1] == Def(16)
    ensures t == OtherLayout ==> !r
  {
    match t
    case Ncsp => IsPlainFormat(d)
    case Nspc => IsTailCFormat(d)
    case NCsp8c => IsBlockedCFormat(d, 8)
    case NCsp16c => IsBlockedCFormat(d, 16)
    case OtherLayout => false
  }

  /** A descriptor has at most one of the named layouts. */
  lemma LayoutsExclusive(d: Desc)
    requires Valid(d)
    ensures !(IsPlainFormat(d) && IsTailCFormat(d))
    ensures !(IsPlainFormat(d) && IsBlockedCFormat(d, 8))
    ensures !(IsPlainFormat(d) && IsBlockedCFormat(d, 16))
    ensures !(IsTailCFormat(d) && IsBlockedCFormat(d, 8))
    ensures !(IsTailCFormat(d) && IsBlockedCFormat(d, 16))
    ensures !(IsBlockedCFormat(d, 8) && IsBlockedCFormat(d, 16))
  {
  }

  /** `hasLayoutType` answers yes for at most one layout type. */
  lemma HasLayoutTypeUnique(d: Desc, t1: LayoutType, t2: LayoutType)
    requires Valid(d) && HasLayoutType(d, t1) && HasLayoutType(d, t2)
    ensures t1 == t2
  {
    LayoutsExclusive(d);
  }

  // ---------------------------------------------------------------------
  // Definedness and arithmetic helpers
  // ---------------------------------------------------------------------

  /** `isDefinedImp`: no vector holds an undefined value and the offset
      padding is defined (`order` never does, by construction). */
  predicate IsDefined(d: Desc) {
    && AllDef(d.blockedDims) && AllDef(d.strides) && AllDef(d.offsetPaddingToData)
    && d.offsetPadding.Def?
  }

  /** A constructed descriptor is defined exactly when its blocked dims,
      offset padding, data padding and given strides are: default strides
      are undefined only over undefined blocked dims. */
  lemma NewIsDefined(prc: Precision, shape: seq<Dim>, bd: seq<Dim>, order: seq<Dim>, offsetPadding: Dim,
                     offsetPaddingToData: seq<Dim>, strides: seq<Dim>)
    requires CtorInBounds(shape, bd, order, strides)
    requires New(prc, shape, bd, order, offsetPadding, offsetPaddingToData, strides).Success?
    ensures IsDefined(New(prc, shape, bd, order, offsetPadding, offsetPaddingToData, strides).value) <==>
              AllDef(bd) && offsetPadding.Def? && AllDef(offsetPaddingToData) && AllDef(strides)
  {
  }

  lemma {:induction false} ProductSnoc(s: seq<nat>, x: nat)
    ensures Product(s + [x]) == Product(s) * x
    decreases |s|
  {
    if |s| == 0 {
      assert ([x])[1..] == [];
    } else {
      assert (s + [x])[1..] == s[1..] + [x];
      ProductSnoc(s[1..], x);
      assert s[0] * (Product(s[1..]) * x) == (s[0] * Product(s[1..])) * x;
    }
  }

  /** Sum of products of corresponding entries, summed from the last. */
  function Dot(a: seq<nat>, b: seq<nat>): nat
    requires |a| == |b|
    decreases |a|
  {
    if |a| == 0 then 0 else Dot(a[..|a| - 1], b[..|b| - 1]) + a[|a| - 1] * b[|b| - 1]
  }

  function Scale(b: seq<nat>, c: nat): (r: seq<nat>)
    ensures |r| == |b| && forall i | 0 <= i < |b| :: r[i] == b[i] * c
  {
    seq(|b|, i requires 0 <= i < |b| => b[i] * c)
  }

  lemma {:induction false} DotScale(a: seq<nat>, b: seq<nat>, c: nat)
    requires |a| == |b|
    ensures Dot(a, Scale(b, c)) == Dot(a, b) * c
    decreases |a|
  {
    if |a| > 0 {
      var n := |a|;
      assert Scale(b, c)[..n - 1] == Scale(b[..n - 1], c);
      DotScale(a[..n - 1], b[..n - 1], c);
      assert (Dot(a[..n - 1], b[..n - 1]) + a[n - 1] * b[n - 1]) * c
          == Dot(a[..n - 1], b[..n - 1]) * c + a[n - 1] * (b[n - 1] * c);
    }
  }

  /** Sum over blocked dims of (shift + data padding) * stride. */
  function PaddedDot(a: seq<nat>, pad: seq<nat>, b: seq<nat>): nat
    requires |a| == |pad| == |b|
    decreases |a|
  {
    if |a| == 0 then 0
    else PaddedDot(a[..|a| - 1], pad[..|a| - 1], b[..|b| - 1]) + (a[|a| - 1] + pad[|a| - 1]) * b[|b| - 1]
  }

  lemma {:induction false} ZeroPadDot(a: seq<nat>, pad: seq<nat>, b: seq<nat>)
    requires |a| == |pad| == |b| && forall k | 0 <= k < |pad| :: pad[k] == 0
    ensures PaddedDot(a, pad, b) == Dot(a, b)
    decreases |a|
  {
    if |a| > 0 {
      ZeroPadDot(a[..|a| - 1], pad[..|a| - 1], b[..|b| - 1]);
    }
  }

  lemma MulAtLeast(m: nat, k: int)
    requires m > 0 && k >= 1
    ensures m * k >= m
  {
    assert m * k == m * (k - 1) + m;
  }

  /** Quotient and remainder are unique. */
  lemma ModUnique(e: nat, m: nat, q: nat, r: nat)
    requires m > 0 && e == m * q + r && r < m
    ensures e % m == r && e / m == q
  {
    var q0 := e / m;
    var r0 := e % m;
    assert e == m * q0 + r0;
    assert m * (q - q0) == r0 - r;
    assert m * (q0 - q) == r - r0;
    if q - q0 >= 1 {
      MulAtLeast(m, q - q0);
    } else if q0 - q >= 1 {
      MulAtLeast(m, q0 - q);
    }
  }

  /** Peeling the last radix off a mixed-radix remainder. */
  lemma ModSplit(e: nat, p: nat, l: nat)
    requires p > 0 && l > 0
    ensures e % (p * l) == l * ((e / l) % p) + e % l
  {
    var q := e / l;
    var r := e % l;
    var q2 := q / p;
    var r2 := q % p;
    SplitProduct(l, q, p, q2, r2);
    DigitBound(l, p, r2, r);
    ModUnique(e, p * l, q2, l * r2 + r);
  }

  /** `l * (p * q2 + r2)` regrouped around the radix `p * l`. */
  lemma SplitProduct(l: nat, q: nat, p: nat, q2: nat, r2: nat)
    requires q == p * q2 + r2
    ensures l * q == (p * l) * q2 + l * r2
  {
  }

  /** A digit below `p` scaled by `l`, plus a remainder below `l`, stays
      below `p * l`. */
  lemma DigitBound(l: nat, p: nat, r2: nat, r: nat)
    requires r2 < p && r < l
    ensures l * r2 + r < p * l
  {
    assert l * r2 + l * (p - r2) == l * p;
    MulAtLeast(l, p - r2);
  }

  // ---------------------------------------------------------------------
  // Offsets
  // ---------------------------------------------------------------------

  /** The `blockedShift` loop over the first `n` blocked dims, innermost
      first: each takes the remainder of its logical index by its blocked
      dim and leaves the quotient for the next block of the same logical
      dim. */
  function Shift(off: seq<nat>, order: seq<nat>, bd: seq<nat>, n: nat): (s: seq<nat>)
    requires n <= |order| && n <= |bd|
    requires forall k | 0 <= k < n :: order[k] < |off| && bd[k] > 0
    ensures |s| == n
    decreases n
  {
    if n == 0 then []
    else
      var o := order[n - 1];
      Shift(off[o := off[o] / bd[n - 1]], order, bd, n - 1) + [off[o] % bd[n - 1]]
  }

  /** The quotients the `blockedShift` loop leaves in the index vector once
      the first `n` blocked dims have taken their remainders. */
  function ShiftRest(off: seq<nat>, order: seq<nat>, bd: seq<nat>, n: nat): (q: seq<nat>)
    requires n <= |order| && n <= |bd|
    requires forall k | 0 <= k < n :: order[k] < |off| && bd[k] > 0
    ensures |q| == |off|
    decreases n
  {
    if n == 0 then off
    else
      var o := order[n - 1];
      ShiftRest(off[o := off[o] / bd[n - 1]], order, bd, n - 1)
  }

  /** Logical index `x` rebuilt, in mixed radix, from the digits `s` of the
      blocked dims that split it (the innermost fastest), on top of the
      quotient `q[x]` left over at the outermost. */
  function Rebuild(s: seq<nat>, q: seq<nat>, order: seq<nat>, bd: seq<nat>, x: nat): nat
    requires |s| <= |order| && |s| <= |bd| && x < |q|
    decreases |s|
  {
    if |s| == 0 then q[x]
    else
      var n := |s|;
      if order[n - 1] == x then Rebuild(s[..n - 1], q, order, bd, x) * bd[n - 1] + s[n - 1]
      else Rebuild(s[..n - 1], q, order, bd, x)
  }

  /** Every digit of the blocked shift is below its blocked dim. */
  lemma {:induction false} ShiftDigitsBelow(off: seq<nat>, order: seq<nat>, bd: seq<nat>, n: nat)
    requires n <= |order| && n <= |bd|
    requires forall k | 0 <= k < n :: order[k] < |off| && bd[k] > 0
    ensures forall k | 0 <= k < n :: Shift(off, order, bd, n)[k] < bd[k]
    decreases n
  {
    if n > 0 {
      var o := order[n - 1];
      ShiftDigitsBelow(off[o := off[o] / bd[n - 1]], order, bd, n - 1);
      ShiftStep(off, order, bd, n);
    }
  }

  /** The blocked shift loses nothing: for every logical dim, the digits of
      the blocked dims that split it recompose to its index. */
  lemma {:induction false} ShiftRecompose(off: seq<nat>, order: seq<nat>, bd: seq<nat>, n: nat, x: nat)
    requires n <= |order| && n <= |bd| && x < |off|
    requires forall k | 0 <= k < n :: order[k] < |off| && bd[k] > 0
    ensures Rebuild(Shift(off, order, bd, n), ShiftRest(off, order, bd, n), order, bd, x) == off[x]
    decreases n
  {
    if n > 0 {
      var o := order[n - 1];
      var b := bd[n - 1];
      var off' := off[o := off[o] / b];
      ShiftRecompose(off', order, bd, n - 1, x);
      var s := Shift(off, order, bd, n);
      assert s[..n - 1] == Shift(off', order, bd, n - 1);
      if o == x {
        assert off[x] == (off[x] / b) * b + off[x] % b;
      }
    }
  }

  const ErrOffset := "Cannot calculate offset. Incorrect primitive descriptor!"

  /** What `getOffset` needs of an index vector: every blocked dim's logical
      dim is indexed, no blocked dim is zero (a divisor), and a data padding
      exists for every blocked dim. */
  predicate OffsetInBounds(d: Desc, v: seq<nat>)
    requires IsDefined(d)
  {
    && (forall k | 0 <= k < |d.order| :: d.order[k] < |v|)
    && (forall k | 0 <= k < |d.blockedDims| :: d.blockedDims[k] != Def(0))
    && |d.order| <= |d.offsetPaddingToData|
  }

  /** `getOffset`: the offset padding plus, for each blocked dim, its shift
      plus its data padding times its stride. It fails only when the
      blocked dims or strides do not match the order in length, which a
      constructed descriptor never does. */
  function GetOffset(d: Desc, v: seq<nat>): (r: Result<nat, string>)
    requires IsDefined(d) && OffsetInBounds(d, v)
    ensures r.Failure? <==> |d.blockedDims| != |d.order| || |d.strides| != |d.order|
    ensures r.Failure? ==> r.error == ErrOffset
    ensures Valid(d) ==> r.Success?
    ensures r.Success? ==> r.value >= d.offsetPadding.n
  {
    if |d.blockedDims| != |d.order| || |d.strides| != |d.order| then Failure(ErrOffset)
    else
      Success(d.offsetPadding.n +
        BlockedOffset(v, d.order, Vals(d.blockedDims), Vals(d.offsetPaddingToData)[..|d.order|], Vals(d.strides)))
  }

  /** The sum `getOffset` adds to the offset padding. */
  function BlockedOffset(v: seq<nat>, order: seq<nat>, bd: seq<nat>, pad: seq<nat>, strides: seq<nat>): nat
    requires |order| == |bd| == |pad| == |strides|
    requires forall k | 0 <= k < |order| :: order[k] < |v| && bd[k] > 0
  {
    PaddedDot(Shift(v, order, bd, |order|), pad, strides)
  }

  /** Without blocking (identity order) an index vector within the blocked
      dims is its own shift. */
  lemma {:induction false} ShiftIdentity(off: seq<nat>, order: seq<nat>, bd: seq<nat>, n: nat)
    requires n <= |order| && n <= |bd| && n <= |off|
    requires forall k | 0 <= k < n :: order[k] == k && off[k] < bd[k]
    ensures Shift(off, order, bd, n) == off[..n]
    decreases n
  {
    if n > 0 {
      var o := order[n - 1];
      var off' := off[o := off[o] / bd[n - 1]];
      ShiftIdentity(off', order, bd, n - 1);
      assert off'[..n - 1] == off[..n - 1];
      ModUnique(off[n - 1], bd[n - 1], 0, off[n - 1]);
      assert off[..n] == off[..n - 1] + [off[n - 1]];
    }
  }

  /** One step of `Shift`: the last blocked dim takes the remainder of its
      logical index, and the quotient carries on outwards. */
  lemma ShiftStep(off: seq<nat>, order: seq<nat>, bd: seq<nat>, n: nat)
    requires 0 < n <= |order| && n <= |bd|
    requires forall k | 0 <= k < n :: order[k] < |off| && bd[k] > 0
    ensures var o := order[n - 1];
            Shift(off, order, bd, n) == Shift(off[o := off[o] / bd[n - 1]], order, bd, n - 1) + [off[o] % bd[n - 1]]
  {
  }

  /** The digits `getElementOffset` reads off a flat element number, last
      dim fastest. */
  function Digits(e: nat, dims: seq<nat>): (r: seq<nat>)
    requires forall k | 0 <= k < |dims| :: dims[k] > 0
    ensures |r| == |dims| && forall k | 0 <= k < |dims| :: r[k] < dims[k]
    decreases |dims|
  {
    if |dims| == 0 then []
    else
      var l := dims[|dims| - 1];
      Digits(e / l, dims[..|dims| - 1]) + [e % l]
  }

  /** The digits recompose, with dense strides, to the element number
      modulo the element count. */
  lemma {:induction false} DigitsRecompose(e: nat, dims: seq<nat>)
    requires forall k | 0 <= k < |dims| :: dims[k] > 0
    ensures Product(dims) > 0 && Dot(Digits(e, dims), DenseStrides(dims)) == e % Product(dims)
    decreases |dims|
  {
    ProductPositive(dims);
    if |dims| > 0 {
      var n := |dims|;
      var f := dims[..n - 1];
      var l := dims[n - 1];
      DigitsRecompose(e / l, f);
      DigitsLastDot(e, dims);
      ProductLast(dims);
      ModSplitAt(e, Product(f), l, Dot(Digits(e / l, f), DenseStrides(f)),
                 Dot(Digits(e, dims), DenseStrides(dims)));
    }
  }

  lemma ModSplitAt(e: nat, p: nat, l: nat, a: nat, t: nat)
    requires p > 0 && l > 0 && a == (e / l) % p && t == a * l + e % l
    ensures t == e % (p * l)
  {
    ModSplit(e, p, l);
  }

  lemma ProductLast(s: seq<nat>)
    requires |s| > 0
    ensures Product(s) == Product(s[..|s| - 1]) * s[|s| - 1]
  {
    assert s == s[..|s| - 1] + [s[|s| - 1]];
    ProductSnoc(s[..|s| - 1], s[|s| - 1]);
  }

  /** One step of the recomposition: the last digit plus the scaled
      recomposition of the rest. */
  lemma DigitsLastDot(e: nat, dims: seq<nat>)
    requires |dims| > 0 && forall k | 0 <= k < |dims| :: dims[k] > 0
    ensures var n := |dims|;
            Dot(Digits(e, dims), DenseStrides(dims))
              == Dot(Digits(e / dims[n - 1], dims[..n - 1]), DenseStrides(dims[..n - 1])) * dims[n - 1]
                 + e % dims[n - 1]
  {
    var n := |dims|;
    var f := dims[..n - 1];
    var l := dims[n - 1];
    assert dims == f + [l];
    DenseStridesSnoc(f, l);
    var d0 := Digits(e / l, f);
    assert Digits(e, dims) == d0 + [e % l];
    DotScale(d0, DenseStrides(f), l);
    DotSnoc(d0, Scale(DenseStrides(f), l), e % l, 1);
  }

  /** Appending a dim scales every earlier dense stride by it. */
  lemma DenseStridesSnoc(f: seq<nat>, l: nat)
    ensures DenseStrides(f + [l]) == Scale(DenseStrides(f), l) + [1]
  {
    var dims := f + [l];
    forall k | 0 <= k < |f|
      ensures DenseStrides(dims)[k] == DenseStrides(f)[k] * l
    {
      assert dims[k + 1..] == f[k + 1..] + [l];
      ProductSnoc(f[k + 1..], l);
    }
    assert dims[|f| + 1..] == [];
  }

  lemma DotSnoc(a: seq<nat>, b: seq<nat>, x: nat, y: nat)
    requires |a| == |b|
    ensures Dot(a + [x], b + [y]) == Dot(a, b) + x * y
  {
    assert (a + [x])[..|a|] == a;
    assert (b + [y])[..|b|] == b;
  }

  lemma {:induction false} ProductPositive(s: seq<nat>)
    requires forall k | 0 <= k < |s| :: s[k] > 0
    ensures Product(s) > 0
    decreases |s|
  {
    if |s| > 0 {
      ProductPositive(s[1..]);
    }
  }

  const ErrNotStatic := "Cannot get dims for non static shape"

  /** `getElementOffset`: the offset of the element with the given flat
      number in the logical (row-major) order. A dynamic shape has no
      static dims. */
  function GetElementOffset(d: Desc, e: nat): (r: Result<nat, string>)
    requires IsDefined(d)
    requires AllDef(d.shape) ==> ElementOffsetInBounds(d)
    ensures !AllDef(d.shape) ==> r == Failure(ErrNotStatic)
    ensures AllDef(d.shape) ==> r == GetOffset(d, Digits(e, Vals(d.shape)))
  {
    if !AllDef(d.shape) then Failure(ErrNotStatic)
    else GetOffset(d, Digits(e, Vals(d.shape)))
  }

  /** What `getElementOffset` needs of a static descriptor: no zero logical
      dim (a divisor), every blocked dim maps to a logical dim, no zero
      blocked dim. */
  predicate ElementOffsetInBounds(d: Desc)
    requires IsDefined(d) && AllDef(d.shape)
  {
    && !HasZeroDims(d.shape)
    && OffsetInBounds(d, Vals(d.shape))
  }

  lemma ZeroPadding(pad: seq<Dim>, n: nat)
    requires n <= |pad| && forall k | 0 <= k < |pad| :: pad[k] == Def(0)
    ensures forall k | 0 <= k < n :: Vals(pad)[..n][k] == 0
  {
  }

  /** Without blocking or data padding, the blocked offset of an in-range
      index vector is its dot product with the strides. */
  lemma IdentityOffsetSum(v: seq<nat>, order: seq<nat>, bd: seq<nat>, pad: seq<nat>, st: seq<nat>)
    requires |v| == |order| == |bd| == |pad| == |st|
    requires forall k | 0 <= k < |v| :: order[k] == k && v[k] < bd[k] && pad[k] == 0
    ensures BlockedOffset(v, order, bd, pad, st) == Dot(v, st)
  {
    ShiftIdentity(v, order, bd, |v|);
    assert v[..|v|] == v;
    ZeroPadDot(v, pad, st);
  }

  /** A plain, dense, unpadded layout over static dims stores element `e`
      at offset `offsetPadding + e` (for `e` below the element count). */
  lemma PlainElementOffset(d: Desc, e: nat)
    requires Valid(d) && IsDefined(d) && AllDef(d.shape) && ElementOffsetInBounds(d)
    requires IsPlainFormat(d) && d.blockedDims == d.shape
    requires Vals(d.strides) == DenseStrides(Vals(d.shape))
    requires forall k | 0 <= k < |d.offsetPaddingToData| :: d.offsetPaddingToData[k] == Def(0)
    ensures Product(Vals(d.shape)) > 0
    ensures GetElementOffset(d, e) == Success(d.offsetPadding.n + e % Product(Vals(d.shape)))
  {
    var dims := Vals(d.shape);
    assert forall k | 0 <= k < |dims| :: dims[k] > 0;
    var n := |d.order|;
    var dg := Digits(e, dims);
    ZeroPadding(d.offsetPaddingToData, n);
    IdentityOffsetSum(dg, d.order, dims, Vals(d.offsetPaddingToData)[..n], Vals(d.strides));
    DigitsRecompose(e, dims);
  }

  // ---------------------------------------------------------------------
  // Sizes
  // ---------------------------------------------------------------------

  /** `canComputeMemSizeZeroDims`. */
  predicate CanComputeMemSizeZeroDims(d: Desc) {
    HasZeroDims(d.shape) && d.offsetPadding.Def?
  }

  /** Sum of (blocked dim - 1) * stride: the distance from the first to the
      last element. */
  function Span(bd: seq<nat>, strides: seq<nat>): int
    requires |bd| == |strides|
    decreases |bd|
  {
    if |bd| == 0 then 0 else (bd[0] - 1) * strides[0] + Span(bd[1..], strides[1..])
  }

  /** `getCurrentMemSizeImp`, in bytes, for a descriptor whose size is
      computable: a defined one, or one with a zero dim and a defined
      offset padding. */
  function MemSize(d: Desc): int
    requires Valid(d) && (IsDefined(d) || CanComputeMemSizeZeroDims(d))
  {
    MemElems(d) * ElemBytes(d.prec)
  }

  /** The element count `getCurrentMemSizeImp` scales by the element size:
      the offset padding, plus the span and one more element when no dim is
      zero. */
  function MemElems(d: Desc): int
    requires Valid(d) && (IsDefined(d) || CanComputeMemSizeZeroDims(d))
  {
    if HasZeroDims(d.shape) then d.offsetPadding.n
    else d.offsetPadding.n + 1 + Span(Vals(d.blockedDims), Vals(d.strides))
  }

  /** With dense strides the span telescopes to the element count minus one. */
  lemma {:induction false} DenseSpan(bd: seq<nat>)
    ensures Span(bd, DenseStrides(bd)) == Product(bd) - 1
    decreases |bd|
  {
    if |bd| > 0 {
      assert DenseStrides(bd)[1..] == DenseStrides(bd[1..]) by {
        forall k | 0 <= k < |bd| - 1
          ensures DenseStrides(bd)[1..][k] == DenseStrides(bd[1..])[k]
        {
          assert bd[k + 2..] == bd[1..][k + 1..];
        }
      }
      DenseSpan(bd[1..]);
    }
  }

  const ErrPaddedUndefined := "Can't compute padded elements count for non undefined blocked dims"

  /** `getPaddedElementsCount`. */
  function PaddedElementsCount(d: Desc): (r: Result<nat, string>)
    ensures HasZeroDims(d.shape) ==> r == Success(0)
    ensures r.Failure? <==> !HasZeroDims(d.shape) && !AllDef(d.blockedDims)
    ensures r.Success? && !HasZeroDims(d.shape) ==>
              forall k | 0 <= k < |d.blockedDims| :: d.blockedDims[k].n <= r.value || r.value == 0
    ensures r.Success? && !HasZeroDims(d.shape) && |d.blockedDims| > 0 ==>
              r.value == DenseStrides(Vals(d.blockedDims))[0] * d.blockedDims[0].n
  {
    if HasZeroDims(d.shape) then Success(0)
    else if !AllDef(d.blockedDims) then Failure(ErrPaddedUndefined)
    else
      ProductBounds(Vals(d.blockedDims));
      Success(Product(Vals(d.blockedDims)))
  }

  /** Each factor bounds a non-zero product. */
  lemma {:induction false} ProductBounds(s: seq<nat>)
    ensures forall k | 0 <= k < |s| :: s[k] <= Product(s) || Product(s) == 0
    decreases |s|
  {
    if |s| > 0 {
      ProductBounds(s[1..]);
      forall k | 1 <= k < |s|
        ensures s[k] <= Product(s) || Product(s) == 0
      {
        assert s[k] == s[1..][k - 1];
      }
    }
  }

  /** Multiplying one factor by `c` multiplies the product by `c`. */
  lemma {:induction false} ProductUpdateScale(s: seq<nat>, k: nat, c: nat)
    requires k < |s|
    ensures Product(s[k := s[k] * c]) == Product(s) * c
    decreases |s|
  {
    var t := s[k := s[k] * c];
    if k == 0 {
      assert t[1..] == s[1..];
      assert (s[0] * c) * Product(s[1..]) == (s[0] * Product(s[1..])) * c;
    } else {
      assert t[1..] == s[1..][k - 1 := s[k] * c];
      ProductUpdateScale(s[1..], k - 1, c);
      assert s[0] * (Product(s[1..]) * c) == (s[0] * Product(s[1..])) * c;
    }
  }

  /** In a blocked-C layout the padded element count is the element count
      of the outer blocked dims with the channel dim widened by the block:
      the channel is padded to whole blocks. */
  lemma BlockedCPaddedCount(d: Desc, b: nat)
    requires Valid(d) && IsBlockedCFormat(d, b) && |d.shape| >= 2
    requires AllDef(d.blockedDims) && !HasZeroDims(d.shape)
    ensures var outer := Vals(d.blockedDims)[..|d.shape|];
            PaddedElementsCount(d) == Success(Product(outer[1 := outer[1] * b]))
  {
    var bd := Vals(d.blockedDims);
    var outer := bd[..|d.shape|];
    assert bd == outer + [b];
    ProductSnoc(outer, b);
    ProductUpdateScale(outer, 1, b);
  }

  /** The memory size of a dense, non-empty descriptor is its offset
      padding plus its padded element count, in bytes. */
  lemma DenseMemSize(d: Desc)
    requires Valid(d) && IsDefined(d) && !HasZeroDims(d.shape)
    requires Vals(d.strides) == DenseStrides(Vals(d.blockedDims))
    ensures PaddedElementsCount(d).Success?
    ensures MemSize(d) == (d.offsetPadding.n + PaddedElementsCount(d).value) * ElemBytes(d.prec)
  {
    DenseSpan(Vals(d.blockedDims));
  }

  /** A descriptor with a zero dim occupies exactly its offset padding. */
  lemma ZeroDimsMemSize(d: Desc)
    requires Valid(d) && CanComputeMemSizeZeroDims(d)
    ensures MemSize(d) == d.offsetPadding.n * ElemBytes(d.prec)
    ensures PaddedElementsCount(d) == Success(0)
  {
  }

  /** `cloneWithNewPrecision`: only the precision changes. */
  function WithPrecision(d: Desc, p: Precision): (r: Desc)
    ensures r.prec == p
    ensures r.(prec := d.prec) == d
    ensures Valid(r) == Valid(d) && IsDefined(r) == IsDefined(d)
  {
    d.(prec := p)
  }

  /** Changing the precision keeps the layout and rescales the size. */
  lemma WithPrecisionKeepsLayout(d: Desc, p: Precision)
    requires Valid(d) && (IsDefined(d) || CanComputeMemSizeZeroDims(d))
    ensures Valid(WithPrecision(d, p))
    ensures IsPlainFormat(WithPrecision(d, p)) == IsPlainFormat(d)
    ensures IsTailCFormat(WithPrecision(d, p)) == IsTailCFormat(d)
    ensures forall b :: IsBlockedCFormat(WithPrecision(d, p), b) == IsBlockedCFormat(d, b)
    ensures MemSize(WithPrecision(d, p)) * ElemBytes(d.prec) == MemSize(d) * ElemBytes(p)
  {
    var d' := WithPrecision(d, p);
    var x := MemElems(d);
    assert MemElems(d') == x;
    assert MemSize(d') == x * ElemBytes(p);
    assert MemSize(d) == x * ElemBytes(d.prec);
    MulSwap(x, ElemBytes(p), ElemBytes(d.prec));
  }

  /** Scaling by two factors in either order. */
  lemma MulSwap(x: int, a: nat, b: nat)
    ensures (x * a) * b == (x * b) * a
  {
  }

  /** In a blocked-C layout (`nChw8c` and the like) the channel index
      splits into the block number, at the channel's outer position, and
      the position inside the block, innermost; the other indices shift
      unchanged. */
  lemma BlockedCShift(v: seq<nat>, order: seq<nat>, bd: seq<nat>)
    requires |v| >= 2 && |order| == |bd| == |v| + 1
    requires forall k | 0 <= k < |v| :: order[k] == k
    requires order[|v|] == 1 && bd[|v|] > 0
    requires forall k | 0 <= k < |v| && k != 1 :: v[k] < bd[k]
    requires v[1] / bd[|v|] < bd[1]
    ensures Shift(v, order, bd, |order|) == v[1 := v[1] / bd[|v|]] + [v[1] % bd[|v|]]
  {
    BlockedCShiftAt(v, order, bd, v[1] / bd[|v|], v[1] % bd[|v|]);
  }

  /** `BlockedCShift` with the channel's quotient `q` and remainder `m`
      named. */
  lemma BlockedCShiftAt(v: seq<nat>, order: seq<nat>, bd: seq<nat>, q: nat, m: nat)
    requires |v| >= 2 && |order| == |bd| == |v| + 1
    requires forall k | 0 <= k < |v| :: order[k] == k
    requires order[|v|] == 1 && bd[|v|] > 0
    requires forall k | 0 <= k < |v| && k != 1 :: v[k] < bd[k]
    requires q == v[1] / bd[|v|] && m == v[1] % bd[|v|] && q < bd[1]
    ensures Shift(v, order, bd, |order|) == v[1 := q] + [m]
  {
    var r := |v|;
    var off := v[1 := q];
    forall k | 0 <= k < r + 1
      ensures order[k] < |v| && bd[k] > 0
    {
    }
    ShiftStep(v, order, bd, r + 1);
    forall k | 0 <= k < r
      ensures order[k] == k && off[k] < bd[k]
    {
    }
    ShiftIdentity(off, order, bd, r);
    assert off[..r] == off;
  }

  // ---------------------------------------------------------------------
  // Padding by blocking
  // ---------------------------------------------------------------------

  /** Product of the inner blocks `j..n-1` that split logical dim `idx`. */
  function BlockProduct(order: seq<nat>, bd: seq<Dim>, idx: nat, j: nat): nat
    requires j <= |order| == |bd|
    decreases |order| - j
  {
    if j == |order| then 1
    else (if order[j] == idx then ValOf(bd[j]) else 1) * BlockProduct(order, bd, idx, j + 1)
  }

  /** The padded extent of logical dim `idx`: its outer blocked dim times
      its inner blocks, undefined when the outer one is. */
  function PaddedDim(d: Desc, idx: nat): Dim
    requires Valid(d) && idx < |d.blockedDims|
  {
    if d.blockedDims[idx] == Undef then Undef
    else Def(BlockProduct(d.order, d.blockedDims, idx, |d.shape|) * d.blockedDims[idx].n)
  }

  /** Every inner block splits a logical dim. */
  predicate BlocksInRank(d: Desc)
    requires Valid(d)
  {
    forall i | |d.shape| <= i < |d.order| :: d.order[i] < |d.shape|
  }

  /** `blocksExtended`: some blocked logical dim's padded extent differs
      from the dim itself. A layout without inner blocks is never
      extended. */
  predicate BlocksExtended(d: Desc)
    requires Valid(d) && BlocksInRank(d)
    ensures |d.order| == |d.shape| ==> !BlocksExtended(d)
  {
    exists i | |d.shape| <= i < |d.order| :: PaddedDim(d, d.order[i]) != d.shape[d.order[i]]
  }

  /** `div_up`. */
  function DivUp(a: nat, b: nat): nat
    requires b > 0
  {
    (a + b - 1) / b
  }

  /** Rounding up is exact precisely for multiples. */
  lemma DivUpExact(a: nat, b: nat)
    requires b > 0
    ensures DivUp(a, b) * b >= a
    ensures DivUp(a, b) * b == a <==> a % b == 0
  {
    var q := a / b;
    var r := a % b;
    assert a == b * q + r;
    if r == 0 {
      ModUnique(a + b - 1, b, q, b - 1);
    } else {
      ModUnique(a + b - 1, b, q + 1, r - 1);
      assert (q + 1) * b == a - r + b;
    }
  }

  /** A blocked-C layout whose outer channel dim is the channel count
      rounded up to the block is extended exactly when the block does not
      divide the channel count. */
  lemma BlockedCExtended(d: Desc, b: nat, c: nat)
    requires Valid(d) && b > 0 && IsBlockedCFormat(d, b) && BlocksInRank(d)
    requires |d.shape| >= 2 && d.shape[1] == Def(c) && d.blockedDims[1] == Def(DivUp(c, b))
    ensures BlocksExtended(d) <==> c % b != 0
  {
    var r := |d.shape|;
    assert BlockProduct(d.order, d.blockedDims, 1, r) == b by {
      assert BlockProduct(d.order, d.blockedDims, 1, r + 1) == 1;
    }
    assert PaddedDim(d, 1) == Def(b * DivUp(c, b));
    DivUpExact(c, b);
  }

  // ---------------------------------------------------------------------
  // Re-dimensioning
  // ---------------------------------------------------------------------

  const ErrCloneUndefined := "Can't clone desc if new dims are undefined"
  const ErrCloneNotDense := "Can't clone desc with new dims for not dense tensor"

  /** The density check of `cloneWithNewDimsImp`, from blocked dim `i` down
      to 0: it stops at the first undefined stride and fails at the first
      stride that is not the next stride times the next blocked dim. A
      product involving an undefined value never matches. */
  predicate DenseFrom(strides: seq<Dim>, bd: seq<Dim>, i: int)
    requires |strides| == |bd| && i <= |strides| - 2
    decreases i + 1
  {
    if i < 0 then true
    else if strides[i] == Undef then true
    else
      && strides[i + 1].Def? && bd[i + 1].Def? && strides[i] == Def(strides[i + 1].n * bd[i + 1].n)
      && DenseFrom(strides, bd, i - 1)
  }

  /** Dense strides pass the density check. */
  lemma {:induction false} DenseStridesAreDense(bd: seq<Dim>, i: int)
    requires AllDef(bd) && i <= |bd| - 2
    ensures DenseFrom(Defs(DenseStrides(Vals(bd))), bd, i)
    decreases i + 1
  {
    if i >= 0 {
      DenseStridesRecurrence(Vals(bd));
      DenseStridesAreDense(bd, i - 1);
    }
  }

  /** The inner-block loop of `cloneWithNewDimsImp` from blocked dim `i`:
      each inner block divides (rounding up) the new extent of the logical
      dim it splits, and keeps its own size. */
  function ApplyBlocks(nbd: seq<Dim>, order: seq<nat>, bd: seq<Dim>, i: nat): (r: seq<Dim>)
    requires |nbd| == |order| == |bd|
    requires forall j | i <= j < |order| :: order[j] < |order| && ValOf(bd[j]) > 0
    ensures |r| == |nbd|
    decreases |order| - i
  {
    if i >= |order| then nbd
    else
      var o := order[i];
      var next := if nbd[o] != Undef then nbd[o := Def(DivUp(nbd[o].n, ValOf(bd[i])))][i := bd[i]] else nbd;
      ApplyBlocks(next, order, bd, i + 1)
  }

  /** What `cloneWithNewDimsImp` needs of a descriptor: the first `rank`
      order entries index the new dims, and every inner block names a
      blocked dim and has a non-zero size. */
  predicate CloneInBounds(d: Desc)
    requires Valid(d)
  {
    && (forall i | 0 <= i < |d.shape| :: d.order[i] < |d.shape|)
    && (forall i | |d.shape| <= i < |d.order| :: d.order[i] < |d.order| && ValOf(d.blockedDims[i]) > 0)
  }

  /** The new blocked dims for the new logical dims. */
  function NewBlockedDims(d: Desc, dims: seq<nat>): (r: seq<Dim>)
    requires Valid(d) && CloneInBounds(d) && |dims| == |d.shape|
    ensures |r| == |d.order|
  {
    var init := seq(|d.order|, i requires 0 <= i < |d.order| => if i < |dims| then Def(dims[d.order[i]]) else Def(0));
    ApplyBlocks(init, d.order, d.blockedDims, |dims|)
  }

  /** `cloneWithNewDimsImp`: the same order, precision and padding over new
      logical dims, with default strides. */
  function CloneWithNewDims(d: Desc, dims: seq<Dim>): (r: Result<Desc, string>)
    requires Valid(d) && CloneInBounds(d) && |dims| == |d.shape|
    ensures !AllDef(dims) ==> r == Failure(ErrCloneUndefined)
    ensures AllDef(dims) && !DenseFrom(d.strides, d.blockedDims, |d.strides| - 2) ==> r == Failure(ErrCloneNotDense)
    ensures r.Success? ==>
              && Valid(r.value) && r.value.shape == dims && r.value.order == d.order
              && r.value.prec == d.prec && r.value.offsetPadding == d.offsetPadding
    ensures r.Success? ==>
              && r.value.blockedDims == NewBlockedDims(d, Vals(dims))
              && r.value.offsetPaddingToData ==
                   (if AllDef(d.offsetPaddingToData) then d.offsetPaddingToData else Fill(|d.order|, Def(0)))
              && (|d.order| > 0 ==> r.value.strides == DefaultStrides(dims, r.value.blockedDims, |d.order|))
  {
    if !AllDef(dims) then Failure(ErrCloneUndefined)
    else if !DenseFrom(d.strides, d.blockedDims, |d.strides| - 2) then Failure(ErrCloneNotDense)
    else
      var nbd := NewBlockedDims(d, Vals(dims));
      var optd := if AllDef(d.offsetPaddingToData) then d.offsetPaddingToData else [];
      assert Vals(Defs(d.order)) == d.order;
      New(d.prec, dims, nbd, Defs(d.order), d.offsetPadding, optd, [])
  }

  /** The inner-block loop keeps every blocked dim defined, and an outer
      dim of size zero stays zero (rounding 0 up to whole blocks is 0). */
  lemma {:induction false} ApplyBlocksKeepsZeros(nbd: seq<Dim>, order: seq<nat>, bd: seq<Dim>, i: nat, rank: nat)
    requires |nbd| == |order| == |bd| && rank <= i && rank <= |nbd|
    requires forall j | i <= j < |order| :: order[j] < |order| && ValOf(bd[j]) > 0
    requires AllDef(nbd)
    ensures AllDef(ApplyBlocks(nbd, order, bd, i))
    ensures forall k | 0 <= k < rank && nbd[k] == Def(0) :: ApplyBlocks(nbd, order, bd, i)[k] == Def(0)
    decreases |order| - i
  {
    if i < |order| {
      var o := order[i];
      var next := nbd[o := Def(DivUp(nbd[o].n, ValOf(bd[i])))][i := bd[i]];
      assert DivUp(0, ValOf(bd[i])) == 0;
      ApplyBlocksKeepsZeros(next, order, bd, i + 1, rank);
    }
  }

  /** Re-dimensioning succeeds whenever the new dims are defined and the
      strides pass the density check: the constructor it calls never
      rejects the blocked dims it is given. */
  lemma CloneSucceedsWhenDense(d: Desc, dims: seq<Dim>)
    requires Valid(d) && CloneInBounds(d) && |dims| == |d.shape|
    requires AllDef(dims) && DenseFrom(d.strides, d.blockedDims, |d.strides| - 2)
    ensures CloneWithNewDims(d, dims).Success?
  {
    var ds := Vals(dims);
    var init := seq(|d.order|, i requires 0 <= i < |d.order| => if i < |ds| then Def(ds[d.order[i]]) else Def(0));
    ApplyBlocksKeepsZeros(init, d.order, d.blockedDims, |ds|, |ds|);
    var nbd := NewBlockedDims(d, ds);
    assert Vals(Defs(d.order)) == d.order;
    if HasZeroDims(dims) {
      assert !ZeroDimsMismatch(dims, nbd, d.order);
    }
  }

  /** For a plain layout the new blocked dims are the new dims. */
  lemma PlainNewBlockedDims(d: Desc, dims: seq<nat>)
    requires Valid(d) && CloneInBounds(d) && |dims| == |d.shape| && IsPlainFormat(d)
    ensures NewBlockedDims(d, dims) == Defs(dims)
  {
  }

  /** Re-dimensioning a dense, plain, unpadded descriptor to its own dims
      gives the descriptor back. */
  lemma CloneSameDims(d: Desc)
    requires Valid(d) && CloneInBounds(d) && IsDefined(d) && IsPlainFormat(d)
    requires d.blockedDims == d.shape && !HasZeroDims(d.shape)
    requires d.strides == Defs(DenseStrides(Vals(d.blockedDims)))
    ensures CloneWithNewDims(d, d.shape) == Success(d)
  {
    DenseStridesAreDense(d.blockedDims, |d.strides| - 2);
    PlainNewBlockedDims(d, Vals(d.shape));
    assert Defs(Vals(d.shape)) == d.shape;
    assert Vals(Defs(d.order)) == d.order;
  }

  /** For a blocked-C layout the new blocked dims are the new dims, with
      the outer channel dim rounded up to whole blocks, then the block. */
  lemma BlockedCNewBlockedDims(d: Desc, b: nat, dims: seq<nat>)
    requires Valid(d) && CloneInBounds(d) && |dims| == |d.shape| >= 2 && b > 0 && IsBlockedCFormat(d, b)
    ensures NewBlockedDims(d, dims) == Defs(dims)[1 := Def(DivUp(dims[1], b))] + [Def(b)]
  {
    var r := |dims|;
    var init := seq(|d.order|, i requires 0 <= i < |d.order| => if i < |dims| then Def(dims[d.order[i]]) else Def(0));
    assert init[1] == Def(dims[1]);
    var next := init[1 := Def(DivUp(dims[1], b))][r := d.blockedDims[r]];
    assert ApplyBlocks(init, d.order, d.blockedDims, r) == ApplyBlocks(next, d.order, d.blockedDims, r + 1);
    assert next == Defs(dims)[1 := Def(DivUp(dims[1], b))] + [Def(b)];
  }

  /** Re-dimensioning a dense blocked-C descriptor succeeds with the
      blocked dims above. */
  lemma CloneBlockedCSucceeds(d: Desc, b: nat, dims: seq<nat>)
    requires Valid(d) && CloneInBounds(d) && |dims| == |d.shape| >= 2 && b > 0 && IsBlockedCFormat(d, b)
    requires DenseFrom(d.strides, d.blockedDims, |d.strides| - 2)
    ensures CloneWithNewDims(d, Defs(dims)).Success?
    ensures CloneWithNewDims(d, Defs(dims)).value.blockedDims == Defs(dims)[1 := Def(DivUp(dims[1], b))] + [Def(b)]
  {
    BlockedCNewBlockedDims(d, b, dims);
    var nbd := NewBlockedDims(d, dims);
    assert Vals(Defs(dims)) == dims;
    assert Vals(Defs(d.order)) == d.order;
    if HasZeroDims(Defs(dims)) {
      assert !ZeroDimsMismatch(Defs(dims), nbd, d.order);
    }
  }

  /** Re-dimensioning a dense blocked-C descriptor stays blocked-C with the
      same block, and the result is extended exactly when the block does
      not divide the new channel count. */
  lemma CloneBlockedC(d: Desc, b: nat, dims: seq<nat>)
    requires Valid(d) && CloneInBounds(d) && |dims| == |d.shape| >= 2 && b > 0 && IsBlockedCFormat(d, b)
    requires DenseFrom(d.strides, d.blockedDims, |d.strides| - 2)
    ensures CloneWithNewDims(d, Defs(dims)).Success?
    ensures var c := CloneWithNewDims(d, Defs(dims)).value;
            && IsBlockedCFormat(c, b)
            && BlocksInRank(c)
            && (BlocksExtended(c) <==> dims[1] % b != 0)
  {
    CloneBlockedCSucceeds(d, b, dims);
    var c := CloneWithNewDims(d, Defs(dims)).value;
    var r := |dims|;
    assert c.blockedDims[r] == Def(b);
    assert c.blockedDims[1] == Def(DivUp(dims[1], b));
    assert c.shape[1] == Def(dims[1]);
    BlockedCExtended(c, b, dims[1]);
  }
}

=== FILE: detection_output.dfy ===
/** The ONNX importer for `org.openvinotoolkit.DetectionOutput`: it reads the
    node's attributes with their defaults, normalizes `code_type` to the
    Caffe enumerator spelling and builds a 3- or 5-input DetectionOutput. */
module DetectionOutput {
  import opened Wrappers
  import opened CInt

  /** The attributes of an ONNX node, by value type. Floats are kept as
      reals: their single-precision rounding is not modelled. */
  datatype OnnxNode<T> = OnnxNode(
    inputs: seq<T>,
    ints: map<string, int>,
    floats: map<string, real>,
    strings: map<string, string>)

  datatype ImportError = MissingAttribute(name: string) | InvalidInputCount

  /** The attribute set handed to DetectionOutput. */
  datatype Attrs = Attrs(
    numClasses: int, backgroundLabelId: int, topK: int,
    varianceEncodedInTarget: int, keepTopK: seq<int>, codeType: string,
    shareLocation: int, nmsThreshold: real, confidenceThreshold: real,
    clipAfterNms: int, clipBeforeNms: int, decreaseLabelId: int,
    normalized: int, inputWidth: int, inputHeight: int, objectnessScore: real)

  /** The built operation: its inputs (3 or 5) and attributes. */
  datatype DetectionOutputOp<T> = DetectionOutputOp(inputs: seq<T>, attrs: Attrs)

  const CodeTypePrefix: string := "caffe.PriorBoxParameter."
  const DefaultCodeType: string := "caffe.PriorBoxParameter.CORNER"

  /** `sub` occurs in `s` starting at index `i`. */
  predicate OccursAt(s: string, sub: string, i: int)
    requires 0 <= i <= |s| - |sub|
  {
    s[i..i + |sub|] == sub
  }

  /** `std::string::find(sub) != npos`: `sub` occurs in `s` at some index. */
  predicate HasSubstring(s: string, sub: string) {
    exists i | 0 <= i <= |s| - |sub| :: OccursAt(s, sub, i)
  }

  /** Prefix a bare enumerator name ("CORNER", "CENTER_SIZE") with the
      Caffe scope, leaving a string that already mentions it alone. */
  function NormalizeCodeType(codeType: string): (r: string)
    ensures HasSubstring(codeType, CodeTypePrefix) ==> r == codeType
    ensures !HasSubstring(codeType, CodeTypePrefix) ==> r == CodeTypePrefix + codeType
  {
    if HasSubstring(codeType, CodeTypePrefix) then codeType else CodeTypePrefix + codeType
  }

  /** The normalized string always names the scope, ends with the original
      string, and normalizing again changes nothing. */
  lemma NormalizeCodeTypeProperties(codeType: string)
    ensures HasSubstring(NormalizeCodeType(codeType), CodeTypePrefix)
    ensures var r := NormalizeCodeType(codeType);
            |r| >= |codeType| && r[|r| - |codeType|..] == codeType
    ensures NormalizeCodeType(NormalizeCodeType(codeType)) == NormalizeCodeType(codeType)
  {
    var r := NormalizeCodeType(codeType);
    if !HasSubstring(codeType, CodeTypePrefix) {
      assert OccursAt(r, CodeTypePrefix, 0);
    }
  }

  /** A bare name shorter than the scope cannot contain it, so it gets the
      scope prepended. */
  lemma {:induction false} ShortNameGetsPrefix(codeType: string)
    requires |codeType| < |CodeTypePrefix|
    ensures NormalizeCodeType(codeType) == CodeTypePrefix + codeType
  {
  }

  /** `get_attribute_value<int64_t>(name, default)`. */
  function IntOr(ints: map<string, int>, name: string, default: int): int {
    if name in ints then ints[name] else default
  }

  function RealOr(floats: map<string, real>, name: string, default: real): real {
    if name in floats then floats[name] else default
  }

  /** The attribute set; `num_classes` and `nms_threshold` have no default
      and their absence is an error, `num_classes` reported first. */
  function ReadAttrs<T>(node: OnnxNode<T>): (r: Result<Attrs, ImportError>)
    ensures r.Failure? <==> "num_classes" !in node.ints || "nms_threshold" !in node.floats
    ensures "num_classes" !in node.ints ==> r == Failure(MissingAttribute("num_classes"))
    ensures "num_classes" in node.ints && "nms_threshold" !in node.floats ==>
              r == Failure(MissingAttribute("nms_threshold"))
    ensures r.Success? ==> r.value.numClasses == node.ints["num_classes"]
                           && r.value.nmsThreshold == node.floats["nms_threshold"]
    ensures r.Success? ==> |r.value.keepTopK| == 1 && HasSubstring(r.value.codeType, CodeTypePrefix)
    ensures r.Success? ==>
              r.value.codeType ==
                NormalizeCodeType(if "code_type" in node.strings then node.strings["code_type"] else DefaultCodeType)
  {
    if "num_classes" !in node.ints then Failure(MissingAttribute("num_classes"))
    else if "nms_threshold" !in node.floats then Failure(MissingAttribute("nms_threshold"))
    else
      var codeType := if "code_type" in node.strings then node.strings["code_type"] else DefaultCodeType;
      NormalizeCodeTypeProperties(codeType);
      Success(Attrs(
        numClasses := node.ints["num_classes"],
        backgroundLabelId := IntOr(node.ints, "background_label_id", 0),
        topK := IntOr(node.ints, "top_k", -1),
        varianceEncodedInTarget := IntOr(node.ints, "variance_encoded_in_target", 0),
        keepTopK := [Int32Of(IntOr(node.ints, "keep_top_k", 1))],
        codeType := NormalizeCodeType(codeType),
        shareLocation := IntOr(node.ints, "share_location", 1),
        nmsThreshold := node.floats["nms_threshold"],
        confidenceThreshold := RealOr(node.floats, "confidence_threshold", 0.0),
        clipAfterNms := IntOr(node.ints, "clip_after_nms", 0),
        clipBeforeNms := IntOr(node.ints, "clip_before_nms", 0),
        decreaseLabelId := IntOr(node.ints, "decrease_label_id", 0),
        normalized := IntOr(node.ints, "normalized", 1),
        inputWidth := IntOr(node.ints, "input_width", 1),
        inputHeight := IntOr(node.ints, "input_height", 1),
        objectnessScore := RealOr(node.floats, "objectness_score", 0.0)))
  }

  /** A node that sets only the two required attributes gets every
      documented default, including the CORNER code type. */
  lemma ReadAttrsDefaults<T>(inputs: seq<T>, numClasses: int, nms: real)
    ensures var r := ReadAttrs(OnnxNode(inputs, map["num_classes" := numClasses], map["nms_threshold" := nms], map[]));
            && r.Success?
            && r.value == Attrs(numClasses, 0, -1, 0, [1], DefaultCodeType, 1, nms, 0.0, 0, 0, 0, 1, 1, 1, 0.0)
  {
    var ct := DefaultCodeType;
    assert OccursAt(ct, CodeTypePrefix, 0);
  }

  /** Every optional attribute the node sets is taken as given. */
  lemma ReadAttrsPresent<T>(node: OnnxNode<T>)
    requires ReadAttrs(node).Success?
    ensures var a := ReadAttrs(node).value;
            && ("background_label_id" in node.ints ==> a.backgroundLabelId == node.ints["background_label_id"])
            && ("top_k" in node.ints ==> a.topK == node.ints["top_k"])
            && ("variance_encoded_in_target" in node.ints ==>
                  a.varianceEncodedInTarget == node.ints["variance_encoded_in_target"])
            && ("share_location" in node.ints ==> a.shareLocation == node.ints["share_location"])
            && ("confidence_threshold" in node.floats ==> a.confidenceThreshold == node.floats["confidence_threshold"])
            && ("clip_after_nms" in node.ints ==> a.clipAfterNms == node.ints["clip_after_nms"])
            && ("clip_before_nms" in node.ints ==> a.clipBeforeNms == node.ints["clip_before_nms"])
            && ("decrease_label_id" in node.ints ==> a.decreaseLabelId == node.ints["decrease_label_id"])
            && ("normalized" in node.ints ==> a.normalized == node.ints["normalized"])
            && ("input_width" in node.ints ==> a.inputWidth == node.ints["input_width"])
            && ("input_height" in node.ints ==> a.inputHeight == node.ints["input_height"])
            && ("objectness_score" in node.floats ==> a.objectnessScore == node.floats["objectness_score"])
  {
  }

  /** `keep_top_k` is the one-element list of the scalar attribute (1 when
      absent), unchanged whenever it fits in 32 bits. */
  lemma KeepTopKSingleton<T>(node: OnnxNode<T>, k: int)
    requires ReadAttrs(node).Success?
    requires "keep_top_k" in node.ints && node.ints["keep_top_k"] == k
    requires -0x8000_0000 <= k < 0x8000_0000
    ensures ReadAttrs(node).value.keepTopK == [k]
  {
  }

  /** `detection_output`: attributes first, then dispatch on the input
      count. The first three inputs are read before the count is checked,
      so fewer than three is outside the importer's contract. */
  function Import<T>(node: OnnxNode<T>): (r: Result<DetectionOutputOp<T>, ImportError>)
    requires |node.inputs| >= 3
    ensures r.Success? ==> |r.value.inputs| in {3, 5} && r.value.inputs == node.inputs
    ensures r.Success? ==> Success(r.value.attrs) == ReadAttrs(node)
    ensures r == Failure(InvalidInputCount) <==> ReadAttrs(node).Success? && |node.inputs| !in {3, 5}
  {
    var attrs :- ReadAttrs(node);
    if |node.inputs| == 3 then
      Success(DetectionOutputOp([node.inputs[0], node.inputs[1], node.inputs[2]], attrs))
    else if |node.inputs| == 5 then
      Success(DetectionOutputOp([node.inputs[0], node.inputs[1], node.inputs[2],
                                 node.inputs[3], node.inputs[4]], attrs))
    else Failure(InvalidInputCount)
  }

  /** The importer succeeds exactly for 3 or 5 inputs with both required
      attributes present, and its errors come in the importer's order. */
  lemma ImportOutcome<T>(node: OnnxNode<T>)
    requires |node.inputs| >= 3
    ensures Import(node).Success? <==>
              "num_classes" in node.ints && "nms_threshold" in node.floats && |node.inputs| in {3, 5}
    ensures Import(node).Failure? ==>
              Import(node).error == (if "num_classes" !in node.ints then MissingAttribute("num_classes")
                                     else if "nms_threshold" !in node.floats then MissingAttribute("nms_threshold")
                                     else InvalidInputCount)
  {
  }
}

=== FILE: graph_cache.dfy ===
/** The scoped symbol cache the ONNX importer resolves tensor names through.
    A top-level `GraphCache` is a name -> value map; a `SubgraphCache` keeps
    its own map and falls back to exactly one parent cache, which may itself
    be a `SubgraphCache` (nested loop or branch bodies). */
module GraphCache {
  import opened Wrappers

  /** The scope a name resolves in, as reported by `node_scope`. */
  datatype NodeScope = ParentGraph | SubGraph | Lack

  /** A cache in the scope chain. `entries` is the cache's own map. */
  datatype Cache<V> =
    | GraphCache(entries: map<string, V>)
    | SubgraphCache(entries: map<string, V>, parent: Cache<V>)

  /** Error raised when a name is absent from the whole scope chain. */
  function NotFound(name: string): string {
    name + " node not found in graph cache"
  }

  const ParentNotInitialized: string := "Parent graph cache is not initialized"

  /** Reference semantics of a scope chain: the parent's view overlaid with
      the local entries, so a local entry shadows every ancestor entry. */
  function Flatten<V>(c: Cache<V>): map<string, V>
    decreases c
  {
    match c
    case GraphCache(e) => e
    case SubgraphCache(e, p) => Flatten(p) + e
  }

  /** `emplace_node`: insert or overwrite the local entry. */
  function Emplace<V>(c: Cache<V>, name: string, v: V): (r: Cache<V>)
    ensures name in r.entries && r.entries[name] == v
    ensures forall m :: m != name ==> (m in r.entries <==> m in c.entries)
    ensures forall m :: m != name && m in c.entries ==> r.entries[m] == c.entries[m]
    ensures r.SubgraphCache? <==> c.SubgraphCache?
    ensures r.SubgraphCache? ==> r.parent == c.parent
  {
    c.(entries := c.entries[name := v])
  }

  /** `remove_node`: delete the local entry if present, silently otherwise. */
  function Remove<V>(c: Cache<V>, name: string): (r: Cache<V>)
    ensures name !in r.entries
    ensures forall m :: m != name ==> (m in r.entries <==> m in c.entries)
    ensures forall m :: m != name && m in c.entries ==> r.entries[m] == c.entries[m]
    ensures name !in c.entries ==> r == c
    ensures r.SubgraphCache? <==> c.SubgraphCache?
    ensures r.SubgraphCache? ==> r.parent == c.parent
  {
    if name in c.entries then c.(entries := c.entries - {name}) else c
  }

  /** `contains`: a top-level cache looks only at its own map; a sub-graph
      cache also asks its parent. */
  function Contains<V>(c: Cache<V>, name: string): (r: bool)
    ensures r <==> name in Flatten(c)
    decreases c
  {
    match c
    case GraphCache(e) => name in e
    case SubgraphCache(e, p) => name in e || Contains(p, name)
  }

  /** `get_node`: the local entry if there is one, otherwise (for a sub-graph
      cache) whatever the parent answers; a miss everywhere is an error. */
  function Get<V>(c: Cache<V>, name: string): (r: Result<V, string>)
    ensures r.Success? <==> Contains(c, name)
    ensures r.Success? ==> r.value == Flatten(c)[name]
    ensures r.Failure? ==> r.error == NotFound(name)
    ensures name in c.entries ==> r == Success(c.entries[name])
    decreases c
  {
    match c
    case GraphCache(e) =>
      if name in e then Success(e[name]) else Failure(NotFound(name))
    case SubgraphCache(e, p) =>
      if name in e then Success(e[name]) else Get(p, name)
  }

  /** `node_scope`: where a name resolves, seen from this cache. */
  function Scope<V>(c: Cache<V>, name: string): (r: NodeScope)
    ensures c.GraphCache? ==> r != SubGraph
    ensures r == Lack <==> !Contains(c, name)
    ensures r == SubGraph <==> c.SubgraphCache? && name in c.entries
    ensures r == ParentGraph <==>
              (if c.GraphCache? then name in c.entries
               else name !in c.entries && Contains(c.parent, name))
  {
    match c
    case GraphCache(e) =>
      if Contains(c, name) then ParentGraph else Lack
    case SubgraphCache(e, p) =>
      if name in e then SubGraph
      else if Contains(p, name) then ParentGraph
      else Lack
  }

  /** The `SubgraphCache` constructor: a missing (null) parent is rejected at
      construction time; the new cache starts with no local entries. */
  function NewSubgraphCache<V>(parent: Option<Cache<V>>): (r: Result<Cache<V>, string>)
    ensures parent.None? <==> r.Failure?
    ensures r.Failure? ==> r.error == ParentNotInitialized
    ensures r.Success? ==> r.value.SubgraphCache? && r.value.entries == map[]
                           && r.value.parent == parent.value
    ensures r.Success? ==> Flatten(r.value) == Flatten(parent.value)
  {
    match parent
    case None => Failure(ParentNotInitialized)
    case Some(p) => Success(SubgraphCache(map[], p))
  }

  /** After `emplace_node(n, v)` the name resolves to `v` from this cache,
      whatever the parent holds, and every other name resolves as before. */
  lemma {:induction false} EmplaceThenGet<V>(c: Cache<V>, n: string, v: V, m: string)
    ensures Get(Emplace(c, n, v), n) == Success(v)
    ensures m != n ==> Get(Emplace(c, n, v), m) == Get(c, m)
    ensures Scope(Emplace(c, n, v), n) == (if c.SubgraphCache? then SubGraph else ParentGraph)
  {
    var c' := Emplace(c, n, v);
    if m != n {
      match c
      case GraphCache(e) =>
      case SubgraphCache(e, p) =>
        assert c'.parent == p;
        if m !in e {
          assert m !in c'.entries;
        }
    }
  }

  /** After `remove_node(n)` the name is gone from this cache's own map; a
      sub-graph cache still resolves it through its parent. Other names are
      untouched. */
  lemma {:induction false} RemoveThenGet<V>(c: Cache<V>, n: string, m: string)
    ensures Contains(Remove(c, n), n) <==> c.SubgraphCache? && Contains(c.parent, n)
    ensures c.GraphCache? ==> Get(Remove(c, n), n) == Failure(NotFound(n))
    ensures m != n ==> Get(Remove(c, n), m) == Get(c, m)
  {
    var c' := Remove(c, n);
    match c
    case GraphCache(e) =>
    case SubgraphCache(e, p) =>
      assert c'.parent == p;
      if m != n && m !in e {
        assert m !in c'.entries;
      }
  }

  /** `get_node` on a sub-graph cache: a local entry shadows the parent's, an
      absent local entry defers to the parent, and the lookup fails only when
      the name is absent in both. */
  lemma SubgraphGet<V>(e: map<string, V>, p: Cache<V>, n: string)
    ensures n in e ==> Get(SubgraphCache(e, p), n) == Success(e[n])
    ensures n !in e ==> Get(SubgraphCache(e, p), n) == Get(p, n)
    ensures Get(SubgraphCache(e, p), n).Failure? <==> n !in e && !Contains(p, n)
  {
  }

  /** The scope class a name falls in agrees with what `get_node` returns:
      Lack exactly when the lookup fails, SubGraph when the local entry is
      returned, ParentGraph (in a sub-graph cache) when the parent answers. */
  lemma ScopeAgreesWithGet<V>(c: Cache<V>, n: string)
    ensures Scope(c, n) == Lack <==> Get(c, n).Failure?
    ensures Scope(c, n) == SubGraph ==> Get(c, n) == Success(c.entries[n])
    ensures c.SubgraphCache? && Scope(c, n) == ParentGraph ==> Get(c, n) == Get(c.parent, n)
  {
  }

  /** Scope chaining example: G holds "x", S wraps G and holds "y". */
  lemma ScopeChainingExample(vx: int, vy: int)
    ensures var g := GraphCache(map["x" := vx]);
            var s := SubgraphCache(map["y" := vy], g);
            && Get(s, "y") == Success(vy)
            && Get(s, "x") == Success(vx)
            && !Contains(s, "z")
            && Scope(s, "x") == ParentGraph
            && Scope(s, "y") == SubGraph
            && Scope(s, "z") == Lack
  {
    var g := GraphCache(map["x" := vx]);
    var s := SubgraphCache(map["y" := vy], g);
    assert "x" != "y" && "z" != "y" && "z" != "x";
  }
}

=== FILE: graph_ir.dfy ===
/** An abstract computation graph as the rewrite callbacks see it: an arena
    of nodes addressed by stable ids, each node holding its operator (kind and
    attributes), its ordered input values, its element type, its friendly name
    and its runtime-info (provenance) annotations.

    The three mutation steps every callback performs (create nodes,
    `copy_runtime_info`, `replace_node`) are modelled together by `Rewrite`.
    The DAG invariant is stated as the existence of a ranking
    (a topological numbering) and is preserved by construction. */
module GraphIR {
  import opened Wrappers

  type NodeId = nat

  /** Output `port` of node `node`: the unit of wiring between nodes. */
  datatype Value = Value(node: NodeId, port: nat)

  /** The first output of node `id`, the one every modelled operator has. */
  function Out(id: NodeId): Value {
    Value(id, 0)
  }

  datatype ElemType = F32 | F16 | BF16 | I64 | I32 | I8 | U8 | U1 | Boolean

  datatype PadType = Explicit | SameUpper | SameLower | Valid | NotSet

  /** Geometry attributes a convolution shares with its binary counterpart. */
  datatype ConvGeometry = ConvGeometry(
    strides: seq<nat>,
    padsBegin: seq<int>,
    padsEnd: seq<int>,
    dilations: seq<nat>,
    autoPad: PadType)

  datatype BinaryConvMode = XnorPopcount

  /** Constant payloads: floating-point values (as reals), integer values, or
      the packed bytes of an element::u1 constant. */
  datatype ConstData = Reals(reals: seq<real>) | Ints(ints: seq<int>) | PackedBits(bytes: seq<bv8>)

  /** Operator kind and attributes. `OtherOp` stands for every kind the
      modelled rewrites never create or inspect. */
  datatype Op =
    | Parameter
    | Constant(shape: seq<nat>, data: ConstData)
    | Convolution(geom: ConvGeometry)
    | BinaryConvolution(geom: ConvGeometry, mode: BinaryConvMode, padValue: real)
    | FakeQuantize(levels: nat)
    | ReduceL2(keepDims: bool)
    | ReduceSum(keepDims: bool)
    | Reshape(specialZero: bool)
    | Power
    | Sqrt
    | Add
    | Multiply
    | OtherOp(typeName: string)

  /** Number of inputs an operator of this kind is constructed with. */
  function Arity(op: Op): Option<nat> {
    match op
    case Parameter => Some(0)
    case Constant(_, _) => Some(0)
    case Convolution(_) => Some(2)
    case BinaryConvolution(_, _, _) => Some(2)
    case FakeQuantize(_) => Some(5)
    case ReduceL2(_) => Some(2)
    case ReduceSum(_) => Some(2)
    case Reshape(_) => Some(2)
    case Power => Some(2)
    case Sqrt => Some(1)
    case Add => Some(2)
    case Multiply => Some(2)
    case OtherOp(_) => None
  }

  /** `name` is the friendly name; the empty string stands for "never set",
      in which case the IR shows the node's generated unique name. */
  datatype Node = Node(op: Op, inputs: seq<Value>, etype: ElemType, name: string, rt: set<string>)

  /** Fresh nodes are numbered from `next` upwards. */
  datatype Graph = Graph(nodes: map<NodeId, Node>, next: NodeId)

  /** Every id is below `next` and every input refers to a node of the graph. */
  predicate Closed(g: Graph) {
    && (forall id | id in g.nodes :: id < g.next)
    && (forall id, k | id in g.nodes && 0 <= k < |g.nodes[id].inputs| ::
          g.nodes[id].inputs[k].node in g.nodes)
  }

  /** Every node has the number of inputs its kind is built with. */
  predicate ArityOk(g: Graph) {
    forall id | id in g.nodes && Arity(g.nodes[id].op).Some? ::
      |g.nodes[id].inputs| == Arity(g.nodes[id].op).value
  }

  predicate WellFormed(g: Graph) {
    Closed(g) && ArityOk(g)
  }

  /** `rank` is a topological numbering: every input ranks strictly below its
      consumer, so no node can reach itself. */
  ghost predicate Ranked(g: Graph, rank: map<NodeId, int>) {
    && (forall id | id in g.nodes :: id in rank)
    && (forall id, k | id in g.nodes && 0 <= k < |g.nodes[id].inputs| ::
          g.nodes[id].inputs[k].node in rank &&
          rank[g.nodes[id].inputs[k].node] < rank[id])
  }

  ghost predicate Acyclic(g: Graph) {
    exists rank :: Ranked(g, rank)
  }

  /** `v` is produced by a Constant node of the graph. */
  predicate IsConstant(g: Graph, v: Value) {
    v.node in g.nodes && g.nodes[v.node].op.Constant?
  }

  /** The input edges (consumer, input index) that read value `v`. */
  function Consumers(g: Graph, v: Value): set<(NodeId, nat)> {
    set c, k | c in g.nodes && 0 <= k < |g.nodes[c].inputs| && g.nodes[c].inputs[k] == v :: (c, k)
  }

  /** `v` is read by input `k` of node `c` and by no other edge. */
  predicate SoleConsumer(g: Graph, v: Value, c: NodeId, k: nat) {
    && c in g.nodes && k < |g.nodes[c].inputs| && g.nodes[c].inputs[k] == v
    && forall c', k' | c' in g.nodes && 0 <= k' < |g.nodes[c'].inputs| && g.nodes[c'].inputs[k'] == v ::
         c' == c && k' == k
  }

  /** For a value known to be read by input `k` of `c`, "exactly one
      consumer" (`consumers_count(1)`) is the same as "`c` is its sole
      consumer". */
  lemma SoleConsumerCount(g: Graph, v: Value, c: NodeId, k: nat)
    requires c in g.nodes && k < |g.nodes[c].inputs| && g.nodes[c].inputs[k] == v
    ensures |Consumers(g, v)| == 1 <==> SoleConsumer(g, v, c, k)
  {
    var s := Consumers(g, v);
    assert (c, k) in s;
    if |s| == 1 {
      assert |s - {(c, k)}| == 0;
      forall c', k' | c' in g.nodes && 0 <= k' < |g.nodes[c'].inputs| && g.nodes[c'].inputs[k'] == v
        ensures c' == c && k' == k
      {
        assert (c', k') in s;
      }
    }
    if SoleConsumer(g, v, c, k) {
      assert s == {(c, k)};
    }
  }

  /** Union of the runtime-info annotations of the nodes `from`. */
  function RtOf(g: Graph, from: set<NodeId>): set<string> {
    set id, a | id in from && id in g.nodes && a in g.nodes[id].rt :: a
  }

  /** `RtOf` holds every annotation of every source node and nothing else. */
  lemma RtOfBounds(g: Graph, from: set<NodeId>)
    ensures forall id | id in from && id in g.nodes :: g.nodes[id].rt <= RtOf(g, from)
    ensures forall a | a in RtOf(g, from) :: exists id :: id in from && id in g.nodes && a in g.nodes[id].rt
  {
  }

  /** Copying provenance from two groups of nodes is the union of copying
      from each, and copying from no node copies nothing. */
  lemma RtOfUnion(g: Graph, a: set<NodeId>, b: set<NodeId>)
    ensures RtOf(g, a + b) == RtOf(g, a) + RtOf(g, b)
    ensures RtOf(g, {}) == {}
  {
    RtOfBounds(g, a);
    RtOfBounds(g, b);
    RtOfBounds(g, a + b);
  }

  /** The provenance of a single node is its own annotation set. */
  lemma RtOfOne(g: Graph, id: NodeId)
    requires id in g.nodes
    ensures RtOf(g, {id}) == g.nodes[id].rt
  {
  }

  /** Rewires every edge that reads an output of `target` to the same output
      of `replacement`, leaving all other edges alone. */
  function Redirect(inputs: seq<Value>, target: NodeId, replacement: NodeId): (r: seq<Value>)
    ensures |r| == |inputs|
    ensures forall k | 0 <= k < |r| ::
              r[k] == (if inputs[k].node == target then Value(replacement, inputs[k].port) else inputs[k])
  {
    seq(|inputs|, k requires 0 <= k < |inputs| =>
      if inputs[k].node == target then Value(replacement, inputs[k].port) else inputs[k])
  }

  /** Node `id` after a rewrite: an old node or fragment node `id - g.next`,
      with its reads of `root` redirected to the replacement and, if listed
      in `rtTo`, the provenance of `rtFrom` added. */
  function RewriteNode(g: Graph, root: NodeId, ns: seq<Node>, rtFrom: set<NodeId>, rtTo: set<NodeId>,
                       id: NodeId): Node
    requires (id < g.next && id in g.nodes) || g.next <= id < g.next + |ns|
  {
    var n := if id < g.next then g.nodes[id] else ns[id - g.next];
    n.(inputs := Redirect(n.inputs, root, g.next + |ns| - 1),
       rt := n.rt + (if id in rtTo then RtOf(g, rtFrom) else {}))
  }

  /** The common shape of a rewrite callback: create the fragment `ns` under
      fresh ids, `copy_runtime_info` from `rtFrom` onto the fragment nodes
      listed in `rtTo`, then `replace_node(root, last fragment node)`: every
      consumer of `root` reads the replacement and `root` leaves the graph. */
  function Rewrite(g: Graph, root: NodeId, ns: seq<Node>, rtFrom: set<NodeId>, rtTo: set<NodeId>): Graph
    requires |ns| > 0
  {
    Graph(map id | 0 <= id < g.next + |ns| && (g.next <= id || (id in g.nodes && id != root)) ::
            RewriteNode(g, root, ns, rtFrom, rtTo, id),
          g.next + |ns|)
  }

  /** Fragment node `i` reads only inputs of `root` or fragment nodes created
      before it: new nodes never reference anything that is not yet built. */
  predicate FragmentWired(g: Graph, root: NodeId, ns: seq<Node>)
    requires root in g.nodes
  {
    forall i, k | 0 <= i < |ns| && 0 <= k < |ns[i].inputs| ::
      ns[i].inputs[k] in g.nodes[root].inputs ||
      g.next <= ns[i].inputs[k].node < g.next + i
  }

  /** Every fragment node has the number of inputs its kind is built with. */
  predicate FragmentArityOk(ns: seq<Node>) {
    forall i | 0 <= i < |ns| && Arity(ns[i].op).Some? :: |ns[i].inputs| == Arity(ns[i].op).value
  }

  /** In a ranked graph the inputs of a node are existing nodes ranked below
      it; in particular no node reads itself. */
  lemma InputBelow(g: Graph, rank: map<NodeId, int>, id: NodeId, v: Value)
    requires Closed(g) && Ranked(g, rank) && id in g.nodes
    requires v in g.nodes[id].inputs
    ensures v.node in g.nodes && v.node in rank && rank[v.node] < rank[id]
    ensures v.node != id && v.node < g.next
  {
    var k :| 0 <= k < |g.nodes[id].inputs| && g.nodes[id].inputs[k] == v;
  }

  /** After a rewrite exactly the old nodes other than `root` and the
      fragment nodes are in the graph. */
  lemma RewriteKeys(g: Graph, root: NodeId, ns: seq<Node>, rtFrom: set<NodeId>, rtTo: set<NodeId>)
    requires Closed(g) && root in g.nodes && |ns| > 0
    ensures var r := Rewrite(g, root, ns, rtFrom, rtTo);
            && r.next == g.next + |ns|
            && forall id :: id in r.nodes <==> (id in g.nodes && id != root) || g.next <= id < g.next + |ns|
  {
  }

  /** An old node other than `root` keeps its kind, attributes and name; its
      reads of `root` now read the replacement, and it gains provenance only
      if it is listed in `rtTo`. */
  lemma RewriteOldNode(g: Graph, root: NodeId, ns: seq<Node>, rtFrom: set<NodeId>, rtTo: set<NodeId>, id: NodeId)
    requires Closed(g) && root in g.nodes && |ns| > 0
    requires rtFrom <= g.nodes.Keys
    requires id in g.nodes && id != root
    ensures Rewrite(g, root, ns, rtFrom, rtTo).nodes[id] ==
              g.nodes[id].(inputs := Redirect(g.nodes[id].inputs, root, g.next + |ns| - 1),
                           rt := g.nodes[id].rt + (if id in rtTo then RtOf(g, rtFrom) else {}))
  {
  }

  /** Fragment node `i` lands at `g.next + i` exactly as built, plus the
      provenance it receives when listed in `rtTo`. */
  lemma RewriteNewNode(g: Graph, rank: map<NodeId, int>, root: NodeId, ns: seq<Node>,
                       rtFrom: set<NodeId>, rtTo: set<NodeId>, i: nat)
    requires Closed(g) && Ranked(g, rank) && root in g.nodes && i < |ns|
    requires FragmentWired(g, root, ns)
    requires rtFrom <= g.nodes.Keys
    ensures g.next + i in Rewrite(g, root, ns, rtFrom, rtTo).nodes
    ensures Rewrite(g, root, ns, rtFrom, rtTo).nodes[g.next + i] ==
              ns[i].(rt := ns[i].rt + (if g.next + i in rtTo then RtOf(g, rtFrom) else {}))
  {
    forall k | 0 <= k < |ns[i].inputs|
      ensures ns[i].inputs[k].node != root
    {
      if ns[i].inputs[k] in g.nodes[root].inputs {
        InputBelow(g, rank, root, ns[i].inputs[k]);
      }
    }
    assert Redirect(ns[i].inputs, root, g.next + |ns| - 1) == ns[i].inputs;
  }

  /** A fragment node built without provenance and listed in `rtTo`
      carries exactly the provenance of `rtFrom`. */
  lemma RewriteNewNodeGains(g: Graph, rank: map<NodeId, int>, root: NodeId, ns: seq<Node>,
                            rtFrom: set<NodeId>, rtTo: set<NodeId>, i: nat, n: Node)
    requires Closed(g) && Ranked(g, rank) && root in g.nodes && i < |ns|
    requires FragmentWired(g, root, ns)
    requires rtFrom <= g.nodes.Keys
    requires ns[i] == n && n.rt == {} && g.next + i in rtTo
    ensures g.next + i in Rewrite(g, root, ns, rtFrom, rtTo).nodes
    ensures Rewrite(g, root, ns, rtFrom, rtTo).nodes[g.next + i] == n.(rt := RtOf(g, rtFrom))
  {
    RewriteNewNode(g, rank, root, ns, rtFrom, rtTo, i);
    assert ns[i].rt + RtOf(g, rtFrom) == RtOf(g, rtFrom);
  }

  /** A rewrite keeps the graph well formed: every edge still lands on a node
      of the graph and every node keeps its arity. */
  lemma RewriteWellFormed(g: Graph, rank: map<NodeId, int>, root: NodeId, ns: seq<Node>,
                          rtFrom: set<NodeId>, rtTo: set<NodeId>)
    requires WellFormed(g) && Ranked(g, rank) && root in g.nodes && |ns| > 0
    requires FragmentWired(g, root, ns) && FragmentArityOk(ns)
    requires rtFrom <= g.nodes.Keys
    ensures WellFormed(Rewrite(g, root, ns, rtFrom, rtTo))
  {
    var r := Rewrite(g, root, ns, rtFrom, rtTo);
    RewriteKeys(g, root, ns, rtFrom, rtTo);
    forall id | id in r.nodes
      ensures id < r.next
      ensures forall k | 0 <= k < |r.nodes[id].inputs| :: r.nodes[id].inputs[k].node in r.nodes
      ensures Arity(r.nodes[id].op).Some? ==> |r.nodes[id].inputs| == Arity(r.nodes[id].op).value
    {
      if id < g.next {
        RewriteOldNode(g, root, ns, rtFrom, rtTo, id);
      } else {
        var i := id - g.next;
        RewriteNewNode(g, rank, root, ns, rtFrom, rtTo, i);
        forall k | 0 <= k < |ns[i].inputs|
          ensures ns[i].inputs[k].node in r.nodes
        {
          if ns[i].inputs[k] in g.nodes[root].inputs {
            InputBelow(g, rank, root, ns[i].inputs[k]);
          }
        }
      }
    }
  }

  /** The ranking used after a rewrite: old ranks scaled by 16, fragment node
      `i` at `16 * rank[root] - n + i`, just below where the root was. */
  function Rerank(rank: map<NodeId, int>, root: NodeId, base: NodeId, n: nat, id: NodeId): int
    requires root in rank && (id < base ==> id in rank)
  {
    if id < base then rank[id] * 16 else rank[root] * 16 - n + (id - base)
  }

  /** One edge of the rewritten graph respects `Rerank`. */
  lemma RerankEdge(g: Graph, rank: map<NodeId, int>, root: NodeId, ns: seq<Node>,
                   rtFrom: set<NodeId>, rtTo: set<NodeId>, id: NodeId, k: nat)
    requires Closed(g) && Ranked(g, rank) && root in g.nodes && 0 < |ns| < 16
    requires FragmentWired(g, root, ns)
    requires rtFrom <= g.nodes.Keys
    requires id in Rewrite(g, root, ns, rtFrom, rtTo).nodes
    requires k < |Rewrite(g, root, ns, rtFrom, rtTo).nodes[id].inputs|
    ensures var v := Rewrite(g, root, ns, rtFrom, rtTo).nodes[id].inputs[k];
            && v.node in Rewrite(g, root, ns, rtFrom, rtTo).nodes
            && (v.node < g.next ==> v.node in rank)
            && Rerank(rank, root, g.next, |ns|, v.node) < Rerank(rank, root, g.next, |ns|, id)
  {
    RewriteKeys(g, root, ns, rtFrom, rtTo);
    if id < g.next {
      RewriteOldNode(g, root, ns, rtFrom, rtTo, id);
      InputBelow(g, rank, id, g.nodes[id].inputs[k]);
    } else {
      var i := id - g.next;
      RewriteNewNode(g, rank, root, ns, rtFrom, rtTo, i);
      if ns[i].inputs[k] in g.nodes[root].inputs {
        InputBelow(g, rank, root, ns[i].inputs[k]);
      }
    }
  }

  /** A rewrite keeps the graph acyclic: `Rerank` is a ranking of the result,
      because every consumer of the removed root ranked above it and so
      still ranks above the replacement. */
  lemma RewriteKeepsRanking(g: Graph, rank: map<NodeId, int>, root: NodeId, ns: seq<Node>,
                            rtFrom: set<NodeId>, rtTo: set<NodeId>)
      returns (rank': map<NodeId, int>)
    requires Closed(g) && Ranked(g, rank) && root in g.nodes && 0 < |ns| < 16
    requires FragmentWired(g, root, ns)
    requires rtFrom <= g.nodes.Keys
    ensures Ranked(Rewrite(g, root, ns, rtFrom, rtTo), rank')
  {
    var r := Rewrite(g, root, ns, rtFrom, rtTo);
    RewriteKeys(g, root, ns, rtFrom, rtTo);
    rank' := map id | id in r.nodes :: Rerank(rank, root, g.next, |ns|, id);
    forall id, k | id in r.nodes && 0 <= k < |r.nodes[id].inputs|
      ensures r.nodes[id].inputs[k].node in rank'
      ensures rank'[r.nodes[id].inputs[k].node] < rank'[id]
    {
      RerankEdge(g, rank, root, ns, rtFrom, rtTo, id, k);
    }
  }
}

=== FILE: logical_reduction_keep_dims.dfy ===
/** Output-shape inference of a logical reduction (ReduceLogicalAnd/Or)
    whose `keep_dims` attribute is set: the output has the input's element
    type and rank, reduced axes become 1 and the others are copied. */
module LogicalReductionKeepDims {
  import opened Wrappers

  /** A dimension of a partial shape: a known extent or unknown. Interval
      bounds are not modelled. */
  datatype Dimension = Static(n: nat) | Dynamic

  datatype PartialShape = RankDynamic | Ranked(dims: seq<Dimension>)

  /** The rank, when it is known. */
  function RankOf(s: PartialShape): Option<nat> {
    if s.RankDynamic? then None else Some(|s.dims|)
  }

  /** `PartialShape::is_dynamic`: the rank or some dimension is unknown. */
  predicate IsDynamic(s: PartialShape) {
    s.RankDynamic? || Dynamic in s.dims
  }

  /** `PartialShape::dynamic(rank)`: every dimension unknown. */
  function DynamicOfRank(rank: Option<nat>): (r: PartialShape)
    ensures RankOf(r) == rank
    ensures r.Ranked? ==> forall i | 0 <= i < |r.dims| :: r.dims[i] == Dynamic
  {
    match rank
    case None => RankDynamic
    case Some(n) => Ranked(seq(n, i => Dynamic))
  }

  /** `normalize_axis` against a static rank `r`: an axis in [-r, r-1] maps
      to [0, r-1] by adding `r` to a negative one; for rank 0 the accepted
      range is [0, 0]. Anything else is out of bounds. */
  function NormalizeAxis(axis: int, r: nat): (k: Option<nat>)
    ensures k.Some? ==> (k.value == axis || k.value == axis + r)
    ensures k.Some? && r > 0 ==> k.value < r
    ensures k.Some? <==> (if r == 0 then axis == 0 else -(r as int) <= axis < r)
  {
    var lo := -(r as int);
    var hi := if r == 0 then 0 else r - 1;
    if axis < lo || axis > hi then None
    else if axis < 0 then Some(axis + r)
    else Some(axis)
  }

  /** The validation error for the first axis that cannot be normalized,
      with the axes collected before it. */
  datatype AxisError = AxisOutOfBounds(axis: int, collected: set<nat>)

  /** The normalization loop from axis `i` on, collecting into `acc`. */
  function NormalizeFrom(axes: seq<int>, r: nat, i: nat, acc: set<nat>): (res: Result<set<nat>, AxisError>)
    requires i <= |axes|
    ensures res.Success? <==> forall j | i <= j < |axes| :: NormalizeAxis(axes[j], r).Some?
    ensures res.Success? ==> res.value == acc + set j | i <= j < |axes| && NormalizeAxis(axes[j], r).Some? :: NormalizeAxis(axes[j], r).value
    ensures res.Failure? ==>
              exists j | i <= j < |axes| ::
                (res.error.axis == axes[j] && NormalizeAxis(axes[j], r).None?
                 && forall j' | i <= j' < j :: NormalizeAxis(axes[j'], r).Some?)
    decreases |axes| - i
  {
    if i == |axes| then Success(acc)
    else
      match NormalizeAxis(axes[i], r)
      case None => Failure(AxisOutOfBounds(axes[i], acc))
      case Some(k) =>
        var res := NormalizeFrom(axes, r, i + 1, acc + {k});
        assert res.Failure? ==>
                 exists j | i <= j < |axes| ::
                   (res.error.axis == axes[j] && NormalizeAxis(axes[j], r).None?
                    && forall j' | i <= j' < j :: NormalizeAxis(axes[j'], r).Some?);
        res
  }

  /** The set of normalized reduction axes, or the first bad axis. */
  function NormalizeAxes(axes: seq<int>, r: nat): Result<set<nat>, AxisError> {
    NormalizeFrom(axes, r, 0, {})
  }

  /** The output dims for static input dims and normalized axes. */
  function KeepDims(dims: seq<Dimension>, axes: set<nat>): (out: seq<Dimension>)
    ensures |out| == |dims|
    ensures forall i | 0 <= i < |dims| :: out[i] == (if i in axes then Static(1) else dims[i])
  {
    seq(|dims|, i requires 0 <= i < |dims| => if i in axes then Static(1) else dims[i])
  }

  /** `validate_and_infer_types` with `keep_dims`: the output element type
      and shape. A dynamic input, or axes that are not a constant (`None`),
      give a fully dynamic shape of the input's rank. */
  function Infer<T>(etype: T, input: PartialShape, axes: Option<seq<int>>): (r: Result<(T, PartialShape), AxisError>)
    ensures r.Success? ==> r.value.0 == etype
    ensures r.Failure? <==> !IsDynamic(input) && axes.Some? && NormalizeAxes(axes.value, |input.dims|).Failure?
  {
    if IsDynamic(input) then Success((etype, DynamicOfRank(RankOf(input))))
    else
      match axes
      case None => Success((etype, DynamicOfRank(RankOf(input))))
      case Some(a) =>
        var set_ :- NormalizeAxes(a, |input.dims|);
        Success((etype, Ranked(KeepDims(input.dims, set_))))
  }

  /** The output rank is the input rank, whatever the axes. */
  lemma InferKeepsRank<T>(etype: T, input: PartialShape, axes: Option<seq<int>>)
    requires Infer(etype, input, axes).Success?
    ensures RankOf(Infer(etype, input, axes).value.1) == RankOf(input)
  {
  }

  /** A dynamic input, or non-constant axes, give only the rank. */
  lemma InferDynamic<T>(etype: T, input: PartialShape, axes: Option<seq<int>>)
    requires IsDynamic(input) || axes.None?
    ensures Infer(etype, input, axes) == Success((etype, DynamicOfRank(RankOf(input))))
  {
  }

  /** With a static input and constant in-range axes, output dim `i` is 1
      exactly when some axis normalizes to `i`, and the input dim
      otherwise. */
  lemma InferStatic<T>(etype: T, dims: seq<Dimension>, axes: seq<int>, i: nat)
    requires Dynamic !in dims && i < |dims|
    requires forall j | 0 <= j < |axes| :: NormalizeAxis(axes[j], |dims|).Some?
    ensures Infer(etype, Ranked(dims), Some(axes)).Success?
    ensures var out := Infer(etype, Ranked(dims), Some(axes)).value.1;
            && out.Ranked? && |out.dims| == |dims|
            && ((exists j | 0 <= j < |axes| :: NormalizeAxis(axes[j], |dims|) == Some(i)) ==> out.dims[i] == Static(1))
            && ((forall j | 0 <= j < |axes| :: NormalizeAxis(axes[j], |dims|) != Some(i)) ==> out.dims[i] == dims[i])
  {
  }

  /** Only the set of axes matters: reordering or repeating axes gives the
      same output. */
  lemma InferAxesAsSet<T>(etype: T, input: PartialShape, a1: seq<int>, a2: seq<int>)
    requires forall x :: x in a1 <==> x in a2
    ensures Infer(etype, input, Some(a1)).Success? <==> Infer(etype, input, Some(a2)).Success?
    ensures Infer(etype, input, Some(a1)).Success? ==> Infer(etype, input, Some(a1)) == Infer(etype, input, Some(a2))
  {
    if !IsDynamic(input) {
      var r := |input.dims|;
      NormalizedSet(a1, r);
      NormalizedSet(a2, r);
      var s1 := set x | x in a1 && NormalizeAxis(x, r).Some? :: NormalizeAxis(x, r).value;
      var s2 := set x | x in a2 && NormalizeAxis(x, r).Some? :: NormalizeAxis(x, r).value;
      assert s1 == s2 by {
        forall k | k in s1 ensures k in s2 {
          var x :| x in a1 && NormalizeAxis(x, r).Some? && NormalizeAxis(x, r).value == k;
          assert x in a2;
        }
        forall k | k in s2 ensures k in s1 {
          var x :| x in a2 && NormalizeAxis(x, r).Some? && NormalizeAxis(x, r).value == k;
          assert x in a1;
        }
      }
    }
  }

  /** The normalized set depends only on the set of axes. */
  lemma NormalizedSet(axes: seq<int>, r: nat)
    ensures NormalizeAxes(axes, r).Success? <==> forall x | x in axes :: NormalizeAxis(x, r).Some?
    ensures NormalizeAxes(axes, r).Success? ==>
              NormalizeAxes(axes, r).value == set x | x in axes && NormalizeAxis(x, r).Some? :: NormalizeAxis(x, r).value
  {
    if NormalizeAxes(axes, r).Success? {
      var s1 := NormalizeAxes(axes, r).value;
      var s2 := set x | x in axes && NormalizeAxis(x, r).Some? :: NormalizeAxis(x, r).value;
      assert s1 == s2 by {
        forall k | k in s2
          ensures k in s1
        {
          var x :| x in axes && NormalizeAxis(x, r).Some? && NormalizeAxis(x, r).value == k;
          var j :| 0 <= j < |axes| && axes[j] == x;
        }
      }
    } else {
      var e := NormalizeAxes(axes, r).error;
      var j :| 0 <= j < |axes| && e.axis == axes[j] && NormalizeAxis(axes[j], r).None?;
    }
  }

  /** Reducing a static output again over the same axes changes nothing. */
  lemma InferIdempotent<T>(etype: T, input: PartialShape, axes: seq<int>)
    requires !IsDynamic(input) && Infer(etype, input, Some(axes)).Success?
    ensures !IsDynamic(Infer(etype, input, Some(axes)).value.1)
    ensures Infer(etype, Infer(etype, input, Some(axes)).value.1, Some(axes)) == Infer(etype, input, Some(axes))
  {
    var out := Infer(etype, input, Some(axes)).value.1;
    var s := NormalizeAxes(axes, |input.dims|).value;
    assert out == Ranked(KeepDims(input.dims, s));
    assert Dynamic !in out.dims by {
      forall i | 0 <= i < |out.dims|
        ensures out.dims[i] != Dynamic
      {
        if i !in s {
          assert out.dims[i] == input.dims[i];
        }
      }
    }
    assert KeepDims(out.dims, s) == out.dims;
  }
}

=== FILE: normalize.dfy ===
/** The clDNN `normalize` primitive: the output layout it reports and the
    shape checks its constructor makes on the per-channel scale input. */
module Normalize {
  import opened Wrappers
  import opened CInt

  datatype DataType = F16 | F32 | Int8 | UInt8 | Int32 | Int64 | Bin

  /** The memory format, kept opaque: it is only ever copied. */
  datatype Format = Format(name: string)

  /** A tensor size: batch, feature and the product of the spatial extents. */
  datatype Size = Size(batch: nat, feature: nat, spatial: nat)

  datatype Layout = Layout(dtype: DataType, format: Format, size: Size)

  /** `tensor::count`: the number of elements. */
  function Count(s: Size): nat {
    s.batch * s.feature * s.spatial
  }

  /** `calc_output_layout`; `fused` is the data type of the fused output
      layout when the node has fused primitives. */
  function CalcOutputLayout(input: Layout, fused: Option<DataType>): (out: Layout)
    ensures out.format == input.format && out.size == input.size
    ensures fused.Some? ==> out.dtype == fused.value
    ensures fused.None? && input.dtype !in {UInt8, Int8} ==> out.dtype == input.dtype
  {
    var outputType :=
      if fused.Some? then fused.value
      else if input.dtype == UInt8 || input.dtype == Int8 then F32
      else input.dtype;
    Layout(outputType, input.format, input.size)
  }

  /** Without fused primitives the output is never an 8-bit integer tensor:
      those inputs are widened to f32. */
  lemma UnfusedNeverInt8(input: Layout)
    ensures CalcOutputLayout(input, None).dtype !in {UInt8, Int8}
    ensures input.dtype in {UInt8, Int8} ==> CalcOutputLayout(input, None).dtype == F32
  {
  }

  /** Computing the unfused output layout of an unfused output layout
      changes nothing. */
  lemma CalcOutputLayoutIdempotent(input: Layout)
    ensures CalcOutputLayout(CalcOutputLayout(input, None), None) == CalcOutputLayout(input, None)
  {
  }

  /** `CLDNN_ERROR_NOT_EQUAL`: node id, both operand names and values, and
      the extra message. */
  datatype NotEqualError = NotEqual(nodeId: string, name: string, value: int, otherName: string, otherValue: int, msg: string)

  /** The constructor's checks on the scale input. */
  function CheckScale(nodeId: string, scale: Size, input: Size): (r: Result<(), NotEqualError>)
    ensures r.Success? <==>
              (scale.feature == 1 || scale.feature == input.feature)
              && Int32Of(Count(scale)) == scale.feature
    ensures r.Failure? && scale.feature != 1 && scale.feature != input.feature ==>
              r.error == NotEqual(nodeId, "Scale feature size", scale.feature, "input feature size", input.feature, "")
    ensures r.Failure? && (scale.feature == 1 || scale.feature == input.feature) ==>
              r.error.name == "Scale input size elements count"
  {
    if scale.feature != 1 && scale.feature != input.feature then
      Failure(NotEqual(nodeId, "Scale feature size", scale.feature, "input feature size", input.feature, ""))
    else if Int32Of(Count(scale)) != scale.feature then
      Failure(NotEqual(nodeId, "Scale input size elements count", Int32Of(Count(scale)), "scale feature size",
                       scale.feature, "Dimensions mismatch of scale input in Normalize layer!"))
    else Success(())
  }

  /** `b * f == f` with `f > 0` forces `b == 1`. */
  lemma {:induction false} MulIdentity(b: nat, f: nat)
    requires f > 0
    ensures b * f == f <==> b == 1
  {
    if b >= 2 {
      assert b * f == f + (b - 1) * f;
      assert (b - 1) * f >= f;
    }
  }

  /** For a scale tensor of fewer than 2^31 elements the checks accept
      exactly a feature size of 1 or of the input's, with every other
      extent 1 (a feature size of 0 leaves nothing to scale). */
  lemma {:induction false} CheckScaleShape(nodeId: string, scale: Size, input: Size)
    requires Count(scale) < 0x8000_0000
    ensures CheckScale(nodeId, scale, input).Success? <==>
              (scale.feature == 1 || scale.feature == input.feature)
              && (scale.feature == 0 || scale.batch * scale.spatial == 1)
  {
    var bs := scale.batch * scale.spatial;
    assert Count(scale) == bs * scale.feature;
    if scale.feature > 0 {
      MulIdentity(bs, scale.feature);
    }
  }
}

=== FILE: quantize_kernel_base.dfy ===
/** The shared part of the clDNN quantize kernels: which parameter sets a
    quantize kernel accepts, how the output-range inputs are classified when
    the output is packed binary, and the early exit of kernel generation. */
module QuantizeKernelBase {
  import opened Wrappers

  datatype DataType = F16 | F32 | Int8 | UInt8 | Int32 | Int64 | Binary

  /** Memory layouts; only the two the binary path names are distinguished. */
  datatype DataLayout = Bfyx | BFsYx32fp | OtherLayout(name: string)

  /** A tensor as the rules see it: element type, layout, batch, feature and
      the product of its spatial extents. */
  datatype Tensor = Tensor(dtype: DataType, layout: DataLayout, batch: nat, feature: nat, spatial: nat)

  /** Number of elements of the tensor. */
  function LogicalSize(t: Tensor): nat {
    t.batch * t.feature * t.spatial
  }

  /** `inputs` are data, input low/high and output low/high, in that order. */
  datatype QuantizeParams = QuantizeParams(
    inputs: seq<Tensor>, output: Tensor, packedBinaryOutput: bool,
    levels: nat, layerId: string)

  /** How the output low/high values are broadcast in the packed kernel. */
  datatype OutVal = SingleOutVal | PerChannelOutVal

  /** The constants that only the packed binary path adds. */
  datatype PackedJit = PackedJit(featureNumPacked: nat, ocBlockSize: nat, outVal: OutVal)

  datatype QuantizeJit = QuantizeJit(packed: Option<PackedJit>, levels: nat)

  datatype DispatchData = DispatchData(gws: seq<nat>, lws: seq<nat>)

  /** A generated kernel; `inputArgs` counts the input arguments of
      `GetArgsDesc`, which always appends the one output argument too. */
  datatype KernelData = KernelData(jit: QuantizeJit, dispatch: DispatchData, inputArgs: nat)

  const OcBlockSize: nat := 32

  function UnsupportedShape(layerId: string): string {
    "Unsupported const blob shape in node " + layerId
  }

  /** `Validate`. */
  function Validate(p: QuantizeParams): (ok: bool)
    ensures ok ==> |p.inputs| == 5
    ensures ok && p.output.dtype == Binary ==> p.output.layout == BFsYx32fp && p.inputs[0].layout == Bfyx
  {
    if |p.inputs| != 5 then false
    else if p.output.dtype == Binary && (p.output.layout != BFsYx32fp || p.inputs[0].layout != Bfyx) then false
    else true
  }

  /** Validation rejects nothing else: five inputs and, for a binary
      output, the b_fs_yx_32fp / bfyx layout pair are enough. */
  lemma ValidateComplete(p: QuantizeParams)
    requires |p.inputs| == 5
    requires p.output.dtype == Binary ==> p.output.layout == BFsYx32fp && p.inputs[0].layout == Bfyx
    ensures Validate(p)
  {
  }

  /** `CeilDiv`. */
  function CeilDiv(a: nat, b: nat): (q: nat)
    requires b > 0
  {
    (a + b - 1) / b
  }

  /** The packed feature count is the least number of 32-channel blocks that
      covers every output feature. */
  lemma {:induction false} FeatureNumPackedCovers(f: nat)
    ensures CeilDiv(f, OcBlockSize) * OcBlockSize >= f
    ensures CeilDiv(f, OcBlockSize) == 0 || (CeilDiv(f, OcBlockSize) - 1) * OcBlockSize < f
  {
    var q := (f + 31) / 32;
    var r := (f + 31) % 32;
    assert f + 31 == 32 * q + r;
  }

  /** The classification of the output-range inputs (3 and 4): single value
      when both hold one element or one per batch, per channel when both
      hold one per output feature, an error otherwise. */
  function ClassifyOutVal(lo: Tensor, hi: Tensor, outFeature: nat, layerId: string): (r: Result<OutVal, string>)
    ensures r.Failure? ==> r.error == UnsupportedShape(layerId)
    ensures r == Success(PerChannelOutVal) ==> LogicalSize(lo) == outFeature && LogicalSize(hi) == outFeature
  {
    if (LogicalSize(lo) == 1 && LogicalSize(hi) == 1)
       || (LogicalSize(lo) == lo.batch && LogicalSize(hi) == hi.batch) then Success(SingleOutVal)
    else if LogicalSize(lo) == outFeature && LogicalSize(hi) == outFeature then Success(PerChannelOutVal)
    else Failure(UnsupportedShape(layerId))
  }

  /** A tensor holds one element per batch exactly when it has no batch or
      all its non-batch extents are 1; a one-element tensor is such a
      tensor. */
  lemma {:induction false} PerBatch(t: Tensor)
    ensures LogicalSize(t) == t.batch <==> t.batch == 0 || t.feature * t.spatial == 1
    ensures LogicalSize(t) == 1 ==> LogicalSize(t) == t.batch
  {
    var fs := t.feature * t.spatial;
    var b := t.batch;
    assert LogicalSize(t) == b * fs;
    if fs >= 2 {
      assert b * fs == b * 2 + b * (fs - 2);
    }
    if b >= 2 {
      assert b * fs == 2 * fs + (b - 2) * fs;
    }
  }

  /** The single-value case is exactly "one value per batch" for both
      tensors, since a one-element tensor already has one value per batch;
      the per-channel case is taken only when that fails. */
  lemma ClassifyOutValCases(lo: Tensor, hi: Tensor, outFeature: nat, layerId: string)
    ensures ClassifyOutVal(lo, hi, outFeature, layerId) == Success(SingleOutVal) <==>
              (lo.batch == 0 || lo.feature * lo.spatial == 1) && (hi.batch == 0 || hi.feature * hi.spatial == 1)
    ensures ClassifyOutVal(lo, hi, outFeature, layerId) == Success(PerChannelOutVal) <==>
              !((lo.batch == 0 || lo.feature * lo.spatial == 1) && (hi.batch == 0 || hi.feature * hi.spatial == 1))
              && LogicalSize(lo) == outFeature && LogicalSize(hi) == outFeature
  {
    PerBatch(lo);
    PerBatch(hi);
  }

  /** The jit constants the base kernel adds; the error is the exception
      raised for an unsupported output-range shape. */
  function GetJitConstants(p: QuantizeParams): (r: Result<QuantizeJit, string>)
    requires p.packedBinaryOutput ==> |p.inputs| >= 5
    ensures r.Success? ==> r.value.levels == p.levels
    ensures r.Success? ==> (r.value.packed.Some? <==> p.packedBinaryOutput)
    ensures r.Success? && p.packedBinaryOutput ==>
              && r.value.packed.value.ocBlockSize == OcBlockSize
              && r.value.packed.value.featureNumPacked * OcBlockSize >= p.output.feature
              && (r.value.packed.value.featureNumPacked == 0
                  || (r.value.packed.value.featureNumPacked - 1) * OcBlockSize < p.output.feature)
              && Success(r.value.packed.value.outVal)
                 == ClassifyOutVal(p.inputs[3], p.inputs[4], p.output.feature, p.layerId)
    ensures r.Failure? <==>
              p.packedBinaryOutput && ClassifyOutVal(p.inputs[3], p.inputs[4], p.output.feature, p.layerId).Failure?
  {
    if p.packedBinaryOutput then
      FeatureNumPackedCovers(p.output.feature);
      var outVal :- ClassifyOutVal(p.inputs[3], p.inputs[4], p.output.feature, p.layerId);
      Success(QuantizeJit(Some(PackedJit(CeilDiv(p.output.feature, OcBlockSize), OcBlockSize, outVal)), p.levels))
    else
      Success(QuantizeJit(None, p.levels))
  }

  /** `GetKernelsData`; `dispatch` is what the concrete kernel's
      `SetDefault`, not part of this model, chooses. */
  function GetKernelsData(p: QuantizeParams, dispatch: DispatchData): (r: Result<seq<KernelData>, string>)
    ensures !Validate(p) ==> r == Success([])
    ensures r.Success? && Validate(p) ==>
              |r.value| == 1 && r.value[0].dispatch == dispatch && r.value[0].inputArgs == 5
    ensures r.Success? && Validate(p) ==> GetJitConstants(p) == Success(r.value[0].jit)
    ensures r.Failure? ==> Validate(p) && r == Failure(UnsupportedShape(p.layerId))
  {
    if !Validate(p) then Success([])
    else
      var jit :- GetJitConstants(p);
      Success([KernelData(jit, dispatch, |p.inputs|)])
  }

  /** Kernel generation yields no kernel exactly when validation fails, one
      kernel when it passes and the output-range shapes are supported, and
      fails only for a valid packed-binary request with unsupported
      shapes. */
  lemma GetKernelsDataOutcome(p: QuantizeParams, dispatch: DispatchData)
    ensures GetKernelsData(p, dispatch) == Success([]) <==> !Validate(p)
    ensures GetKernelsData(p, dispatch).Failure? <==>
              Validate(p) && p.packedBinaryOutput
              && ClassifyOutVal(p.inputs[3], p.inputs[4], p.output.feature, p.layerId).Failure?
  {
  }
}

=== FILE: reduce_l2_decomposition.dfy ===
/** The `ReduceL2Decomposition` rewrite: every ReduceL2 the pass is not
    vetoed on becomes Sqrt(ReduceSum(Power(x, 2), axes, keep_dims)). */
module ReduceL2Decomposition {
  import opened Wrappers
  import opened GraphIR

  /** The pattern is any ReduceL2; the host's `transformation_callback`
      (`veto`) can still decline the node. */
  predicate Applies(g: Graph, root: NodeId, veto: Node -> bool) {
    root in g.nodes && g.nodes[root].op.ReduceL2? && !veto(g.nodes[root])
  }

  /** What the callback reads off the ReduceL2 before building. */
  datatype Matched = Matched(
    reduce: Node,      // the ReduceL2 being replaced
    xType: ElemType)   // element type of its data input

  predicate ValidMatch(m: Matched) {
    m.reduce.op.ReduceL2? && |m.reduce.inputs| == 2
  }

  function MatchOf(g: Graph, root: NodeId): (m: Matched)
    requires WellFormed(g) && root in g.nodes && g.nodes[root].op.ReduceL2?
    ensures ValidMatch(m) && m.reduce == g.nodes[root]
    ensures m.xType == g.nodes[g.nodes[root].inputs[0].node].etype
  {
    var n := g.nodes[root];
    Matched(n, g.nodes[n.inputs[0].node].etype)
  }

  /** New node `i`, created at id `base + i`: 0 the exponent 2 as a scalar
      of the data's element type, 1 Power, 2 ReduceSum over the original
      axes with the original keep_dims, 3 Sqrt carrying the friendly name. */
  function FragNode(base: NodeId, m: Matched, i: nat): Node
    requires ValidMatch(m)
  {
    var x := m.reduce.inputs[0];
    var axes := m.reduce.inputs[1];
    if i == 0 then Node(Constant([], Reals([2.0])), [], m.xType, "", {})
    else if i == 1 then Node(Power, [x, Out(base)], m.xType, "", {})
    else if i == 2 then Node(ReduceSum(m.reduce.op.keepDims), [Out(base + 1), axes], m.xType, "", {})
    else Node(Sqrt, [Out(base + 2)], m.xType, m.reduce.name, {})
  }

  function Fragment(base: NodeId, m: Matched): (ns: seq<Node>)
    requires ValidMatch(m)
    ensures |ns| == 4
    ensures forall i | 0 <= i < 4 :: ns[i] == FragNode(base, m, i)
  {
    [FragNode(base, m, 0), FragNode(base, m, 1), FragNode(base, m, 2), FragNode(base, m, 3)]
  }

  /** Provenance sources: the ReduceL2, plus its axes input when that is a
      Constant. */
  function RtSources(g: Graph, root: NodeId): set<NodeId>
    requires root in g.nodes && |g.nodes[root].inputs| == 2
  {
    var axes := g.nodes[root].inputs[1];
    {root} + (if IsConstant(g, axes) then {axes.node} else {})
  }

  /** The ids of the four new nodes, all of which receive provenance. */
  function NewIds(base: NodeId): set<NodeId> {
    {base, base + 1, base + 2, base + 3}
  }

  function Build(g: Graph, root: NodeId, m: Matched): Graph
    requires ValidMatch(m) && root in g.nodes && |g.nodes[root].inputs| == 2
  {
    Rewrite(g, root, Fragment(g.next, m), RtSources(g, root), NewIds(g.next))
  }

  /** The matcher pass on node `root` of a well-formed graph: `None` when
      the node is not a ReduceL2 or the veto declines it, otherwise the
      rewritten graph. */
  function Apply(g: Graph, root: NodeId, veto: Node -> bool): (r: Option<Graph>)
    requires WellFormed(g)
    ensures r.Some? <==> Applies(g, root, veto)
    ensures r.Some? ==> r.value == Build(g, root, MatchOf(g, root))
  {
    if !Applies(g, root, veto) then None else Some(Build(g, root, MatchOf(g, root)))
  }

  // ---------------------------------------------------------------------
  // Properties of the rewrite
  // ---------------------------------------------------------------------

  lemma RtSourcesInGraph(g: Graph, root: NodeId)
    requires Closed(g) && root in g.nodes && |g.nodes[root].inputs| == 2
    ensures RtSources(g, root) <= g.nodes.Keys
  {
    assert g.nodes[root].inputs[1].node in g.nodes;
  }

  ghost predicate BuildPre(g: Graph, rank: map<NodeId, int>, root: NodeId, m: Matched) {
    && Closed(g) && Ranked(g, rank)
    && root in g.nodes && g.nodes[root] == m.reduce && ValidMatch(m)
  }

  /** The provenance every new node receives: the ReduceL2's annotations,
      plus the axes constant's when the axes input is a Constant. */
  lemma RtSourcesUnion(g: Graph, root: NodeId)
    requires Closed(g) && root in g.nodes && |g.nodes[root].inputs| == 2
    ensures var axes := g.nodes[root].inputs[1];
            RtOf(g, RtSources(g, root)) ==
              g.nodes[root].rt + (if IsConstant(g, axes) then g.nodes[axes.node].rt else {})
  {
  }

  lemma FragmentOk(g: Graph, root: NodeId, m: Matched)
    requires root in g.nodes && g.nodes[root] == m.reduce && ValidMatch(m)
    ensures FragmentWired(g, root, Fragment(g.next, m))
    ensures FragmentArityOk(Fragment(g.next, m))
  {
    assert m.reduce.inputs[0] in g.nodes[root].inputs;
    assert m.reduce.inputs[1] in g.nodes[root].inputs;
  }

  /** New node `i` appears in the result as built, carrying the union of
      the provenance sources. */
  lemma BuildNewNode(g: Graph, rank: map<NodeId, int>, root: NodeId, m: Matched, i: nat)
    requires BuildPre(g, rank, root, m) && i < 4
    ensures && g.next + i in Build(g, root, m).nodes
            && Build(g, root, m).nodes[g.next + i] == FragNode(g.next, m, i).(rt := RtOf(g, RtSources(g, root)))
  {
    FragmentOk(g, root, m);
    RtSourcesInGraph(g, root);
    RewriteNewNodeGains(g, rank, root, Fragment(g.next, m), RtSources(g, root),
                        NewIds(g.next), i, FragNode(g.next, m, i));
  }

  /** The fragment computes Sqrt(ReduceSum(Power(x, 2), axes, keep_dims)):
      x and axes are the ReduceL2's own inputs 0 and 1, keep_dims is copied,
      the exponent is a scalar constant 2 of x's element type, and the Sqrt
      carries the ReduceL2's friendly name. */
  lemma FragmentShape(base: NodeId, m: Matched)
    requires ValidMatch(m)
    ensures FragNode(base, m, 3).op == Sqrt && FragNode(base, m, 3).inputs == [Out(base + 2)]
    ensures FragNode(base, m, 3).name == m.reduce.name
    ensures FragNode(base, m, 2).op == ReduceSum(m.reduce.op.keepDims)
    ensures FragNode(base, m, 2).inputs == [Out(base + 1), m.reduce.inputs[1]]
    ensures FragNode(base, m, 1).op == Power && FragNode(base, m, 1).inputs == [m.reduce.inputs[0], Out(base)]
    ensures FragNode(base, m, 0).op == Constant([], Reals([2.0])) && FragNode(base, m, 0).etype == m.xType
    ensures forall i | 0 <= i < 4 :: FragNode(base, m, i).rt == {}
  {
  }

  /** The rewrite installs exactly the four new nodes at the fresh ids, and
      each carries the ReduceL2's runtime info plus, when the axes input is a
      Constant, the axes constant's. */
  lemma ApplyInstallsFragment(g: Graph, root: NodeId, veto: Node -> bool)
    requires WellFormed(g) && Acyclic(g)
    requires Applies(g, root, veto)
    ensures var r := Apply(g, root, veto).value;
            var m := MatchOf(g, root);
            var axes := g.nodes[root].inputs[1];
            && r.next == g.next + 4
            && forall i | 0 <= i < 4 ::
                 && g.next + i in r.nodes
                 && r.nodes[g.next + i] ==
                      FragNode(g.next, m, i).(rt := g.nodes[root].rt + (if IsConstant(g, axes) then g.nodes[axes.node].rt else {}))
  {
    var rank :| Ranked(g, rank);
    var m := MatchOf(g, root);
    var rtTo := NewIds(g.next);
    RewriteKeys(g, root, Fragment(g.next, m), RtSources(g, root), rtTo);
    RtSourcesUnion(g, root);
    forall i | 0 <= i < 4
      ensures && g.next + i in Build(g, root, m).nodes
              && Build(g, root, m).nodes[g.next + i] == FragNode(g.next, m, i).(rt := RtOf(g, RtSources(g, root)))
    {
      BuildNewNode(g, rank, root, m, i);
    }
  }

  lemma BuildWellFormed(g: Graph, rank: map<NodeId, int>, root: NodeId, m: Matched)
    requires BuildPre(g, rank, root, m) && WellFormed(g)
    ensures WellFormed(Build(g, root, m))
  {
    var ns := Fragment(g.next, m);
    FragmentOk(g, root, m);
    RtSourcesInGraph(g, root);
    RewriteWellFormed(g, rank, root, ns, RtSources(g, root), NewIds(g.next));
  }

  lemma BuildAcyclic(g: Graph, rank: map<NodeId, int>, root: NodeId, m: Matched)
    requires BuildPre(g, rank, root, m)
    ensures Acyclic(Build(g, root, m))
  {
    var ns := Fragment(g.next, m);
    FragmentOk(g, root, m);
    RtSourcesInGraph(g, root);
    var rank' := RewriteKeepsRanking(g, rank, root, ns, RtSources(g, root), NewIds(g.next));
  }

  /** The rewrite keeps the graph well formed and acyclic. */
  lemma ApplyPreservesGraph(g: Graph, root: NodeId, veto: Node -> bool)
    requires WellFormed(g) && Acyclic(g)
    requires Apply(g, root, veto).Some?
    ensures WellFormed(Apply(g, root, veto).value) && Acyclic(Apply(g, root, veto).value)
  {
    var rank :| Ranked(g, rank);
    BuildWellFormed(g, rank, root, MatchOf(g, root));
    BuildAcyclic(g, rank, root, MatchOf(g, root));
  }

  /** The Sqrt takes over every consumer of the ReduceL2, other edges are
      unchanged, and the ReduceL2 is gone. */
  lemma ApplyRewiresConsumers(g: Graph, root: NodeId, veto: Node -> bool, id: NodeId, k: nat)
    requires WellFormed(g)
    requires Apply(g, root, veto).Some?
    requires id in g.nodes && id != root && k < |g.nodes[id].inputs|
    ensures var r := Apply(g, root, veto).value;
            && root !in r.nodes
            && id in r.nodes
            && r.nodes[id].op == g.nodes[id].op
            && r.nodes[id].name == g.nodes[id].name
            && r.nodes[id].inputs[k] ==
                 (if g.nodes[id].inputs[k].node == root then Value(g.next + 3, g.nodes[id].inputs[k].port)
                  else g.nodes[id].inputs[k])
  {
    var m := MatchOf(g, root);
    var ns := Fragment(g.next, m);
    var rtTo := NewIds(g.next);
    RtSourcesInGraph(g, root);
    RewriteKeys(g, root, ns, RtSources(g, root), rtTo);
    RewriteOldNode(g, root, ns, RtSources(g, root), rtTo, id);
  }
}

=== FILE: wrappers.dfy ===
/** Failure-compatible wrappers used across the model in place of the
    C++ exceptions and null pointers of OpenVINO. */
module Wrappers {

  /** A value that may be absent (a null pointer, a "no change" answer). */
  datatype Option<+T> = None | Some(value: T) {

    predicate IsFailure() {
      None?
    }

    function PropagateFailure<U>(): Option<U>
      requires None?
    {
      None
    }

    function Extract(): T
      requires Some?
    {
      value
    }
  }

  /** Either a computed value or the error the C++ implementation would throw. */
  datatype Result<+T, +E> = Success(value: T) | Failure(error: E) {

    predicate IsFailure() {
      Failure?
    }

    function PropagateFailure<U>(): Result<U, E>
      requires Failure?
    {
      Failure(error)
    }

    function Extract(): T
      requires Success?
    {
      value
    }
  }
}
